=== FILE: README.md ===
# Insurance intake hub: workflow executor, rule resolver and list views

This project models the decision logic of an insurance-intake web application
in Dafny. It covers the application's three cores.

- **Workflow hub.** A workflow is a graph of TRIGGER, ACTION, CONDITION and END
  nodes joined by prioritised IF and ELSE edges.
  - A test run walks the published version of the graph for one input record.
    It applies the node actions (set status, assign user, autofill, email) and
    reports how the walk stopped.
  - Around the executor sit the condition primitive (`conditionMatches`,
    `groupMatches`), the publish validator and version numbering, the active
    flags, the enrollment gate, and the audit log with its CSV export.
  - Graph editing is modelled too: removing a node with its edges, and
    relabelling an edge as IF or ELSE.
- **Rule engine.** Scoped rules (policy > group > clinic > network > plan >
  insurance default) are matched against an input record.
  - The active, matching rule with the highest precedence and then the latest
    update wins.
  - The stores allocate `RULE-nnnnnn` codes, keep insurance-group names unique,
    toggle rules on and off without deleting them, log every evaluation, and
    export the log as CSV.
- **Secondary lists.**
  - The EV case list: a priority-ranked status sort, a filter, and sorting by
    any column.
  - The WC/PI claims list: filter, sort and pagination.
  - The "my submissions" filter and its clinic options.
  - The clinic directory's search, provider roster and save.
  - The eligibility form's date display, CPT toggle and validity.

## How the model is laid out

- Every operation is a pure function over immutable datatypes. Lists are
  `seq`s. A state update is a function from the old list to the new one.
- Ids, clock readings and the input record of a test run are parameters.
- A JavaScript string that may be absent (`undefined`, `null` or `""`, all
  falsy) is a `string`, with `""` standing for absent. Where the source reads
  `x || y`, the model uses `OrElse`.
- `Array.prototype.sort` is stable, so it is modelled by a stable insertion
  sort, `Lists.SortBy`. It takes a "sorts no later than" predicate `le(a, b)`
  that stands for `cmp(a, b) <= 0`.
- Each sort is related to its comparator by `SortedBy`, and to its input by
  a multiset equality and by `KeepsTieOrder`: the elements that tie with any
  given element keep their input order. Each `filter` is related to its input
  by `PicksAt`: the kept elements sit at strictly increasing positions, which
  are exactly the positions of the elements the predicate accepts.
- The executor's `while` loop is a group of mutually recursive functions
  (`Walk`, `Halt`, `Enter`). They terminate because the visited set grows.
  They take one round of the loop as a parameter, a function from the current
  node to a `Step`; `Simulate` passes the round `NextStep` computes for the
  definition and the input record.
- Each CSV export is proved to decode, under an independent RFC 4180 field
  reader (`Csv.Parse`), to exactly the header row plus one row per log entry.

| module | file | models |
|---|---|---|
| Options | options.dfy | `Option` |
| Strings | strings.dfy | `trim`, `toLowerCase`, `includes`, `startsWith`, `split`/`join`, `padStart`, decimal `String`/`Number`, string `<` |
| Lists | lists.dfy | stable sort, `filter`, `find`, reverse |
| Csv | csv.dfy | the quoting both exports share, and its decoder |
| SortKeys | sort_keys.dfy | `handleSort` and the `<`/`-` comparators of the list views |
| Conditions | conditions.dfy | `normalize`, `getFieldValue`, `conditionMatches`, `groupMatches` |
| WorkflowGraph | workflow_graph.dfy | nodes and edges, `validateForPublish`, the default definition, graph edits |
| WorkflowExecutor | workflow_executor.dfy | `simulate` |
| WorkflowStore | workflow_store.dfy | workflow metadata, active flags, publishing, `runTestFor`, `exportAuditCsv` |
| RuleResolver | rule_resolver.dfy | `ruleMatchesInputs`, `precedenceScore`, `scopeLevelLabel`, `pickWinningRule` |
| RuleStore | rule_store.dfy | groups, rule codes, `addRule`, toggles, `runEvaluate`, `batchReEvaluate`, `exportLogsCsv` |
| EVListing | ev_listing.dfy | the EV case list |
| WCPIListing | wcpi_listing.dfy | the WC/PI claims list |
| Submissions | submissions.dfy | the "my submissions" list |
| Clinics | clinics.dfy | the clinic directory and form |
| Eligibility | eligibility.dfy | the eligibility intake form |

## Model

| member | source | states |
|---|---|---|
| Strings.NormalizeIdempotent | views/WorkflowEngineView.tsx:179-181 | trimming and lower-casing a value that is already normalized leaves it unchanged |
| Lists.FilterKeepsOrder | views/WorkflowEngineView.tsx:1776-1789 | `filter` keeps exactly the elements that satisfy the predicate, at strictly increasing positions of the input, so in their old order |
| Lists.SortByKeepsTieOrder | views/EVClaimListingView.tsx:60-82 | `sort` is stable: under a total preorder, the elements that tie with any given element come out in the order they went in |
| Conditions.ConditionMatches | views/WorkflowEngineView.tsx:221-231 | IS_FILLED holds iff the field has a character other than whitespace and IS_EMPTY iff it has none; with a condition value, both sides are trimmed and lower-cased, and EQUALS holds iff they are equal, NOT_EQUALS iff they differ, STARTS_WITH iff the field begins with the value and CONTAINS iff the value occurs in the field; with no condition value, EQUALS holds iff the field is blank, NOT_EQUALS iff it is not, and STARTS_WITH and CONTAINS always hold |
| Conditions.AllMatch | views/WorkflowEngineView.tsx:236 | an AND group holds exactly when every one of its conditions holds |
| Conditions.AnyMatch | views/WorkflowEngineView.tsx:237 | an OR group holds exactly when at least one of its conditions holds |
| Conditions.GroupMatches | views/WorkflowEngineView.tsx:233-238 | a missing group or one with no conditions matches every record; an AND group matches iff all its conditions match; an OR group matches iff one does |
| Conditions.ComplementaryOperators | views/WorkflowEngineView.tsx:221-231 | on the same field and value, IS_FILLED and IS_EMPTY give opposite answers, and so do EQUALS and NOT_EQUALS |
| Conditions.OperatorStrength | views/WorkflowEngineView.tsx:221-231 | a condition that holds under EQUALS holds under STARTS_WITH, and one that holds under STARTS_WITH holds under CONTAINS |
| Conditions.NormalizationInvariant | views/WorkflowEngineView.tsx:221-223 | two records whose field values agree after trimming and lower-casing get the same answer from every condition on that field |
| Conditions.GroupMonotone | views/WorkflowEngineView.tsx:233-238 | adding a condition to a non-empty AND group can only turn a match into a non-match; adding one to an OR group can only turn a non-match into a match |
| WorkflowGraph.AnyDangling | views/WorkflowEngineView.tsx:1745-1749 | the edge loop finds a dangling edge iff some edge's source or target is not a node of the graph |
| WorkflowGraph.ValidateForPublish | views/WorkflowEngineView.tsx:1740-1751 | a draft passes iff it has a TRIGGER node, an END node and no dangling edge; otherwise the error is the first failing check, in the order trigger, end, edges |
| WorkflowGraph.PublishBlockAgrees | views/WorkflowEngineView.tsx:897-910 | the checks inlined in the publish action block exactly the drafts the builder's validator rejects |
| WorkflowGraph.RemoveNode | views/WorkflowEngineView.tsx:1776-1789 | removing a node drops it and every edge that leaves or enters it; the nodes and edges that stay are exactly the others, in their old order |
| WorkflowGraph.RemoveEdge | views/WorkflowEngineView.tsx:1792-1796 | removing an edge keeps every node; the edges that stay are exactly those with another id, in their old order |
| WorkflowGraph.RemoveNodeHasNode | views/WorkflowEngineView.tsx:1776-1789 | after removing a node, a node id is present iff it was present before and is not the removed one |
| WorkflowGraph.RemoveNodeKeepsEdgesResolved | views/WorkflowEngineView.tsx:1776-1789 | removing a node from a graph without dangling edges leaves none |
| WorkflowGraph.RemoveEdgeKeepsEdgesResolved | views/WorkflowEngineView.tsx:1792-1796 | removing an edge from a graph without dangling edges leaves none |
| WorkflowGraph.SetEdgeAsIf | views/WorkflowEngineView.tsx:1818-1834 | "Set as IF" labels the edge "IF" when its label was empty or began with ELSE and keeps the label otherwise, sets its priority to the larger of 1 and the old priority, and gives it a fresh empty AND group when it had no conditions; every other edge and every node are unchanged |
| WorkflowGraph.SetEdgeAsIfOnElseStaysElse | views/WorkflowEngineView.tsx:1818-1831 | an ELSE edge set as IF gets an empty group, so the executor still treats it as ELSE until a condition is added |
| WorkflowGraph.SetEdgeAsElse | views/WorkflowEngineView.tsx:1836-1843 | "Set as ELSE" makes the edge an ELSE edge labelled ELSE with priority 999, keeping its ends; every other edge is unchanged |
| WorkflowGraph.RelabelKeepsEdgesResolved | views/WorkflowEngineView.tsx:1818-1843 | relabelling an edge as IF or ELSE never creates a dangling edge |
| WorkflowGraph.DefaultDefinitionValid | views/WorkflowEngineView.tsx:259-281 | the definition a new workflow starts from passes the publish checks |
| WorkflowExecutor.ApplyActionsIsLast | views/WorkflowEngineView.tsx:372-376 | applying a node's actions to the running status and assignee gives the last SET_STATUS and the last ASSIGN_USER of everything executed so far |
| WorkflowExecutor.FindNode | views/WorkflowEngineView.tsx:369-370 | the node found for a target is a node of the graph with that id, and none is found iff no node has the id |
| WorkflowExecutor.LowestIndex | views/WorkflowEngineView.tsx:333-336 | the chosen edge qualifies, no qualifying edge has a lower priority, and every qualifying edge before it has a higher one; none is chosen iff no edge qualifies |
| WorkflowExecutor.FindInsert | views/WorkflowEngineView.tsx:333-336 | the first qualifying edge of a stably sorted list with one more edge inserted is that edge exactly when it qualifies and its priority is no higher than the old first one's |
| WorkflowExecutor.FirstOfSortedIsLowest | views/WorkflowEngineView.tsx:333-356 | the first qualifying edge after the stable sort by priority is the earliest qualifying edge of lowest priority |
| WorkflowExecutor.BranchChoice | views/WorkflowEngineView.tsx:333-356 | the branch taken is the lowest-priority IF edge whose non-empty group matches, earliest on ties, and only when there is none the lowest-priority ELSE edge; it always leaves the current node |
| WorkflowExecutor.LowestLeaves | views/WorkflowEngineView.tsx:333-336 | any edge picked from the outgoing edges leaves the current node |
| WorkflowExecutor.NextStep | views/WorkflowEngineView.tsx:338-370 | a round stops only with no outgoing path, no branch, or a missing target, and otherwise moves along an edge to a node of the graph that is its target |
| WorkflowExecutor.NextStepDecides | views/WorkflowEngineView.tsx:338-370 | a round stops with "no outgoing path" iff no edge leaves the node, with "no branch" iff edges leave but none is chosen, and at a missing target iff the chosen edge names no node; otherwise it takes the chosen edge to the first node with the target id |
| WorkflowExecutor.RoundOfDefinition | views/WorkflowEngineView.tsx:338-370 | every round of a definition either stops for one of those three reasons or moves to a node of the definition |
| WorkflowExecutor.EndsAsStepsSayIsUnique | views/WorkflowEngineView.tsx:327-394 | the description of how a run ends (the trail follows the rounds, no node is left twice, the stop reason is read off the last node) admits only one trail, reason and last step from a given start node |
| WorkflowExecutor.Walk | views/WorkflowEngineView.tsx:327-394 | the loop terminates (its measure is the number of unvisited node ids); every entered node is a node of the graph, and every node it leaves is a non-END node whose round leads to the next; it stops at an END node only by entering one, at a dead end, unmatched branch or missing target exactly where that round says so, and on a loop only on coming back to a node it left; ok is false exactly for a loop or a missing target; executed is the entered nodes' actions in order, and status and assignee are the last ones set; it extends the trail it was given by at most one node per unvisited id |
| WorkflowExecutor.Enter | views/WorkflowEngineView.tsx:372-391 | after a round into the next node the run keeps all of the loop's promises above, enters at least one and at most as many new nodes as there were unvisited ids, and never ends as "Completed." without a step |
| WorkflowExecutor.Halt | views/WorkflowEngineView.tsx:327-367 | a round that stops enters nothing more and keeps executed, status and assignee; it reports a loop on a revisited node, "Completed." on a start END node, and otherwise the round's own stop reason, with the last step only when the run succeeds |
| WorkflowExecutor.AdvanceInvariant | views/WorkflowEngineView.tsx:372-376 | appending a node to the trail appends its actions to executed and keeps status and assignee equal to the last ones set |
| WorkflowExecutor.VisitShrinks | views/WorkflowEngineView.tsx:327-331 | marking an unvisited node visited leaves one fewer unvisited node id, which bounds the number of iterations by the number of nodes |
| WorkflowExecutor.StartNode | views/WorkflowEngineView.tsx:315-316 | the run starts at the first TRIGGER node when there is one and at the first node otherwise; there is no start iff the graph has no nodes |
| WorkflowExecutor.Simulate | views/WorkflowEngineView.tsx:309-395 | the run fails with "no nodes" iff the graph is empty; otherwise it starts at the start node, and its trail, stop reason and last step are the ones the rounds of the definition determine (unique by `EndsAsStepsSayIsUnique`); ok is false exactly for no nodes, a loop or a missing target; it reports "Completed." iff the start node is an END node; executed, finalStatus and assignedTo are those of the entered nodes in order, starting from the input status |
| WorkflowExecutor.Run | views/WorkflowEngineView.tsx:314-394 | from a start node of the graph the loop enters the start node first and at most one node more than the graph has ids, and ends as its rounds determine |
| WorkflowExecutor.WalkAdvances | views/WorkflowEngineView.tsx:327-391 | a step to a non-END node continues the walk from that node with its actions applied and the current node visited |
| WorkflowExecutor.WalkEnds | views/WorkflowEngineView.tsx:380-389 | a step into an END node ends the run with ok, "Completed: reached", the END node's actions applied, and the last edge as the chosen path |
| WorkflowExecutor.SingleLeaving | views/WorkflowEngineView.tsx:333-356 | a node whose only leaving edge is an ELSE edge takes that edge, whatever the inputs |
| WorkflowExecutor.DefaultDefinitionCompletes | views/WorkflowEngineView.tsx:259-281 | the default definition, run on any record, completes at "End" with the one SET_STATUS action executed and "Pending Benefits" as the final status |
| WorkflowExecutor.RunOfTwoRounds | views/WorkflowEngineView.tsx:314-391 | a run whose rounds step from the start node to a second non-END node and from there into an END node completes there, with the three nodes' actions executed and the second step as the last path |
| WorkflowStore.MakeWorkflowMeta | views/WorkflowEngineView.tsx:283-307 | a new workflow is active, has version 1 equal to its draft, passes the publish checks, and has enrollment enabled with a non-empty gate |
| WorkflowStore.NewWorkflowEnrollment | views/WorkflowEngineView.tsx:185-187 | a new workflow enrolls a record exactly when its status normalizes to "pending benefits" |
| WorkflowStore.ToggleWorkflowActive | views/WorkflowEngineView.tsx:869-872 | only the workflows with the id flip their active flag and take the new time; the others are unchanged |
| WorkflowStore.ToggleTwice | views/WorkflowEngineView.tsx:869-872 | toggling a workflow twice restores every active flag |
| WorkflowStore.FindFirstWithId | views/WorkflowEngineView.tsx:875 | looking a workflow up by id finds the first one with the id, and nothing iff none has it |
| WorkflowStore.SetOnlyOneActive | views/WorkflowEngineView.tsx:874-879 | with no such workflow nothing changes; otherwise every workflow of the target's account type becomes active iff it has the id, and workflows of other account types are unchanged |
| WorkflowStore.OnlyOneActive | views/WorkflowEngineView.tsx:874-879 | with unique ids, afterwards the chosen workflow is the only active one of its account type |
| WorkflowStore.MaxVersion | views/WorkflowEngineView.tsx:913 | the base for the next version number is at least 0 and at least every existing version, and is 0 or one of them |
| WorkflowStore.LatestVersion | views/WorkflowEngineView.tsx:812-815 | the published version is the first version in the list with the highest number, and there is none iff there are no versions |
| WorkflowStore.SortedHeadIsFirstOfMax | views/WorkflowEngineView.tsx:812-815 | the stable descending sort puts first a version that only lower-numbered versions precede in the list |
| WorkflowStore.NewestInFrontIsLatest | views/WorkflowEngineView.tsx:912-916 | a version numbered above all others and put in front is the latest |
| WorkflowStore.PublishNewVersion | views/WorkflowEngineView.tsx:893-917 | without the workflow, or when its draft fails the checks, nothing changes; otherwise each workflow with the id gets one version in front, numbered max + 1 and holding the draft, and every other workflow is unchanged |
| WorkflowStore.PublishPrependsOneVersion | views/WorkflowEngineView.tsx:912-916 | a passing publish adds exactly one version, numbered above every earlier one, holding the draft, which becomes the published version |
| WorkflowStore.RunTestFor | views/WorkflowEngineView.tsx:1013-1067 | without a workflow or published version the message is "Select a workflow first.", for an inactive workflow the inactive message, for a record the gate rejects the not-enrolled message, and for a failed simulation its stop reason; none of these adds a log entry; a successful run shows its stop reason and the logged final status, and puts exactly one entry in front recording the workflow, name, account type, version, trigger, executed actions, final status, assignee, path, entity id (a dash when the record has none) and winning rule code; the result is ok iff the run is logged or the record was not enrolled |
| WorkflowStore.NewWorkflowRunLogsOnce | views/WorkflowEngineView.tsx:1013-1066 | a new workflow run from the Test tab on a record whose status normalizes like "Pending Benefits" succeeds and logs exactly one entry in front: version 1, the single SET_STATUS, final status "Pending Benefits" and the step from the action node into "End" |
| WorkflowStore.LoggedRun | views/WorkflowEngineView.tsx:1013-1066 | a run on an active workflow that enrolls the record and whose simulation succeeds is reported ok and puts one entry in front of the log, carrying the workflow, the version, the executed actions, the last status set and the last step |
| WorkflowStore.RunEntry | views/WorkflowEngineView.tsx:1049-1064 | the audit entry takes the given id and time, the workflow's account type, id and name, the version, the trigger, the executed actions, the final status (falling back to the input status), the assignee, the path, the record's entity id or a dash when it has none, its winning rule code and the simulation note |
| WorkflowStore.AuditRow | views/WorkflowEngineView.tsx:1069-1104 | a row has the fifteen header columns: the entry's time, the account type code, the workflow id and name, the version number in decimal, the entity id, the trigger type code, the rule code, final status, assignee and notes in their columns; the path's from, to and label, or three empty columns without a path; and the action summaries joined by a vertical bar with a space on each side |
| WorkflowStore.ActionTypeCodeIdentifiesKind | views/WorkflowEngineView.tsx:1037 | the type code logged for an action identifies its kind: two actions get the same code iff they are of the same kind |
| WorkflowStore.ExportAuditCsv | views/WorkflowEngineView.tsx:1069-1106 | the exported text decodes under RFC 4180 quoting to the header plus one 15-field row per log entry |
| WorkflowStore.AuditTableShape | views/WorkflowEngineView.tsx:1070-1104 | every row of the audit export has the 15 header columns |
| Csv.ReadQuotedEscape | views/WorkflowEngineView.tsx:1106 | a field with its quotes doubled, followed by a closing quote, reads back as the field |
| Csv.ParseEncodeRecord | views/WorkflowEngineView.tsx:1106 | a row of quoted fields joined by commas decodes to the same fields |
| Csv.ParseEncode | views/WorkflowEngineView.tsx:1106 | rows encoded with quoted fields, commas and LF decode to the same rows |
| Csv.RecordCount | views/RuleEngine.tsx:1176-1178 | the encoded text holds exactly as many records as there were rows |
| SortKeys.HandleSort | views/WCPIClaimsListingView.tsx:39-46 | clicking the current column flips the order; clicking another column selects it, ascending |
| SortKeys.HandleSortTwice | views/EVClaimListingView.tsx:35-42 | clicking the same column twice restores the header state |
| SortKeys.DescIsFlippedAsc | views/WCPIClaimsListingView.tsx:61-67 | descending order is ascending order with the arguments swapped |
| SortKeys.KeyLeTotal | views/WCPIClaimsListingView.tsx:61-67 | any two values of a column are comparable |
| SortKeys.KeyLeTransitive | views/WCPIClaimsListingView.tsx:61-67 | the column comparator is transitive on values of one kind |
| RuleResolver.RuleMatchesInputs | views/RuleEngine.tsx:121-144 | a rule matches iff the insurance names agree after trimming and lower-casing, each set plan type, network status, clinic and group id agrees likewise, and a set policy id agrees likewise under EQUALS or is a prefix of the input's under STARTS_WITH (unset fields test nothing); a rule with only an insurance name matches exactly the inputs with that name, and inputs that repeat the rule's set fields exactly always match |
| RuleResolver.EqualsImpliesStartsWith | views/RuleEngine.tsx:131-141 | a rule that matches under policy EQUALS also matches under STARTS_WITH |
| RuleResolver.ClearingFieldWidens | views/RuleEngine.tsx:127-141 | clearing any optional scope field of a matching rule keeps it matching |
| RuleResolver.PrecedenceScore | views/RuleEngine.tsx:146-154 | the score is 600, 500, 400, 300, 200 or 100, decided by the most specific filled scope field |
| RuleResolver.ScopeLevelLabel | views/RuleEngine.tsx:110-119 | the label names the same most specific filled field that decides the score |
| RuleResolver.ScoreAndLabelAgree | views/RuleEngine.tsx:110-154 | two rules have equal scores iff they have equal labels, and a policy-scoped rule outranks any rule without a policy |
| RuleResolver.RankLeIsTotalPreorder | views/RuleEngine.tsx:166-171 | the ranking by score, then recency, is total and transitive, so the sort is well defined |
| RuleResolver.CandidateKept | views/RuleEngine.tsx:158 | every active matching rule is a candidate |
| RuleResolver.CandidateOrigin | views/RuleEngine.tsx:158 | every candidate is an active matching rule of the list |
| RuleResolver.RankedHead | views/RuleEngine.tsx:166-173 | the head of the ranked candidates is a candidate that outranks or ties every candidate, and the earliest such |
| RuleResolver.WinnerIsBest | views/RuleEngine.tsx:158-173 | the winner is an active matching rule that ranks no lower than any other, and the earliest of equal rank |
| RuleResolver.PickWinningRule | views/RuleEngine.tsx:156-180 | there is no winner iff no rule is active and matching, and then the reason says so; otherwise the winner is an active matching rule with the highest score and, among equal scores, the latest update, the earliest on a full tie |
| RuleStore.MakeRuleCode | views/RuleEngine.tsx:97-100 | the code starts with "RULE-" and ends in digits, and below one million it is eleven characters long |
| RuleStore.ShortDecimal | views/RuleEngine.tsx:99 | a number below 10^k is written with at most k digits |
| RuleStore.PaddedDigits | views/RuleEngine.tsx:99 | zero-padding digits to six places keeps them digits and keeps their value |
| RuleStore.NumberValue | views/RuleEngine.tsx:551-552 | a suffix counts as a number exactly when its trimmed text is all decimal digits, and then it has the value of those digits |
| RuleStore.RuleCodeRoundTrip | views/RuleEngine.tsx:97-100 | stripping "RULE-" from a code and reading the number gives back the number it was made from |
| RuleStore.RuleCodesDistinct | views/RuleEngine.tsx:97-100 | different numbers give different codes |
| RuleStore.MaxCodeNumber | views/RuleEngine.tsx:549-553 | the largest numeric code suffix bounds every rule's and is 0 or one of them |
| RuleStore.NextRuleNumber | views/RuleEngine.tsx:549-553 | the next number is one past the greatest numeric code suffix, inactive rules included: above every suffix, and either 1 or one more than some rule's suffix |
| RuleStore.AddInsuranceGroup | views/RuleEngine.tsx:532-543 | a name whose trim equals an existing name up to case changes nothing; otherwise exactly one group with the trimmed name is appended; either way the name is then taken |
| RuleStore.AddKeepsNamesUnique | views/RuleEngine.tsx:532-538 | adding a group keeps the group names unique ignoring case |
| RuleStore.AddGroupTwice | views/RuleEngine.tsx:532-538 | adding the same name twice gives what adding it once gave |
| RuleStore.AddRule | views/RuleEngine.tsx:545-577 | the new rule is put in front, active, with createdAt equal to updatedAt and the payload's group, scope, action and match type; its code number is the next rule number; only the rule's group takes the new time |
| RuleStore.NewCodeIsFresh | views/RuleEngine.tsx:549-555 | the new rule's code differs from every existing code and its number is above every existing code number |
| RuleStore.ToggleRuleActive | views/RuleEngine.tsx:579-584 | the list keeps its length; only the rule with the id flips its active flag and takes the new time |
| RuleStore.ToggleTwiceRestores | views/RuleEngine.tsx:579-584 | toggling a rule twice restores every rule apart from its update time |
| RuleStore.BulkSetRulesActive | views/RuleEngine.tsx:586-594 | with no group selected nothing changes; otherwise exactly the group's rules take the flag and the time, and the list keeps its length |
| RuleStore.GroupRules | views/RuleEngine.tsx:527-530 | the group's rules are exactly the rules of the list with that group id, in list order |
| RuleStore.DisabledGroupHasNoWinner | views/RuleEngine.tsx:586-594 | after switching a group's rules off, an evaluation scoped to the group has no winner |
| RuleStore.InactiveRulesNeverWin | views/RuleEngine.tsx:158-163 | a list of inactive rules never yields a winner |
| RuleStore.GroupName | views/RuleEngine.tsx:610-613 | the name is that of the first group with the id, and "" when no group has it |
| RuleStore.RunEvaluate | views/RuleEngine.tsx:596-633 | the winner is the resolver's winner over the selected group's rules, or all rules; the message is "No matching enabled rule found." without a winner and otherwise the reason followed by the status the winner sets; exactly one EVALUATE entry with the given id, time and inputs goes in front of the log, with a winning rule iff there is a winner, recording its code, level, status and the reason, and the selected group's name |
| RuleStore.ScopedWinnerBelongsToGroup | views/RuleEngine.tsx:599-601 | a winner of an evaluation scoped to a group is an active matching rule of that group that outranks every other candidate of the group |
| RuleStore.GroupWinner | views/RuleEngine.tsx:599-601 | the winner among a group's rules is an active matching rule of the group ranked no lower than any candidate of the group |
| RuleStore.InGroupRules | views/RuleEngine.tsx:529 | every rule of a group's list is a rule of the whole list with that group id |
| RuleStore.GroupWinnerOutranks | views/RuleEngine.tsx:599-601 | a rule that outranks every candidate in the group's list outranks every candidate of the group in the whole list |
| RuleStore.BatchReEvaluate | views/RuleEngine.tsx:635-648 | without a selected, existing group the log is unchanged; otherwise exactly one BATCH_EVALUATE entry goes in front, with the given id and time, the inputs, the name of the first group with the id, no winner and the batch note |
| RuleStore.LogRow | views/RuleEngine.tsx:1166-1174 | a row has the seven header columns: time, type, group name and notes in their columns, and the winner's rule id, scope level and status, or three empty columns when there was no winner |
| RuleStore.LogTableShape | views/RuleEngine.tsx:1165-1174 | every row of the rule-log export has seven columns |
| RuleStore.ExportLogsCsv | views/RuleEngine.tsx:1164-1178 | the exported text decodes under RFC 4180 quoting to the header plus one row per log entry |
| EVListing.StatusPriority | views/EVClaimListingView.tsx:17-24 | every status has a rank from 1 to 6 |
| EVListing.PrioritiesDistinct | views/EVClaimListingView.tsx:17-24 | two statuses have the same rank iff they are the same status |
| EVListing.FilterRecords | views/EVClaimListingView.tsx:45-58 | the records kept are exactly those matching the search, the status and the date bounds, each once and in list order |
| EVListing.EmptyTermMatches | views/EVClaimListingView.tsx:46-49 | an empty search term matches every record |
| EVListing.OpenFilterKeepsAll | views/EVClaimListingView.tsx:45-58 | with no search, status "All" and no dates, the filter returns the list unchanged |
| EVListing.ValueOf | views/EVClaimListingView.tsx:70-71 | insurance order compares as a number, the metadata object as neither text nor number, and every other column as text |
| EVListing.DefaultLeTotal | views/EVClaimListingView.tsx:61-68 | any two records are comparable under the default order |
| EVListing.DefaultLeTransitive | views/EVClaimListingView.tsx:61-68 | the default order is transitive |
| EVListing.ColumnLeTransitive | views/EVClaimListingView.tsx:69-82 | the column comparator is transitive for every column and direction |
| EVListing.ListRecordsAsWritten | views/EVClaimListingView.tsx:44-85 | the listing as the view computes it is a permutation of the filtered records |
| EVListing.AsWrittenAgrees | views/EVClaimListingView.tsx:60-82 | for every sort state other than the status column descending, the listing as written equals the corrected listing |
| EVListing.StatusDescDoesNotReverse | views/EVClaimListingView.tsx:60-82 | a Pending case listed before an Authorized one stays before it under both directions of the status column |
| EVListing.PendingAfterAuthorizedByName | views/EVClaimListingView.tsx:69-82 | the generic comparator, descending on the status column, sorts a Pending case no later than an Authorized one |
| EVListing.ListingLeIsTotalPreorder | views/EVClaimListingView.tsx:61-82 | every sort the listing uses is total and transitive |
| EVListing.ListRecords | views/EVClaimListingView.tsx:44-85 | the listing is a permutation of the filtered records, each from the list and kept by the filter, ordered by the chosen column and direction, with records that tie on it left in their filtered order |
| EVListing.MetadataKeepsFilterOrder | views/EVClaimListingView.tsx:70-80 | sorting on the metadata column, whose values always compare as equal, leaves the filtered records in list order |
| EVListing.DefaultOrder | views/EVClaimListingView.tsx:61-68 | in the default listing a case comes no later than the next if its status ranks lower, or the same with a lower insurance order, or both the same with a clinic name that sorts no later |
| EVListing.StatusDescIsReversed | views/EVClaimListingView.tsx:60-82 | the status column descending, read backwards, is in the default ascending order |
| EVListing.ColumnDescIsReversed | views/EVClaimListingView.tsx:69-82 | any other column descending, read backwards, is that column ascending |
| WCPIListing.ValueOf | views/WCPIClaimsListingView.tsx:62-63 | the two money columns compare as numbers and every other column as text |
| WCPIListing.FilterClaims | views/WCPIClaimsListingView.tsx:48-60 | the claims kept are exactly those matching the search, the selected statuses and the selected types, each once and in list order |
| WCPIListing.StatusSelection | views/WCPIClaimsListingView.tsx:57-58 | with statuses selected, a claim is kept iff its status is among them and it is otherwise kept; with none selected, status is no restriction |
| WCPIListing.ClaimOrderIsTotalPreorder | views/WCPIClaimsListingView.tsx:61-67 | the comparator for any column and direction is total and transitive |
| WCPIListing.FilteredClaims | views/WCPIClaimsListingView.tsx:48-68 | the sorted claims are a permutation of the filtered claims, each from the list and kept by the filter, in the order of the chosen column, with claims that tie on it left in their filtered order |
| WCPIListing.DescIsReversedAsc | views/WCPIClaimsListingView.tsx:61-67 | a descending listing read backwards is ascending on the same column |
| WCPIListing.Slice | views/WCPIClaimsListingView.tsx:81 | `slice` clamps both bounds into the list, counting negative bounds from the end, and gives the entries between them or nothing |
| WCPIListing.PageStartIsProduct | views/WCPIClaimsListingView.tsx:81 | a page starts at (page - 1) times the page size |
| WCPIListing.PageOf | views/WCPIClaimsListingView.tsx:81 | from page 1 on, a page holds the consecutive entries of the list from the page's start: a full page, the rest of the list, or nothing past its end |
| WCPIListing.SliceEntries | views/WCPIClaimsListingView.tsx:81 | a slice between ordered, non-negative bounds holds at most their difference of consecutive entries |
| WCPIListing.EntryOnItsPage | views/WCPIClaimsListingView.tsx:81 | entry q * size + r of the list is entry r of page q + 1, so every entry appears on its page |
| WCPIListing.PaginatedClaims | views/WCPIClaimsListingView.tsx:81 | from page 1 on, the page shown is the slice of the sorted, filtered claims from the page's start: a full page, the rest of them, or nothing past their end |
| Submissions.ClinicOptions | views/MySubmissionsView.tsx:13-16 | the options are "All Clinics" followed by the distinct non-empty clinic names, in order of first appearance |
| Submissions.DistinctNamesSpec | views/MySubmissionsView.tsx:14 | the listed names are exactly the non-empty names that occur, each listed once, in the order of their first occurrence |
| Submissions.FilterSubmissions | views/MySubmissionsView.tsx:18-32 | the submissions kept are exactly those matching the search, status, clinic and inclusive date bounds, each once and in list order |
| Submissions.WideningKeeps | views/MySubmissionsView.tsx:20-30 | widening the clinic to "All Clinics", the status to "All", or dropping a date bound keeps every submission already kept |
| Submissions.ClinicSelection | views/MySubmissionsView.tsx:22 | with a clinic chosen, a submission is kept iff it is of that clinic and kept under "All Clinics" |
| Clinics.FilteredClinics | views/AddClinicView.tsx:93-101 | the clinics listed are exactly those matching the search and portfolio, each once and in directory order |
| Clinics.PortfolioNarrows | views/AddClinicView.tsx:98 | with a portfolio chosen, a clinic is listed iff it is in that portfolio and listed under "Select All" |
| Clinics.AddProvider | views/AddClinicView.tsx:112-117 | exactly one blank provider with the fresh id is appended and the others are unchanged |
| Clinics.WithField | views/AddClinicView.tsx:122 | the named field takes the value and the other fields keep theirs |
| Clinics.UpdateProvider | views/AddClinicView.tsx:119-124 | providers with the id take the value in the named field only; every other provider is unchanged |
| Clinics.UpdateWithSameValue | views/AddClinicView.tsx:119-124 | writing, for any value, the value every provider with the id already holds in the field leaves the roster unchanged |
| Clinics.UpdateAddedRow | views/AddClinicView.tsx:112-124 | editing a field of a freshly added provider changes only the appended row, which becomes the blank provider with that field set |
| Clinics.RemoveAddedRow | views/AddClinicView.tsx:112-133 | removing a freshly added provider from a non-empty roster gives back the roster as it was |
| Clinics.RemoveProviderAsWritten | views/AddClinicView.tsx:126-133 | a roster of at most one provider is unchanged; otherwise the providers that stay are exactly those without the id, in their old order |
| Clinics.RemoveCanEmptyRoster | views/AddClinicView.tsx:126-133 | two providers that share an id are both removed, leaving an empty roster |
| Clinics.RemoveProvider | views/AddClinicView.tsx:126-133 | a non-empty roster never becomes empty; with more than one provider the first with the id is dropped and the rest kept in order |
| Clinics.RemoveAgreesOnUniqueIds | views/AddClinicView.tsx:126-133 | while provider ids are unique, removing the first provider with the id is what the filter does |
| Clinics.EmptyForm | views/AddClinicView.tsx:69-89 | a new form starts with exactly one provider |
| Clinics.EmptyFormIncomplete | views/AddClinicView.tsx:166 | a new form cannot be saved until name, NPI, tax id and email are filled in |
| Clinics.SaveClinic | views/AddClinicView.tsx:135-151 | editing keeps the list length and every id and replaces the edited clinic by the form, keeping the old logo when there is no new one; adding appends exactly one clinic with the fresh id |
| Clinics.SaveEditIdempotent | views/AddClinicView.tsx:136-139 | saving the same edit twice gives what saving it once gave |
| Eligibility.FormatDateForDisplay | views/EligibilityVerificationView.tsx:9-15 | the empty string stays empty and nothing else becomes empty, a date with '/' is unchanged, and the length is kept |
| Eligibility.IsoDateDisplayed | views/EligibilityVerificationView.tsx:12-13 | year-month-day is shown as month/day/year |
| Eligibility.OtherTextUnchanged | views/EligibilityVerificationView.tsx:14 | text that has no '/' and does not split into three parts on '-' is shown as typed |
| Eligibility.FormatIdempotent | views/EligibilityVerificationView.tsx:9-15 | formatting a displayed date again changes nothing |
| Eligibility.ToggleCpt | views/EligibilityVerificationView.tsx:128-134 | a selected code is removed and the other codes stay, each once and in their order; an unselected code is appended |
| Eligibility.ToggleTwice | views/EligibilityVerificationView.tsx:128-134 | toggling a code twice restores the set of selected codes, and the exact list when the code was not selected |
| Eligibility.ChooseEligibility | views/EligibilityVerificationView.tsx:421-425 | choosing the eligibility path clears the CPT codes and the urgency and keeps the patient data |
| Eligibility.ChooseBenefit | views/EligibilityVerificationView.tsx:432 | choosing the benefit path changes only the path |
| Eligibility.EligibilityNeedsOnlyPrimary | views/EligibilityVerificationView.tsx:136-145 | on the eligibility path the form is valid iff the seven patient and primary-insurance fields are filled in |
| Eligibility.BenefitNeedsCptsAndUrgency | views/EligibilityVerificationView.tsx:136-145 | without a path, or on the benefit path without a CPT code or an urgency, the form is invalid |
| Eligibility.DetourClearsBenefit | views/EligibilityVerificationView.tsx:421-432 | switching to eligibility and back to benefit leaves the form invalid until CPT codes and an urgency are chosen again |

## Left out

- Rendering, the ReactFlow canvas and its node and edge mapping, modals, `alert`, the `Blob` download of both exports, `FileReader` for the clinic logo, and `localStorage` are browser I/O with no decision logic.
- `uid()`, `crypto.randomUUID`, `Date.now` and `nowIso` are parameters. Workflow and rule timestamps are integers; the audit entries' `createdAt` is an opaque string.
- Strings.Lower: lower-cases ASCII A-Z only, because `toLowerCase` applies Unicode case mapping, which is not modelled.
- `localeCompare` and the `<` order on strings are modelled as lexicographic order on characters (`Strings.Less`). Locale collation is not modelled. JavaScript's `<` compares UTF-16 code units, which differs from code-point order only for characters above U+FFFF.
- RuleStore.NumberValue: reads only trimmed decimal digits (the empty text as 0); other numerals that `Number` accepts (signs, exponents, hex) are treated as not finite, which only matters for hand-edited rule codes.
- Numbers are integers. Edge priorities, the WC/PI money columns (`caseTotal`, `balanceRemaining`) and the EV insurance order are JavaScript numbers and may be fractional (views/WorkflowEngineView.tsx:2251, constants.tsx:76). The listings and branch selection only compare them (`<`, `>`, or the sign of a difference), so their properties carry over to fractional values unchanged. The edge relabelling also compares a priority with the integer constants 1 and 999; a fractional priority there is not modelled.
- The tie-break on `updatedAt` compares the integer timestamps. The source compares the parsed ISO times, which order the same way.
- The sort in views/MySubmissionsView.tsx:33 reads only its first argument, so it is not a consistent comparator. The model stops at the filter.
- The urgency deadline arithmetic and `handleDateTimeChange` (views/EligibilityVerificationView.tsx:51-69, 113-126) read the wall clock and parse dates. The time error they may raise is a field of the intake state.
- The OCR fill, the mock data in constants.tsx, login, the dashboards and the simulated async submissions are not part of this model.
- The disposition-workflow copies of the draft, enrollment and publish actions (views/WorkflowEngineView.tsx:937-1011) repeat the workflow ones on another list and are not modelled separately.
- `createWorkflow`, `updateDraft` and `updateEnrollment` (views/WorkflowEngineView.tsx:861-891) only put a record in front or replace one field. The model covers the record `createWorkflow` builds (`MakeWorkflowMeta`).
- The node and action editors (`addNodeBlock`, `duplicateSelectedNode`, `updateNodeName`, the action and edge-metadata updates) and the condition-group editor are not modelled. The graph invariants are stated for removal and for IF/ELSE relabelling.
- The workflow and disposition search lists (`filteredWorkflows`, `filteredDispositions`) and the rule engine's group search are not modelled.
- Skipped runs follow the code, not the description of the hub: a run on an inactive workflow, or on a record the enrollment gate rejects, is not logged (views/WorkflowEngineView.tsx:1018-1028).
- `simulate` starts from the first node when there is no TRIGGER node (views/WorkflowEngineView.tsx:315). When that start node is an END node, the run reports "Completed." without taking a step.
- Both exports join rows with LF, not with the CRLF of RFC 4180, section 2, rule 1, so `Csv.Parse` splits records on LF.
- WCPIListing.PaginatedClaims: its contract describes pages from 1 on. The view never changes `currentPage` from 1; a page below 1 gives `slice` negative bounds, which `Slice` models but neither `PageOf` nor `PaginatedClaims` describes.
- The end bound of a page, `currentPage * pageSize`, is written `PageStart(page, pageSize) + pageSize`. The two are equal for all integers (`PageStartIsProduct`).
- The submissions status filter accepts any status, including 'Action Required', which the view's filter type leaves out.
- EVListing.ListRecordsAsWritten: its own contract states only the permutation. `AsWrittenAgrees` gives its order for every column and direction except the status column descending, whose order is the subject of the first finding.
- Clinics.EmptyForm: states only the single provider; its other defaults are the second entry of the portfolio list and the first clinic pod (constants.tsx:28-40), written out in the body.
- RuleResolver.PickWinningRule: does not restate the winner's reason text ("Matched n rule(s)…"); it states only the no-winner reason.

## Findings

| source | as written | input that shows it | evidently intended | confidence | as-written member | corrected member |
|---|---|---|---|---|---|---|
| views/EVClaimListingView.tsx:60-82 | Only the status column ascending uses the priority order. Descending on status falls through to the generic comparator, which orders the status names alphabetically in reverse. | A Pending case before an Authorized case is listed Pending first in both directions: Pending ranks 1 and Authorized 3, and "Pending" sorts after "Authorized" by name. | Descending on status reverses the priority order. | medium, not executed | EVListing.StatusDescDoesNotReverse | EVListing.StatusDescIsReversed |
| views/AddClinicView.tsx:126-133 | The guard lets removal go ahead with two or more providers, but the filter then drops every provider with the id. | Two providers added within one millisecond share the `Date.now()` id; removing either one leaves the roster empty. | Removing a provider never empties the roster. | low, not executed | Clinics.RemoveCanEmptyRoster | Clinics.RemoveProvider |

=== FILE: clinics.dfy ===
/**
 * The clinic directory: its search, the provider roster of the clinic form,
 * and saving the form as a new clinic or over the one being edited.
 *
 * Optional fields that are missing (`logo`, a `null` preview) are "".
 * Fresh ids (`Date.now().toString()`) are parameters.
 */
module Clinics {
  import opened Options
  import opened Lists
  import Strings

  datatype Provider = Provider(id: string, fullName: string, taxonomy: string, npi: string)

  datatype InsuranceCredential = InsuranceCredential(
    company: string, providerNumber: string, groupNumber: string, portalUrl: string,
    username: string, password: string, networkStatus: string)

  datatype SystemAccess = SystemAccess(name: string, username: string, password: string)

  datatype Clinic = Clinic(
    id: string,
    name: string,
    portfolio: string,
    pod: string,
    street: string,
    city: string,
    state: string,
    zip: string,
    email: string,
    phone: string,
    fax: string,
    npi: string,
    taxId: string,
    logo: string,
    providers: seq<Provider>,
    insuranceCredentials: seq<InsuranceCredential>,
    systemAccess: seq<SystemAccess>)

  const SelectAll := "Select All"

  // ---------------------------------------------------------------------------
  // Directory search

  /** Name and city match case-insensitively; the NPI matches as typed. */
  predicate MatchesSearch(c: Clinic, query: string) {
    var q := Strings.Lower(query);
    || Strings.Contains(Strings.Lower(c.name), q)
    || Strings.Contains(c.npi, query)
    || Strings.Contains(Strings.Lower(c.city), q)
  }

  predicate Listed(c: Clinic, query: string, portfolio: string) {
    MatchesSearch(c, query) && (portfolio == SelectAll || c.portfolio == portfolio)
  }

  /** `filteredClinics`: the clinics the search and portfolio filter keep, in list order. */
  function FilteredClinics(clinics: seq<Clinic>, query: string, portfolio: string): (r: seq<Clinic>)
    ensures forall i :: 0 <= i < |r| ==> r[i] in clinics && Listed(r[i], query, portfolio)
    ensures forall i :: 0 <= i < |clinics| && Listed(clinics[i], query, portfolio) ==> clinics[i] in r
    ensures exists idx :: (PicksAt(r, clinics, idx)
      && forall k :: 0 <= k < |clinics| ==> (k in idx <==> Listed(clinics[k], query, portfolio)))
  {
    var keep := (c: Clinic) => Listed(c, query, portfolio);
    assert forall i :: 0 <= i < |clinics| && Listed(clinics[i], query, portfolio) ==> keep(clinics[i]);
    FilterKeepsOrder(clinics, keep);
    Filter(clinics, keep)
  }

  /** Choosing a portfolio keeps exactly the clinics of that portfolio that "Select All" would list. */
  lemma PortfolioNarrows(c: Clinic, query: string, portfolio: string)
    requires portfolio != SelectAll
    ensures Listed(c, query, portfolio) <==> c.portfolio == portfolio && Listed(c, query, SelectAll)
  {
  }

  // ---------------------------------------------------------------------------
  // Provider roster

  const BlankProviderFields := ("", "", "")

  /** `addProvider`: one blank provider with the fresh id is appended. */
  function AddProvider(providers: seq<Provider>, id: string): (r: seq<Provider>)
    ensures |r| == |providers| + 1 && r[..|providers|] == providers
    ensures r[|providers|].id == id
    ensures r[|providers|].fullName == "" && r[|providers|].taxonomy == "" && r[|providers|].npi == ""
  {
    providers + [Provider(id, "", "", "")]
  }

  datatype ProviderField = Id | FullName | Taxonomy | Npi

  function FieldOf(p: Provider, field: ProviderField): string {
    match field
    case Id => p.id
    case FullName => p.fullName
    case Taxonomy => p.taxonomy
    case Npi => p.npi
  }

  /** `{ ...p, [field]: value }`. */
  function WithField(p: Provider, field: ProviderField, value: string): (q: Provider)
    ensures FieldOf(q, field) == value
    ensures forall g :: g != field ==> FieldOf(q, g) == FieldOf(p, g)
  {
    match field
    case Id => p.(id := value)
    case FullName => p.(fullName := value)
    case Taxonomy => p.(taxonomy := value)
    case Npi => p.(npi := value)
  }

  /**
   * `updateProvider`: every provider with the id takes the value in the named
   * field and keeps its other fields; the other providers are unchanged.
   */
  function UpdateProvider(providers: seq<Provider>, id: string, field: ProviderField, value: string)
    : (r: seq<Provider>)
    ensures |r| == |providers|
    ensures forall i :: 0 <= i < |providers| && providers[i].id == id ==>
      FieldOf(r[i], field) == value && forall g :: g != field ==> FieldOf(r[i], g) == FieldOf(providers[i], g)
    ensures forall i :: 0 <= i < |providers| && providers[i].id != id ==> r[i] == providers[i]
  {
    seq(|providers|, i requires 0 <= i < |providers| =>
      if providers[i].id == id then WithField(providers[i], field, value) else providers[i])
  }

  /** Writing the value a field already holds changes nothing. */
  lemma UpdateWithSameValue(providers: seq<Provider>, id: string, field: ProviderField, v: string)
    requires forall i :: 0 <= i < |providers| && providers[i].id == id ==> FieldOf(providers[i], field) == v
    ensures UpdateProvider(providers, id, field, v) == providers
  {
    var r := UpdateProvider(providers, id, field, v);
    forall i | 0 <= i < |providers| ensures r[i] == providers[i] {
      if providers[i].id == id {
        var p, q := providers[i], r[i];
        assert FieldOf(q, Id) == FieldOf(p, Id) && FieldOf(q, FullName) == FieldOf(p, FullName);
        assert FieldOf(q, Taxonomy) == FieldOf(p, Taxonomy) && FieldOf(q, Npi) == FieldOf(p, Npi);
      }
    }
  }

  /** Editing a row just added under a fresh id touches that row alone. */
  lemma UpdateAddedRow(providers: seq<Provider>, id: string, field: ProviderField, v: string)
    requires forall i :: 0 <= i < |providers| ==> providers[i].id != id
    ensures var r := UpdateProvider(AddProvider(providers, id), id, field, v);
      && |r| == |providers| + 1 && r[..|providers|] == providers
      && r[|providers|] == WithField(Provider(id, "", "", ""), field, v)
  {
    var a := AddProvider(providers, id);
    var r := UpdateProvider(a, id, field, v);
    assert r[..|providers|] == providers by {
      forall i | 0 <= i < |providers| ensures r[i] == providers[i] {
        assert a[i] == providers[i];
      }
    }
  }

  /** Removing a row just added under a fresh id gives back the roster it was added to. */
  lemma RemoveAddedRow(providers: seq<Provider>, id: string)
    requires |providers| >= 1
    requires forall i :: 0 <= i < |providers| ==> providers[i].id != id
    ensures RemoveProvider(AddProvider(providers, id), id) == providers
  {
    var a := AddProvider(providers, id);
    assert forall j :: 0 <= j < |providers| ==> a[j].id != id;
    assert a[|providers|].id == id;
    assert a[..|providers|] + a[|providers| + 1..] == providers;
  }

  /**
   * `removeProvider` as written: with more than one provider, every provider
   * with the id is dropped; otherwise the roster is left alone.
   */
  function RemoveProviderAsWritten(providers: seq<Provider>, id: string): (r: seq<Provider>)
    ensures |providers| <= 1 ==> r == providers
    ensures forall i :: 0 <= i < |r| ==> r[i] in providers
    ensures |providers| > 1 ==> forall i :: 0 <= i < |r| ==> r[i].id != id
    ensures |providers| > 1 ==> forall i :: 0 <= i < |providers| && providers[i].id != id ==> providers[i] in r
    ensures |providers| > 1 ==> exists idx :: (PicksAt(r, providers, idx)
      && forall k :: 0 <= k < |providers| ==> (k in idx <==> providers[k].id != id))
  {
    var keep := (p: Provider) => p.id != id;
    FilterKeepsOrder(providers, keep);
    if |providers| > 1 then Filter(providers, keep) else providers
  }

  /**
   * The guard does not keep the roster from emptying: ids come from the
   * millisecond clock, two rows added in the same millisecond share one, and
   * removing either row then removes both.
   */
  lemma RemoveCanEmptyRoster(id: string)
    ensures RemoveProviderAsWritten([Provider(id, "", "", ""), Provider(id, "", "", "")], id) == []
  {
    var s := [Provider(id, "", "", ""), Provider(id, "", "", "")];
    assert s[1..] == [s[1]];
    assert s[1..][1..] == [];
  }

  /** The position of the first provider with the id, if any. */
  function FirstWithId(providers: seq<Provider>, id: string): (k: Option<nat>)
    ensures k.Some? ==>
      (k.value < |providers| && providers[k.value].id == id && forall j :: 0 <= j < k.value ==> providers[j].id != id)
    ensures k.None? ==> forall j :: 0 <= j < |providers| ==> providers[j].id != id
  {
    if |providers| == 0 then None
    else if providers[0].id == id then Some(0)
    else match FirstWithId(providers[1..], id)
      case None => None
      case Some(k) => Some(k + 1)
  }

  /**
   * `removeProvider` as its guard intends: with more than one provider, the
   * row with the id is dropped (the first, should two share it), so at least
   * one provider always remains.
   */
  function RemoveProvider(providers: seq<Provider>, id: string): (r: seq<Provider>)
    ensures |providers| >= 1 ==> |r| >= 1
    ensures |providers| <= 1 ==> r == providers
    ensures |providers| > 1 ==> match FirstWithId(providers, id)
      case None => r == providers
      case Some(k) => r == providers[..k] + providers[k + 1..]
  {
    if |providers| > 1 then
      match FirstWithId(providers, id)
      case None => providers
      case Some(k) => providers[..k] + providers[k + 1..]
    else providers
  }

  predicate UniqueProviderIds(providers: seq<Provider>) {
    forall i, j :: 0 <= i < j < |providers| ==> providers[i].id != providers[j].id
  }

  /** While ids are unique, the intended removal and the code's removal agree. */
  lemma RemoveAgreesOnUniqueIds(providers: seq<Provider>, id: string)
    requires UniqueProviderIds(providers)
    ensures RemoveProvider(providers, id) == RemoveProviderAsWritten(providers, id)
  {
    if |providers| > 1 {
      var keep := (p: Provider) => p.id != id;
      match FirstWithId(providers, id)
      case None =>
        FilterAll(providers, keep);
      case Some(k) =>
        FilterDropsOne(providers, k, keep);
    }
  }

  // ---------------------------------------------------------------------------
  // The clinic form

  /** The form a new clinic starts from: one blank provider and the three system-access rows. */
  function EmptyForm(): (f: Clinic)
    ensures |f.providers| == 1
  {
    Clinic("", "", "ChiroHD", "Pod A", "", "", "", "", "", "", "", "", "", "",
           [Provider("1", "", "", "")], [],
           [SystemAccess("EMR", "", ""), SystemAccess("Email Correspondence with Payor", "", ""),
            SystemAccess("Clearinghouse", "", "")])
  }

  /** `isFormComplete`: name, NPI, tax id and email are all filled in. */
  predicate IsFormComplete(f: Clinic) {
    f.name != "" && f.npi != "" && f.taxId != "" && f.email != ""
  }

  /** A fresh form cannot be saved until the four required fields are filled in. */
  lemma EmptyFormIncomplete()
    ensures !IsFormComplete(EmptyForm())
  {
  }

  datatype FormMode = AddMode | EditMode

  /**
   * `saveClinic`: editing a selected clinic replaces every clinic with its id
   * by the form, keeping the id and, without a new logo, the old logo; any
   * other save appends the form as a new clinic with a fresh id.
   */
  function SaveClinic(clinics: seq<Clinic>, mode: FormMode, selected: Option<Clinic>, form: Clinic,
                      logoPreview: string, newId: string): (r: seq<Clinic>)
    ensures mode == EditMode && selected.Some? ==>
      |r| == |clinics|
      && forall i :: 0 <= i < |clinics| ==>
           r[i].id == clinics[i].id
           && (clinics[i].id == selected.value.id ==>
                 r[i] == form.(id := clinics[i].id, logo := if logoPreview != "" then logoPreview else clinics[i].logo))
           && (clinics[i].id != selected.value.id ==> r[i] == clinics[i])
    ensures !(mode == EditMode && selected.Some?) ==>
      |r| == |clinics| + 1 && r[..|clinics|] == clinics && r[|clinics|] == form.(id := newId, logo := logoPreview)
  {
    if mode == EditMode && selected.Some? then
      seq(|clinics|, i requires 0 <= i < |clinics| =>
        if clinics[i].id == selected.value.id
        then form.(id := clinics[i].id, logo := if logoPreview != "" then logoPreview else clinics[i].logo)
        else clinics[i])
    else clinics + [form.(id := newId, logo := logoPreview)]
  }

  /** Saving the same edit twice gives what saving it once gave. */
  lemma SaveEditIdempotent(clinics: seq<Clinic>, selected: Clinic, form: Clinic, logoPreview: string, newId: string)
    ensures var once := SaveClinic(clinics, EditMode, Some(selected), form, logoPreview, newId);
      SaveClinic(once, EditMode, Some(selected), form, logoPreview, newId) == once
  {
    var once := SaveClinic(clinics, EditMode, Some(selected), form, logoPreview, newId);
    var twice := SaveClinic(once, EditMode, Some(selected), form, logoPreview, newId);
    forall i | 0 <= i < |clinics| ensures twice[i] == once[i] {
    }
  }
}

=== FILE: conditions.dfy ===
/**
 * The condition primitive of the workflow engine: one field comparison, and an
 * AND/OR group of comparisons, evaluated against an input record after both
 * sides are put in `trim().toLowerCase()` normal form.
 */
module Conditions {
  import opened Options
  import Strings

  datatype Operator = Equals | NotEquals | StartsWith | Contains | IsFilled | IsEmpty

  /** The input attributes a condition may inspect. */
  datatype ConditionField =
    | ClinicFlag | Status | InsuranceName | PlanType | NetworkStatus
    | PolicyId | GroupId | WinningRuleCode

  /** The record a workflow run is evaluated against. */
  datatype EvalInputs = EvalInputs(
    entityId: string,
    clinicFlag: string,
    status: string,
    insuranceName: string,
    planType: string,
    networkStatus: string,
    policyId: string,
    groupId: string,
    winningRuleCode: string)

  /** `value` is absent for IS_FILLED / IS_EMPTY and read as "" when it is. */
  datatype Condition = Condition(id: string, field: ConditionField, op: Operator, value: Option<string>)

  datatype GroupOp = And | Or

  datatype ConditionGroup = ConditionGroup(id: string, groupOp: GroupOp, items: seq<Condition>)

  /** The input attribute a condition field names. */
  function FieldValue(field: ConditionField, inputs: EvalInputs): string {
    match field
    case ClinicFlag => inputs.clinicFlag
    case Status => inputs.status
    case InsuranceName => inputs.insuranceName
    case PlanType => inputs.planType
    case NetworkStatus => inputs.networkStatus
    case PolicyId => inputs.policyId
    case GroupId => inputs.groupId
    case WinningRuleCode => inputs.winningRuleCode
  }

  /** What an operator tests, given the normalized field value and the normalized condition value. */
  function Holds(op: Operator, fv: string, cv: string): bool {
    match op
    case IsFilled => |fv| > 0
    case IsEmpty => |fv| == 0
    case Equals => fv == cv
    case NotEquals => fv != cv
    case StartsWith => Strings.StartsWith(fv, cv)
    case Contains => Strings.Contains(fv, cv)
  }

  /**
   * One comparison between the normalized field value and the normalized
   * condition value. IS_FILLED and IS_EMPTY ask whether the field holds
   * anything besides whitespace; EQUALS, NOT_EQUALS, STARTS_WITH and CONTAINS
   * compare the two normalized strings. A missing condition value reads as "",
   * so EQUALS then asks for an empty field and STARTS_WITH and CONTAINS always hold.
   */
  function ConditionMatches(c: Condition, inputs: EvalInputs): (r: bool)
    ensures c.op == IsFilled ==> (r <==> Strings.Trim(FieldValue(c.field, inputs)) != "")
    ensures c.op == IsEmpty ==> (r <==> Strings.Trim(FieldValue(c.field, inputs)) == "")
    ensures c.value.None? && c.op == Equals ==> (r <==> Strings.Trim(FieldValue(c.field, inputs)) == "")
    ensures c.value.None? && c.op == NotEquals ==> (r <==> Strings.Trim(FieldValue(c.field, inputs)) != "")
    ensures c.value.None? && (c.op == StartsWith || c.op == Contains) ==> r
    ensures c.value.Some? && c.op == Equals ==>
      (r <==> Strings.Normalize(FieldValue(c.field, inputs)) == Strings.Normalize(c.value.value))
    ensures c.value.Some? && c.op == NotEquals ==>
      (r <==> Strings.Normalize(FieldValue(c.field, inputs)) != Strings.Normalize(c.value.value))
    ensures c.value.Some? && (c.op == StartsWith || c.op == Contains) ==>
      var fv := Strings.Normalize(FieldValue(c.field, inputs));
      var cv := Strings.Normalize(c.value.value);
      (r <==> if c.op == StartsWith then Strings.StartsWith(fv, cv) else Strings.Contains(fv, cv))
  {
    var fv := Strings.Normalize(FieldValue(c.field, inputs));
    var cv := Strings.Normalize(c.value.GetOr(""));
    assert c.value.None? ==> cv == "";
    assert c.value.Some? ==> cv == Strings.Normalize(c.value.value);
    Strings.NormalizeBlank(FieldValue(c.field, inputs));
    assert fv[..0] == "";
    Holds(c.op, fv, cv)
  }

  /** `results.every(Boolean)`. */
  function AllMatch(items: seq<Condition>, inputs: EvalInputs): (r: bool)
    ensures r <==> forall i :: 0 <= i < |items| ==> ConditionMatches(items[i], inputs)
  {
    if |items| == 0 then true
    else ConditionMatches(items[0], inputs) && AllMatch(items[1..], inputs)
  }

  /** `results.some(Boolean)`. */
  function AnyMatch(items: seq<Condition>, inputs: EvalInputs): (r: bool)
    ensures r <==> exists i :: 0 <= i < |items| && ConditionMatches(items[i], inputs)
  {
    if |items| == 0 then false
    else
      ConditionMatches(items[0], inputs) || AnyMatch(items[1..], inputs)
  }

  /** A group with conditions: the edges' IF branches and the enrollment gate. */
  predicate HasConditions(g: Option<ConditionGroup>) {
    g.Some? && |g.value.items| > 0
  }

  /**
   * A missing group, or one without conditions, matches everything; otherwise AND
   * needs every condition and OR at least one.
   */
  function GroupMatches(g: Option<ConditionGroup>, inputs: EvalInputs): (r: bool)
    ensures !HasConditions(g) ==> r
    ensures HasConditions(g) && g.value.groupOp == And ==>
      (r <==> forall i :: 0 <= i < |g.value.items| ==> ConditionMatches(g.value.items[i], inputs))
    ensures HasConditions(g) && g.value.groupOp == Or ==>
      (r <==> exists i :: 0 <= i < |g.value.items| && ConditionMatches(g.value.items[i], inputs))
  {
    if g.None? then true
    else if |g.value.items| == 0 then true
    else if g.value.groupOp == And then AllMatch(g.value.items, inputs)
    else AnyMatch(g.value.items, inputs)
  }

  /**
   * IS_FILLED and IS_EMPTY, and EQUALS and NOT_EQUALS, are complementary: on any
   * input exactly one of each pair holds.
   */
  lemma ComplementaryOperators(c: Condition, inputs: EvalInputs)
    ensures ConditionMatches(c.(op := IsFilled), inputs) != ConditionMatches(c.(op := IsEmpty), inputs)
    ensures ConditionMatches(c.(op := Equals), inputs) != ConditionMatches(c.(op := NotEquals), inputs)
  {
    var fv := Strings.Normalize(FieldValue(c.field, inputs));
    var cv := Strings.Normalize(c.value.GetOr(""));
    assert ConditionMatches(c.(op := IsFilled), inputs) == (|fv| > 0);
    assert ConditionMatches(c.(op := IsEmpty), inputs) == (|fv| == 0);
    assert ConditionMatches(c.(op := Equals), inputs) == (fv == cv);
    assert ConditionMatches(c.(op := NotEquals), inputs) == (fv != cv);
  }

  /** The operators are ordered by strength: EQUALS implies STARTS_WITH implies CONTAINS. */
  lemma OperatorStrength(c: Condition, inputs: EvalInputs)
    ensures ConditionMatches(c.(op := Equals), inputs) ==> ConditionMatches(c.(op := StartsWith), inputs)
    ensures ConditionMatches(c.(op := StartsWith), inputs) ==> ConditionMatches(c.(op := Contains), inputs)
  {
    var fv := Strings.Normalize(FieldValue(c.field, inputs));
    assert fv[..|fv|] == fv;
  }

  /**
   * Conditions only see the normalized field value: inputs that agree on it up to
   * surrounding whitespace and ASCII case are treated alike.
   */
  lemma NormalizationInvariant(c: Condition, a: EvalInputs, b: EvalInputs)
    requires Strings.Normalize(FieldValue(c.field, a)) == Strings.Normalize(FieldValue(c.field, b))
    ensures ConditionMatches(c, a) == ConditionMatches(c, b)
  {
  }

  /** Adding a condition to a nonempty AND group can only narrow it; to an OR group, only widen it. */
  lemma {:induction false} GroupMonotone(g: ConditionGroup, c: Condition, inputs: EvalInputs)
    requires |g.items| > 0
    ensures g.groupOp == And && GroupMatches(Some(g.(items := g.items + [c])), inputs) ==> GroupMatches(Some(g), inputs)
    ensures g.groupOp == Or && GroupMatches(Some(g), inputs) ==> GroupMatches(Some(g.(items := g.items + [c])), inputs)
  {
    var items' := g.items + [c];
    assert forall i :: 0 <= i < |g.items| ==> items'[i] == g.items[i];
  }
}

=== FILE: csv.dfy ===
/**
 * The CSV text both audit exports build: every field double-quoted with
 * internal quotes doubled (section 2, rules 5-7, of RFC 4180), fields joined
 * with ",", records joined with a line feed (not the CRLF of rule 1).
 *
 * `Parse` is a reader for exactly that dialect; `ParseEncode` proves that it
 * recovers every table, so no field content can break a record apart.
 */
module Csv {
  import opened Options

  /** Doubles every `"` (`String(v).replaceAll('"', '""')`); text without quotes is written as it is. */
  function Escape(s: string): (r: string)
    ensures '"' !in s ==> r == s
  {
    if |s| == 0 then ""
    else (if s[0] == '"' then "\"\"" else [s[0]]) + Escape(s[1..])
  }

  /** One field as written: `"` + escaped text + `"`. */
  function Quote(s: string): string {
    "\"" + Escape(s) + "\""
  }

  /** `r.map(quote).join(",")`. */
  function EncodeRecord(fields: seq<string>): string
    decreases |fields|
  {
    if |fields| == 0 then ""
    else if |fields| == 1 then Quote(fields[0])
    else Quote(fields[0]) + "," + EncodeRecord(fields[1..])
  }

  /** `rows.map(encodeRecord).join("\n")`. */
  function Encode(rows: seq<seq<string>>): string
    decreases |rows|
  {
    if |rows| == 0 then ""
    else if |rows| == 1 then EncodeRecord(rows[0])
    else EncodeRecord(rows[0]) + "\n" + Encode(rows[1..])
  }

  /**
   * Reads the body of a quoted field (after its opening quote) up to the lone
   * closing quote, undoubling `""`; returns the field and the text after it.
   */
  function ReadQuoted(s: string): (r: Option<(string, string)>)
    ensures r.Some? ==> |r.value.1| < |s|
    decreases |s|
  {
    if |s| == 0 then None
    else if s[0] == '"' then
      if |s| > 1 && s[1] == '"' then
        match ReadQuoted(s[2..])
        case None => None
        case Some((f, rest)) => Some(("\"" + f, rest))
      else Some(("", s[1..]))
    else
      match ReadQuoted(s[1..])
      case None => None
      case Some((f, rest)) => Some(([s[0]] + f, rest))
  }

  /** Reads the quoted fields of one record; returns them and the text after the record. */
  function ParseRecord(s: string): (r: Option<(seq<string>, string)>)
    ensures r.Some? ==> |r.value.0| >= 1 && |r.value.1| < |s|
    decreases |s|
  {
    if |s| == 0 || s[0] != '"' then None
    else
      match ReadQuoted(s[1..])
      case None => None
      case Some((f, rest)) =>
        if |rest| > 0 && rest[0] == ',' then
          match ParseRecord(rest[1..])
          case None => None
          case Some((fs, rest')) => Some(([f] + fs, rest'))
        else Some(([f], rest))
  }

  /** Reads a whole document of records separated by line feeds. */
  function Parse(s: string): (r: Option<seq<seq<string>>>)
    ensures r.Some? ==> |r.value| >= 1
    decreases |s|
  {
    match ParseRecord(s)
    case None => None
    case Some((fields, rest)) =>
      if |rest| == 0 then Some([fields])
      else if rest[0] == '\n' then
        match Parse(rest[1..])
        case None => None
        case Some(rows) => Some([fields] + rows)
      else None
  }

  /** An escaped field followed by its closing quote reads back as the field. */
  lemma {:induction false} ReadQuotedEscape(f: string, rest: string)
    requires |rest| == 0 || rest[0] != '"'
    ensures ReadQuoted(Escape(f) + "\"" + rest) == Some((f, rest))
    decreases |f|
  {
    var s := Escape(f) + "\"" + rest;
    if |f| == 0 {
      assert s == "\"" + rest;
      assert s[1..] == rest;
    } else {
      ReadQuotedEscape(f[1..], rest);
      var tail := Escape(f[1..]) + "\"" + rest;
      if f[0] == '"' {
        assert s == "\"\"" + tail;
        assert s[2..] == tail;
      } else {
        assert s == [f[0]] + tail;
        assert s[1..] == tail;
      }
      assert [f[0]] + f[1..] == f;
    }
  }

  /** A quoted field followed by text that does not start with a quote reads back as the field. */
  lemma ParseQuotedField(f: string, after: string)
    requires |after| == 0 || after[0] != '"'
    ensures ReadQuoted((Quote(f) + after)[1..]) == Some((f, after))
  {
    var s := Quote(f) + after;
    assert s == "\"" + (Escape(f) + "\"" + after);
    assert s[1..] == Escape(f) + "\"" + after;
    ReadQuotedEscape(f, after);
  }

  /** A record's last field, followed by a line feed or the end, ends the record. */
  lemma ParseLastField(f: string, rest: string)
    requires |rest| == 0 || rest[0] == '\n'
    ensures ParseRecord(Quote(f) + rest) == Some(([f], rest))
  {
    ParseQuotedField(f, rest);
  }

  /** A field followed by a comma is put in front of the fields read after the comma. */
  lemma ParseNextField(f: string, tail: string, fs: seq<string>, rest: string)
    requires ParseRecord(tail) == Some((fs, rest))
    ensures ParseRecord(Quote(f) + "," + tail) == Some(([f] + fs, rest))
  {
    var after := "," + tail;
    assert Quote(f) + "," + tail == Quote(f) + after;
    ParseQuotedField(f, after);
    assert after[1..] == tail;
  }

  /** A nonempty record followed by a line feed or the end reads back as its fields. */
  lemma {:induction false} ParseEncodeRecord(fields: seq<string>, rest: string)
    requires |fields| >= 1
    requires |rest| == 0 || rest[0] == '\n'
    ensures ParseRecord(EncodeRecord(fields) + rest) == Some((fields, rest))
    decreases |fields|
  {
    if |fields| == 1 {
      ParseLastField(fields[0], rest);
      assert [fields[0]] == fields;
    } else {
      ParseEncodeRecord(fields[1..], rest);
      ParseNextField(fields[0], EncodeRecord(fields[1..]) + rest, fields[1..], rest);
      assert EncodeRecord(fields) + rest == Quote(fields[0]) + "," + (EncodeRecord(fields[1..]) + rest);
      assert [fields[0]] + fields[1..] == fields;
    }
  }

  /** Decoding an encoded table gives the table back: the exporter loses nothing. */
  lemma {:induction false} ParseEncode(rows: seq<seq<string>>)
    requires |rows| >= 1
    requires forall k :: 0 <= k < |rows| ==> |rows[k]| >= 1
    ensures Parse(Encode(rows)) == Some(rows)
    decreases |rows|
  {
    if |rows| == 1 {
      ParseEncodeRecord(rows[0], "");
      assert EncodeRecord(rows[0]) + "" == Encode(rows);
      assert [rows[0]] == rows;
    } else {
      var after := "\n" + Encode(rows[1..]);
      ParseEncodeRecord(rows[0], after);
      assert Encode(rows) == EncodeRecord(rows[0]) + after;
      assert after[1..] == Encode(rows[1..]);
      ParseEncode(rows[1..]);
      assert [rows[0]] + rows[1..] == rows;
    }
  }

  /** The exported text of `rows` holds exactly `|rows|` records, however odd their contents. */
  lemma RecordCount(rows: seq<seq<string>>)
    requires |rows| >= 1
    requires forall k :: 0 <= k < |rows| ==> |rows[k]| >= 1
    ensures Parse(Encode(rows)).Some? && |Parse(Encode(rows)).value| == |rows|
  {
    ParseEncode(rows);
  }
}

=== FILE: eligibility.dfy ===
/**
 * The eligibility and benefit intake form: how an entered date is shown, the
 * CPT code picker, the path choice, and when the form may be submitted.
 *
 * The urgency deadline arithmetic reads the wall clock; here the time error it
 * may raise is part of the state.
 */
module Eligibility {
  import opened Options
  import opened Lists
  import Strings

  // ---------------------------------------------------------------------------
  // Dates

  /**
   * `formatDateForDisplay`: "" stays "", a date already written with '/' stays
   * as it is, and a y-m-d date becomes m/d/y; anything else is shown as typed.
   */
  function FormatDateForDisplay(s: string): (r: string)
    ensures r == "" <==> s == ""
    ensures '/' in s ==> r == s
    ensures |r| == |s|
  {
    if s == "" then ""
    else if '/' in s then s
    else
      var parts := Strings.Split(s, '-');
      if |parts| == 3 then
        IsoPartsLength(s, parts);
        parts[1] + "/" + parts[2] + "/" + parts[0]
      else s
  }

  lemma IsoPartsLength(s: string, parts: seq<string>)
    requires parts == Strings.Split(s, '-') && |parts| == 3
    ensures |s| == |parts[0]| + |parts[1]| + |parts[2]| + 2
  {
    Strings.JoinSplit(s, '-');
    assert Strings.Join(parts[1..], "-") == parts[1] + "-" + parts[2];
  }

  /** A year, month and day joined by '-' are shown as month/day/year. */
  lemma IsoDateDisplayed(y: string, m: string, d: string)
    requires '-' !in y && '-' !in m && '-' !in d
    requires '/' !in y && '/' !in m && '/' !in d
    ensures FormatDateForDisplay(y + "-" + m + "-" + d) == m + "/" + d + "/" + y
  {
    var parts := [y, m, d];
    var s := y + "-" + m + "-" + d;
    assert Strings.Join(parts[1..], "-") == m + "-" + d;
    assert Strings.Join(parts, "-") == s;
    Strings.SplitJoin(parts, '-');
    assert '/' !in s by {
      forall k | 0 <= k < |s| ensures s[k] != '/' {
        if k < |y| {
          assert s[k] == y[k];
        } else if k == |y| || k == |y| + 1 + |m| {
        } else if k < |y| + 1 + |m| {
          assert s[k] == m[k - |y| - 1];
        } else {
          assert s[k] == d[k - |y| - 2 - |m|];
        }
      }
    }
  }

  /** A string that is neither a y-m-d date nor written with '/' is shown unchanged. */
  lemma OtherTextUnchanged(s: string)
    requires '/' !in s && |Strings.Split(s, '-')| != 3
    ensures FormatDateForDisplay(s) == s
  {
  }

  /** Formatting an already formatted date changes nothing more. */
  lemma FormatIdempotent(s: string)
    ensures FormatDateForDisplay(FormatDateForDisplay(s)) == FormatDateForDisplay(s)
  {
    var r := FormatDateForDisplay(s);
    if r != s {
      var parts := Strings.Split(s, '-');
      assert r == parts[1] + "/" + parts[2] + "/" + parts[0];
      assert r[|parts[1]|] == '/';
    }
  }

  // ---------------------------------------------------------------------------
  // CPT codes

  /** `toggleCPT`: a selected code is removed, any other code is appended. */
  function ToggleCpt(selected: seq<string>, code: string): (r: seq<string>)
    ensures code in selected ==> code !in r && forall x :: x != code ==> (x in r <==> x in selected)
    ensures code in selected ==> exists idx :: (PicksAt(r, selected, idx)
      && forall k :: 0 <= k < |selected| ==> (k in idx <==> selected[k] != code))
    ensures code !in selected ==> r == selected + [code]
  {
    if code in selected then
      var r := Filter(selected, (c: string) => c != code);
      FilterKeepsOrder(selected, (c: string) => c != code);
      assert forall x :: x in selected && x != code ==> x in r by {
        forall x | x in selected && x != code ensures x in r {
          var i :| 0 <= i < |selected| && selected[i] == x;
        }
      }
      r
    else selected + [code]
  }

  /**
   * Toggling a code twice restores the selected codes: exactly the same list
   * when it was not selected, the same codes (now with this one last) when it was.
   */
  lemma ToggleTwice(selected: seq<string>, code: string)
    ensures forall x :: x in ToggleCpt(ToggleCpt(selected, code), code) <==> x in selected
    ensures code !in selected ==> ToggleCpt(ToggleCpt(selected, code), code) == selected
  {
    var once := ToggleCpt(selected, code);
    if code !in selected {
      var p := (c: string) => c != code;
      FilterAll(selected, p);
      FilterDropsOne(once, |selected|, p);
      assert once[..|selected|] == selected;
    }
  }

  // ---------------------------------------------------------------------------
  // The form

  datatype PatientForm = PatientForm(
    firstName: string,
    lastName: string,
    middleName: string,
    dob: string,
    primaryCarrier: string,
    primaryPolicyId: string,
    primaryGroup: string,
    primarySubscriber: string,
    secondaryCarrier: string,
    secondaryPolicyId: string,
    secondaryGroup: string,
    secondarySubscriber: string)

  datatype CheckPath = EligibilityCheck | BenefitCheck

  datatype Urgency = Urgent | Standard | Other

  /** What submission depends on; `timeError` is the message shown under the requested time, if any. */
  datatype IntakeState = IntakeState(
    form: PatientForm,
    path: Option<CheckPath>,
    selectedCpts: seq<string>,
    urgency: Option<Urgency>,
    timeError: Option<string>)

  /** The seven required patient and primary-insurance fields are filled in. */
  predicate PrimaryComplete(f: PatientForm) {
    && f.firstName != "" && f.lastName != "" && f.dob != ""
    && f.primaryCarrier != "" && f.primaryPolicyId != "" && f.primaryGroup != "" && f.primarySubscriber != ""
  }

  /** `!timeError`: no message, or an empty one. */
  predicate NoTimeError(st: IntakeState) {
    st.timeError.None? || st.timeError.value == ""
  }

  /** `isFormValid`. */
  predicate IsFormValid(st: IntakeState) {
    && PrimaryComplete(st.form)
    && st.path.Some?
    && (st.path.value == EligibilityCheck || (st.urgency.Some? && NoTimeError(st) && |st.selectedCpts| > 0))
  }

  /** Choosing the eligibility path: the CPT selection and the urgency are cleared. */
  function ChooseEligibility(st: IntakeState): (r: IntakeState)
    ensures r.path == Some(EligibilityCheck) && r.selectedCpts == [] && r.urgency.None?
    ensures r.form == st.form && r.timeError == st.timeError
  {
    st.(path := Some(EligibilityCheck), selectedCpts := [], urgency := None)
  }

  /** Choosing the benefit path keeps everything else. */
  function ChooseBenefit(st: IntakeState): (r: IntakeState)
    ensures r.path == Some(BenefitCheck)
    ensures r.form == st.form && r.selectedCpts == st.selectedCpts && r.urgency == st.urgency && r.timeError == st.timeError
  {
    st.(path := Some(BenefitCheck))
  }

  /** On the eligibility path the form is valid exactly when the primary fields are complete. */
  lemma EligibilityNeedsOnlyPrimary(st: IntakeState)
    ensures IsFormValid(ChooseEligibility(st)) <==> PrimaryComplete(st.form)
  {
  }

  /** Without a chosen path, or on the benefit path without a CPT code or an urgency, the form cannot be submitted. */
  lemma BenefitNeedsCptsAndUrgency(st: IntakeState)
    ensures st.path.None? ==> !IsFormValid(st)
    ensures st.path == Some(BenefitCheck) && (|st.selectedCpts| == 0 || st.urgency.None?) ==> !IsFormValid(st)
  {
  }

  /** Going to the eligibility path and back to the benefit path loses the CPT codes, so the form must be completed again. */
  lemma DetourClearsBenefit(st: IntakeState)
    ensures !IsFormValid(ChooseBenefit(ChooseEligibility(st)))
  {
  }
}

=== FILE: ev_listing.dfy ===
/**
 * The EV case list: a search, status and date filter, then a sort. The default
 * order (status column, ascending) ranks cases by status priority, then by
 * insurance order, then by clinic name; every other column sorts by its own
 * value, text by `localeCompare` and numbers by difference.
 */
module EVListing {
  import opened Options
  import opened Lists
  import opened SortKeys
  import Strings

  datatype EVStatus = Pending | ActionRequired | Authorized | Completed | Denied | Closed

  function StatusText(s: EVStatus): string {
    match s
    case Pending => "Pending"
    case ActionRequired => "Action Required"
    case Authorized => "Authorized"
    case Completed => "Completed"
    case Denied => "Denied"
    case Closed => "Closed"
  }

  /** `STATUS_PRIORITY`. */
  function StatusPriority(s: EVStatus): (p: int)
    ensures 1 <= p <= 6
  {
    match s
    case Pending => 1
    case ActionRequired => 2
    case Authorized => 3
    case Completed => 4
    case Denied => 5
    case Closed => 6
  }

  /** The six statuses have six distinct ranks, so the ranking is a strict order on statuses. */
  lemma PrioritiesDistinct(s: EVStatus, t: EVStatus)
    ensures StatusPriority(s) == StatusPriority(t) <==> s == t
  {
  }

  datatype EVMetadata = EVMetadata(
    createdBy: string, createdAt: string, lastUpdatedAt: string, lastUpdatedBy: string,
    notes: string, relatedPolicyIds: seq<string>)

  datatype EVRecord = EVRecord(
    uniqueId: string,
    submittedDate: string,
    clinicName: string,
    requestedBackDate: string,
    insuranceName: string,
    insuranceOrder: int,
    evStatus: EVStatus,
    metadata: EVMetadata)

  datatype SortField =
    UniqueId | SubmittedDate | ClinicName | RequestedBackDate | InsuranceName | InsuranceOrder | EvStatus | Metadata

  /** The header state of this listing. */
  type EVSortState = SortState<SortField>

  // ---------------------------------------------------------------------------
  // Filter

  /** The filter bar: a search term, a status (`None` for "All") and optional date bounds ("" when unset). */
  datatype EVFilter = EVFilter(searchTerm: string, status: Option<EVStatus>, startDate: string, endDate: string)

  predicate MatchesSearch(r: EVRecord, term: string) {
    var q := Strings.Lower(term);
    || Strings.Contains(Strings.Lower(r.uniqueId), q)
    || Strings.Contains(Strings.Lower(r.clinicName), q)
    || Strings.Contains(Strings.Lower(r.insuranceName), q)
  }

  predicate MatchesStatus(r: EVRecord, status: Option<EVStatus>) {
    status.None? || r.evStatus == status.value
  }

  /** `submitted_date >= startDate` and `<= endDate`, each only when the bound is set. */
  predicate MatchesDates(r: EVRecord, startDate: string, endDate: string) {
    && (startDate != "" ==> Strings.LessEq(startDate, r.submittedDate))
    && (endDate != "" ==> Strings.LessEq(r.submittedDate, endDate))
  }

  predicate Kept(f: EVFilter, r: EVRecord) {
    MatchesSearch(r, f.searchTerm) && MatchesStatus(r, f.status) && MatchesDates(r, f.startDate, f.endDate)
  }

  /** The records the filter keeps, in their original order. */
  function FilterRecords(records: seq<EVRecord>, f: EVFilter): (r: seq<EVRecord>)
    ensures forall i :: 0 <= i < |r| ==> r[i] in records && Kept(f, r[i])
    ensures forall i :: 0 <= i < |records| && Kept(f, records[i]) ==> records[i] in r
    ensures exists idx :: (PicksAt(r, records, idx)
      && forall k :: 0 <= k < |records| ==> (k in idx <==> Kept(f, records[k])))
  {
    var keep := (x: EVRecord) => Kept(f, x);
    assert forall i :: 0 <= i < |records| && Kept(f, records[i]) ==> keep(records[i]);
    FilterKeepsOrder(records, keep);
    Filter(records, keep)
  }

  /** Every string contains the empty string, so an empty search keeps everything. */
  lemma EmptyTermMatches(s: string)
    ensures Strings.Contains(s, "")
  {
    assert Strings.StartsWith(s, "") by { assert s[..0] == ""; }
  }

  /** With an empty search, status "All" and no date bounds, the filter keeps the list as it is. */
  lemma OpenFilterKeepsAll(records: seq<EVRecord>)
    ensures FilterRecords(records, EVFilter("", None, "", "")) == records
  {
    var f := EVFilter("", None, "", "");
    forall i | 0 <= i < |records| ensures Kept(f, records[i]) {
      EmptyTermMatches(Strings.Lower(records[i].uniqueId));
      assert Strings.Lower("") == "";
    }
    FilterAll(records, (x: EVRecord) => Kept(f, x));
  }

  // ---------------------------------------------------------------------------
  // Comparators

  /** The default comparator, `cmp(a, b) <= 0`: priority, then insurance order, then clinic name. */
  predicate DefaultLe(a: EVRecord, b: EVRecord) {
    var pa := StatusPriority(a.evStatus);
    var pb := StatusPriority(b.evStatus);
    if pa != pb then pa < pb
    else if a.insuranceOrder != b.insuranceOrder then a.insuranceOrder < b.insuranceOrder
    else Strings.LessEq(a.clinicName, b.clinicName)
  }

  /** A column's value as the generic comparator sees it; the metadata object always ties. */
  function ValueOf(r: EVRecord, field: SortField): (k: SortKey)
    ensures field == InsuranceOrder ==> k.Number?
    ensures field == Metadata ==> k.Opaque?
    ensures field != InsuranceOrder && field != Metadata ==> k.Text?
  {
    match field
    case UniqueId => Text(r.uniqueId)
    case SubmittedDate => Text(r.submittedDate)
    case ClinicName => Text(r.clinicName)
    case RequestedBackDate => Text(r.requestedBackDate)
    case InsuranceName => Text(r.insuranceName)
    case InsuranceOrder => Number(r.insuranceOrder)
    case EvStatus => Text(StatusText(r.evStatus))
    case Metadata => Opaque
  }

  /** The generic comparator, `cmp(a, b) <= 0`. */
  predicate ColumnLe(field: SortField, order: SortOrder, a: EVRecord, b: EVRecord) {
    KeyLe(order, ValueOf(a, field), ValueOf(b, field))
  }

  lemma DefaultLeTotal(x: EVRecord, y: EVRecord)
    ensures DefaultLe(x, y) || DefaultLe(y, x)
  {
    Strings.LessEqTotal(x.clinicName, y.clinicName);
  }

  lemma DefaultLeTransitive(x: EVRecord, y: EVRecord, z: EVRecord)
    requires DefaultLe(x, y) && DefaultLe(y, z)
    ensures DefaultLe(x, z)
  {
    if StatusPriority(x.evStatus) == StatusPriority(y.evStatus) == StatusPriority(z.evStatus)
       && x.insuranceOrder == y.insuranceOrder == z.insuranceOrder {
      Strings.LessEqTransitive(x.clinicName, y.clinicName, z.clinicName);
    }
  }

  lemma ColumnLeTransitive(field: SortField, order: SortOrder, x: EVRecord, y: EVRecord, z: EVRecord)
    requires ColumnLe(field, order, x, y) && ColumnLe(field, order, y, z)
    ensures ColumnLe(field, order, x, z)
  {
    KeyLeTransitive(order, ValueOf(x, field), ValueOf(y, field), ValueOf(z, field));
  }

  // ---------------------------------------------------------------------------
  // The listing

  /** The comparator the listing sorts with, exactly as the view chooses it. */
  predicate OrderedAsWritten(state: EVSortState, a: EVRecord, b: EVRecord) {
    if state.field == EvStatus && state.order == Asc then DefaultLe(a, b)
    else ColumnLe(state.field, state.order, a, b)
  }

  function ListingLeAsWritten(state: EVSortState): (EVRecord, EVRecord) -> bool {
    (a, b) => OrderedAsWritten(state, a, b)
  }

  /** `filteredAndSortedRecords` as the view computes it. */
  function ListRecordsAsWritten(records: seq<EVRecord>, f: EVFilter, state: EVSortState): (r: seq<EVRecord>)
    ensures multiset(r) == multiset(FilterRecords(records, f))
  {
    SortBy(FilterRecords(records, f), ListingLeAsWritten(state))
  }

  /**
   * Flipping the status column from its default ascending order to descending
   * does not reverse the priority order: the descending branch falls through
   * to the generic comparator, which orders the status names alphabetically
   * backwards, and a Pending case stays ahead of an Authorized one both ways.
   */
  lemma StatusDescDoesNotReverse(a: EVRecord, b: EVRecord)
    requires a.evStatus == Pending && b.evStatus == Authorized
    ensures ListRecordsAsWritten([a, b], EVFilter("", None, "", ""), SortState(EvStatus, Asc)) == [a, b]
    ensures ListRecordsAsWritten([a, b], EVFilter("", None, "", ""), SortState(EvStatus, Desc)) == [a, b]
  {
    OpenFilterKeepsAll([a, b]);
    assert OrderedAsWritten(SortState(EvStatus, Asc), a, b);
    SortPair(a, b, ListingLeAsWritten(SortState(EvStatus, Asc)));
    PendingAfterAuthorizedByName(a, b);
    SortPair(a, b, ListingLeAsWritten(SortState(EvStatus, Desc)));
  }

  lemma PendingAfterAuthorizedByName(a: EVRecord, b: EVRecord)
    requires a.evStatus == Pending && b.evStatus == Authorized
    ensures OrderedAsWritten(SortState(EvStatus, Desc), a, b)
  {
    assert Strings.Less("Authorized", "Pending");
    Strings.LessAsymmetric("Authorized", "Pending");
  }

  /**
   * The comparator with the status column's descending order taken to be the
   * reverse of the default order, as the column's ascending order suggests.
   */
  predicate Ordered(state: EVSortState, a: EVRecord, b: EVRecord) {
    if state.field == EvStatus && state.order == Asc then DefaultLe(a, b)
    else if state.field == EvStatus then DefaultLe(b, a)
    else ColumnLe(state.field, state.order, a, b)
  }

  function ListingLe(state: EVSortState): (EVRecord, EVRecord) -> bool {
    (a, b) => Ordered(state, a, b)
  }

  lemma ListingLeIsTotalPreorder(state: EVSortState)
    ensures TotalPreorder(ListingLe(state))
  {
    forall x, y ensures Ordered(state, x, y) || Ordered(state, y, x) {
      if state.field == EvStatus {
        DefaultLeTotal(x, y);
      } else {
        KeyLeTotal(state.order, ValueOf(x, state.field), ValueOf(y, state.field));
      }
    }
    forall x, y, z | Ordered(state, x, y) && Ordered(state, y, z) ensures Ordered(state, x, z) {
      if state.field == EvStatus && state.order == Asc {
        DefaultLeTransitive(x, y, z);
      } else if state.field == EvStatus {
        DefaultLeTransitive(z, y, x);
      } else {
        ColumnLeTransitive(state.field, state.order, x, y, z);
      }
    }
  }

  /**
   * The listing: the filtered records, a permutation of them, in the order the
   * chosen column and direction give, with records that tie on it left in
   * their filtered order.
   */
  function ListRecords(records: seq<EVRecord>, f: EVFilter, state: EVSortState): (r: seq<EVRecord>)
    ensures multiset(r) == multiset(FilterRecords(records, f))
    ensures forall i :: 0 <= i < |r| ==> r[i] in records && Kept(f, r[i])
    ensures SortedBy(r, ListingLe(state))
    ensures KeepsTieOrder(r, FilterRecords(records, f), ListingLe(state))
  {
    var kept := FilterRecords(records, f);
    ListingLeIsTotalPreorder(state);
    SortBySorted(kept, ListingLe(state));
    SortByKeepsTieOrder(kept, ListingLe(state));
    var r := SortBy(kept, ListingLe(state));
    forall i | 0 <= i < |r| ensures r[i] in records && Kept(f, r[i]) {
      assert r[i] in multiset(kept);
      var j :| 0 <= j < |kept| && kept[j] == r[i];
    }
    r
  }

  /**
   * Except in the status column's descending order, the listing as written
   * sorts with the same comparator as the corrected one, so the two lists
   * agree: what is proved about `ListRecords` holds for the code as written.
   */
  lemma AsWrittenAgrees(records: seq<EVRecord>, f: EVFilter, state: EVSortState)
    requires state != SortState(EvStatus, Desc)
    ensures ListRecordsAsWritten(records, f, state) == ListRecords(records, f, state)
  {
    SortByCongruent(FilterRecords(records, f), ListingLeAsWritten(state), ListingLe(state));
  }

  /** The metadata column compares every pair as a tie, so sorting on it leaves the filtered order as it is. */
  lemma MetadataKeepsFilterOrder(records: seq<EVRecord>, f: EVFilter, order: SortOrder)
    ensures ListRecords(records, f, SortState(Metadata, order)) == FilterRecords(records, f)
  {
    var kept := FilterRecords(records, f);
    var le := ListingLe(SortState(Metadata, order));
    assert forall i, j :: 0 <= i < |kept| && 0 <= j < |kept| ==> le(kept[i], kept[j]);
    AllTiedKeepsOrder(kept, le);
  }

  /**
   * In the default order, cases come by status priority; equal priorities come
   * by insurance order; and equal both by clinic name.
   */
  lemma DefaultOrder(records: seq<EVRecord>, f: EVFilter, i: nat, j: nat)
    requires var r := ListRecords(records, f, SortState(EvStatus, Asc)); i < j < |r|
    ensures var r := ListRecords(records, f, SortState(EvStatus, Asc));
      && StatusPriority(r[i].evStatus) <= StatusPriority(r[j].evStatus)
      && (r[i].evStatus == r[j].evStatus ==> r[i].insuranceOrder <= r[j].insuranceOrder)
      && (r[i].evStatus == r[j].evStatus && r[i].insuranceOrder == r[j].insuranceOrder ==>
            Strings.LessEq(r[i].clinicName, r[j].clinicName))
  {
    var r := ListRecords(records, f, SortState(EvStatus, Asc));
    assert ListingLe(SortState(EvStatus, Asc))(r[i], r[j]);
    PrioritiesDistinct(r[i].evStatus, r[j].evStatus);
  }

  /** With the status column descending, the listing read backwards is in the default order. */
  lemma StatusDescIsReversed(records: seq<EVRecord>, f: EVFilter)
    ensures SortedBy(Reverse(ListRecords(records, f, SortState(EvStatus, Desc))), (a, b) => DefaultLe(a, b))
  {
    var r := ListRecords(records, f, SortState(EvStatus, Desc));
    forall i, j | 0 <= i < j < |r| ensures DefaultLe(r[j], r[i]) {
      assert ListingLe(SortState(EvStatus, Desc))(r[i], r[j]);
    }
    SortedReverse(r, (a, b) => DefaultLe(a, b));
  }

  /** On any other column, a descending listing read backwards is in ascending order. */
  lemma ColumnDescIsReversed(records: seq<EVRecord>, f: EVFilter, field: SortField)
    requires field != EvStatus
    ensures SortedBy(Reverse(ListRecords(records, f, SortState(field, Desc))), ListingLe(SortState(field, Asc)))
  {
    var r := ListRecords(records, f, SortState(field, Desc));
    var asc := ListingLe(SortState(field, Asc));
    forall i, j | 0 <= i < j < |r| ensures asc(r[j], r[i]) {
      assert ListingLe(SortState(field, Desc))(r[i], r[j]);
      DescIsFlippedAsc(ValueOf(r[i], field), ValueOf(r[j], field));
    }
    SortedReverse(r, asc);
  }
}

=== FILE: lists.dfy ===
/**
 * The array operations the views use: `filter`, `find`, and
 * `Array.prototype.sort` with a comparator `cmp`, which is stable
 * (ECMAScript 2019 and later). It is modelled as a stable insertion sort under
 * `le(a, b) := cmp(a, b) <= 0`: for a comparator that is a total preorder the
 * stable sorted order is unique, so the two agree.
 */
module Lists {
  import opened Options

  ghost predicate TotalPreorder<T(!new)>(le: (T, T) -> bool) {
    && (forall x, y :: le(x, y) || le(y, x))
    && (forall x, y, z :: le(x, y) && le(y, z) ==> le(x, z))
  }

  ghost predicate SortedBy<T>(s: seq<T>, le: (T, T) -> bool) {
    forall i, j :: 0 <= i < j < |s| ==> le(s[i], s[j])
  }

  /** Puts `x` in front of the first element it does not come after. */
  function Insert<T>(x: T, s: seq<T>, le: (T, T) -> bool): (r: seq<T>)
    ensures multiset(r) == multiset(s) + multiset{x}
    ensures |r| == |s| + 1
  {
    if |s| == 0 || le(x, s[0]) then [x] + s
    else
      assert s == [s[0]] + s[1..];
      [s[0]] + Insert(x, s[1..], le)
  }

  /** The stable sort of `s` under `le`. */
  function SortBy<T>(s: seq<T>, le: (T, T) -> bool): (r: seq<T>)
    ensures multiset(r) == multiset(s)
    ensures |r| == |s|
  {
    if |s| == 0 then []
    else
      assert s == [s[0]] + s[1..];
      Insert(s[0], SortBy(s[1..], le), le)
  }

  /** Two elements stay in order exactly when the first may precede the second. */
  lemma SortPair<T>(a: T, b: T, le: (T, T) -> bool)
    ensures SortBy([a, b], le) == if le(a, b) then [a, b] else [b, a]
  {
    assert [a, b][1..] == [b];
    assert [b][1..] == [];
  }

  lemma {:induction false} InsertSorted<T(!new)>(x: T, s: seq<T>, le: (T, T) -> bool)
    requires TotalPreorder(le)
    requires SortedBy(s, le)
    ensures SortedBy(Insert(x, s, le), le)
    decreases |s|
  {
    if |s| == 0 || le(x, s[0]) {
    } else {
      var t := Insert(x, s[1..], le);
      InsertSorted(x, s[1..], le);
      assert le(s[0], x);
      assert forall y :: y in multiset(t) ==> y == x || y in multiset(s[1..]);
      forall j | 0 <= j < |t| ensures le(s[0], t[j]) {
        assert t[j] in multiset(t);
        if t[j] != x {
          assert t[j] in s[1..];
        }
      }
    }
  }

  /** The output of `SortBy` is ordered by any total preorder. */
  lemma {:induction false} SortBySorted<T(!new)>(s: seq<T>, le: (T, T) -> bool)
    requires TotalPreorder(le)
    ensures SortedBy(SortBy(s, le), le)
    decreases |s|
  {
    if |s| > 0 {
      SortBySorted(s[1..], le);
      InsertSorted(s[0], SortBy(s[1..], le), le);
    }
  }

  /** Sorting depends only on what the comparator answers, not on how it is written. */
  lemma {:induction false} SortByCongruent<T>(s: seq<T>, le1: (T, T) -> bool, le2: (T, T) -> bool)
    requires forall a, b :: le1(a, b) == le2(a, b)
    ensures SortBy(s, le1) == SortBy(s, le2)
    decreases |s|
  {
    if |s| > 0 {
      SortByCongruent(s[1..], le1, le2);
      InsertCongruent(s[0], SortBy(s[1..], le1), le1, le2);
    }
  }

  lemma {:induction false} InsertCongruent<T>(x: T, s: seq<T>, le1: (T, T) -> bool, le2: (T, T) -> bool)
    requires forall a, b :: le1(a, b) == le2(a, b)
    ensures Insert(x, s, le1) == Insert(x, s, le2)
    decreases |s|
  {
    if |s| > 0 && !le1(x, s[0]) {
      InsertCongruent(x, s[1..], le1, le2);
    }
  }

  /** `a` and `b` tie under `le`: each may come before the other. */
  predicate Ties<T>(le: (T, T) -> bool, a: T, b: T) {
    le(a, b) && le(b, a)
  }

  /** The test for the elements that tie with `x`. */
  function TiesWith<T>(le: (T, T) -> bool, x: T): T -> bool {
    y => Ties(le, x, y)
  }

  /** Every group of elements that tie under `le` comes in `r` in the order it has in `s`. */
  ghost predicate KeepsTieOrder<T(!new)>(r: seq<T>, s: seq<T>, le: (T, T) -> bool) {
    forall x :: Filter(r, TiesWith(le, x)) == Filter(s, TiesWith(le, x))
  }

  /** The sort is stable: elements that tie keep the order they had. */
  lemma {:induction false} SortByKeepsTieOrder<T(!new)>(s: seq<T>, le: (T, T) -> bool)
    requires TotalPreorder(le)
    ensures KeepsTieOrder(SortBy(s, le), s, le)
    decreases |s|
  {
    if |s| > 0 {
      SortByKeepsTieOrder(s[1..], le);
      forall x ensures Filter(SortBy(s, le), TiesWith(le, x)) == Filter(s, TiesWith(le, x)) {
        SortByKeepsTiesWith(s, le, x);
      }
    }
  }

  lemma SortByKeepsTiesWith<T(!new)>(s: seq<T>, le: (T, T) -> bool, x: T)
    requires TotalPreorder(le) && |s| > 0
    requires Filter(SortBy(s[1..], le), TiesWith(le, x)) == Filter(s[1..], TiesWith(le, x))
    ensures Filter(SortBy(s, le), TiesWith(le, x)) == Filter(s, TiesWith(le, x))
  {
    var q := TiesWith(le, x);
    var rest := SortBy(s[1..], le);
    assert SortBy(s, le) == Insert(s[0], rest, le);
    InsertKeepsTieOrder(s[0], rest, le, x);
    FilterCons(s[0], rest, q);
    FilterCons(s[0], s[1..], q);
    ConsTail(s);
  }

  /** Inserting `a` moves it only past elements that come strictly before it, none of which ties with anything `a` ties with. */
  lemma {:induction false} InsertKeepsTieOrder<T(!new)>(a: T, t: seq<T>, le: (T, T) -> bool, x: T)
    requires TotalPreorder(le)
    ensures Filter(Insert(a, t, le), TiesWith(le, x)) == Filter([a] + t, TiesWith(le, x))
    decreases |t|
  {
    if |t| > 0 && !le(a, t[0]) {
      var q := TiesWith(le, x);
      var t1 := t[1..];
      var i1 := Insert(a, t1, le);
      InsertKeepsTieOrder(a, t1, le, x);
      NotBothTie(a, t[0], le, x);
      FilterCons(t[0], i1, q);
      FilterCons(a, t1, q);
      FilterCons(a, t, q);
      FilterCons(t[0], t1, q);
      ConsTail(t);
      assert Insert(a, t, le) == [t[0]] + i1;
      if q(a) {
        assert Filter(Insert(a, t, le), q) == [a] + Filter(t1, q);
      } else {
        assert Filter(Insert(a, t, le), q) == Filter([t[0]] + t1, q);
      }
    }
  }

  /** Two elements of which the first may not precede the second do not both tie with one element. */
  lemma NotBothTie<T(!new)>(a: T, b: T, le: (T, T) -> bool, x: T)
    requires TotalPreorder(le) && !le(a, b)
    ensures !(Ties(le, x, a) && Ties(le, x, b))
  {
  }

  lemma FilterCons<T>(h: T, s: seq<T>, p: T -> bool)
    ensures Filter([h] + s, p) == if p(h) then [h] + Filter(s, p) else Filter(s, p)
  {
    assert ([h] + s)[1..] == s;
  }

  lemma ConsTail<T>(s: seq<T>)
    requires |s| > 0
    ensures [s[0]] + s[1..] == s
  {
  }

  /** A sequence whose elements all tie is already in its stable sorted order. */
  lemma {:induction false} AllTiedKeepsOrder<T>(s: seq<T>, le: (T, T) -> bool)
    requires forall i, j :: 0 <= i < |s| && 0 <= j < |s| ==> le(s[i], s[j])
    ensures SortBy(s, le) == s
    decreases |s|
  {
    if |s| > 0 {
      var t := s[1..];
      assert forall i, j :: 0 <= i < |t| && 0 <= j < |t| ==> le(t[i], t[j]) by {
        forall i, j | 0 <= i < |t| && 0 <= j < |t| ensures le(t[i], t[j]) {
          assert t[i] == s[i + 1] && t[j] == s[j + 1];
        }
      }
      AllTiedKeepsOrder(t, le);
      if |t| > 0 {
        assert le(s[0], t[0]) by { assert t[0] == s[1]; }
      }
      ConsTail(s);
    }
  }

  /** The head of a stable sort: the first element if it comes no later than the sorted rest's head. */
  lemma SortByHead<T>(s: seq<T>, le: (T, T) -> bool)
    requires |s| > 0
    ensures SortBy(s, le)[0] == (if |s| == 1 || le(s[0], SortBy(s[1..], le)[0]) then s[0] else SortBy(s[1..], le)[0])
  {
  }

  /** The head of a sort under a total preorder comes no later than every element. */
  lemma HeadOfSortByIsLeast<T(!new)>(s: seq<T>, le: (T, T) -> bool)
    requires TotalPreorder(le) && |s| > 0
    ensures forall i :: 0 <= i < |s| ==> le(SortBy(s, le)[0], s[i])
  {
    var r := SortBy(s, le);
    SortBySorted(s, le);
    forall i | 0 <= i < |s| ensures le(r[0], s[i]) {
      assert s[i] in multiset(r);
      var j :| 0 <= j < |r| && r[j] == s[i];
      assert j == 0 || le(r[0], r[j]);
    }
  }

  /** Where the head of a stable sort sits in `s`: no earlier element may precede it. */
  function HeadIndex<T>(s: seq<T>, le: (T, T) -> bool): (k: nat)
    requires |s| > 0
    ensures k < |s| && s[k] == SortBy(s, le)[0]
    ensures forall i :: 0 <= i < k ==> !le(s[i], s[k])
    decreases |s|
  {
    SortByHead(s, le);
    if |s| == 1 || le(s[0], SortBy(s[1..], le)[0]) then 0
    else
      var k := HeadIndex(s[1..], le);
      ShiftEarliest(s, k, le);
      k + 1
  }

  lemma ShiftEarliest<T>(s: seq<T>, k: nat, le: (T, T) -> bool)
    requires k + 1 < |s| && !le(s[0], s[k + 1])
    requires forall i :: 0 <= i < k ==> !le(s[1..][i], s[1..][k])
    ensures forall i :: 0 <= i < k + 1 ==> !le(s[i], s[k + 1])
  {
    forall i | 0 < i < k + 1 ensures !le(s[i], s[k + 1]) {
      assert s[i] == s[1..][i - 1];
    }
  }

  /** The head of a stable sort is an element of `s` that no earlier element may precede. */
  lemma HeadOfSortByIsEarliest<T>(s: seq<T>, le: (T, T) -> bool)
    requires |s| > 0
    ensures exists k :: 0 <= k < |s| && s[k] == SortBy(s, le)[0] && forall i :: 0 <= i < k ==> !le(s[i], s[k])
  {
    var k := HeadIndex(s, le);
    assert s[k] == SortBy(s, le)[0];
  }

  /**
   * The head of a stable sort under a total preorder comes no later than every
   * element, and is the earliest element of `s` that ties with it.
   */
  lemma HeadOfSortBy<T(!new)>(s: seq<T>, le: (T, T) -> bool)
    requires TotalPreorder(le) && |s| > 0
    ensures forall i :: 0 <= i < |s| ==> le(SortBy(s, le)[0], s[i])
    ensures exists k :: 0 <= k < |s| && s[k] == SortBy(s, le)[0] && forall i :: 0 <= i < k ==> !le(s[i], s[k])
  {
    HeadOfSortByIsLeast(s, le);
    HeadOfSortByIsEarliest(s, le);
  }

  /** `s.find(p)`: the first element satisfying `p`, if any. */
  function Find<T>(s: seq<T>, p: T -> bool): (r: Option<T>)
    ensures r.Some? ==> p(r.value) && exists k :: 0 <= k < |s| && s[k] == r.value && forall i :: 0 <= i < k ==> !p(s[i])
    ensures r.None? ==> forall i :: 0 <= i < |s| ==> !p(s[i])
  {
    if |s| == 0 then None
    else if p(s[0]) then Some(s[0])
    else
      var r := Find(s[1..], p);
      assert r.Some? ==> exists k :: 0 <= k < |s| - 1 && s[1..][k] == r.value && forall i :: 0 <= i < k ==> !p(s[1..][i]);
      assert r.Some? ==> exists k :: 1 <= k < |s| && s[k] == r.value && forall i :: 0 <= i < k ==> !p(s[i]);
      r
  }

  /** `s.filter(p)`: the elements satisfying `p`, in their original order. */
  function Filter<T>(s: seq<T>, p: T -> bool): (r: seq<T>)
    ensures |r| <= |s|
    ensures forall i :: 0 <= i < |r| ==> r[i] in s && p(r[i])
    ensures forall i :: 0 <= i < |s| && p(s[i]) ==> s[i] in r
    ensures multiset(r) <= multiset(s)
  {
    if |s| == 0 then []
    else
      assert s == [s[0]] + s[1..];
      (if p(s[0]) then [s[0]] else []) + Filter(s[1..], p)
  }

  /** `r` is the subsequence of `s` at the strictly increasing positions `idx`. */
  ghost predicate PicksAt<T>(r: seq<T>, s: seq<T>, idx: seq<nat>) {
    && |idx| == |r|
    && (forall i :: 0 <= i < |idx| ==> idx[i] < |s| && r[i] == s[idx[i]])
    && (forall i, j :: 0 <= i < j < |idx| ==> idx[i] < idx[j])
  }

  /** The positions of the elements of `s` that satisfy `p`, in increasing order. */
  function FilterIndices<T>(s: seq<T>, p: T -> bool): (idx: seq<nat>)
    ensures forall i :: 0 <= i < |idx| ==> idx[i] < |s|
    decreases |s|
  {
    if |s| == 0 then []
    else (if p(s[0]) then [0] else []) + Shift(FilterIndices(s[1..], p))
  }

  function Shift(idx: seq<nat>): (r: seq<nat>)
    ensures |r| == |idx| && forall i :: 0 <= i < |idx| ==> r[i] == idx[i] + 1
  {
    seq(|idx|, i requires 0 <= i < |idx| => idx[i] + 1)
  }

  /**
   * A filter keeps exactly the elements that satisfy `p`, in their original
   * order: the result is the subsequence at `FilterIndices`, which holds every
   * position whose element satisfies `p` and no other.
   */
  lemma FilterKeepsOrder<T>(s: seq<T>, p: T -> bool)
    ensures PicksAt(Filter(s, p), s, FilterIndices(s, p))
    ensures forall k :: 0 <= k < |s| ==> (k in FilterIndices(s, p) <==> p(s[k]))
  {
    FilterPicks(s, p);
    FilterIndicesExact(s, p);
  }

  lemma {:induction false} FilterPicks<T>(s: seq<T>, p: T -> bool)
    ensures PicksAt(Filter(s, p), s, FilterIndices(s, p))
    decreases |s|
  {
    if |s| > 0 {
      var t := s[1..];
      FilterPicks(t, p);
      var sh := Shift(FilterIndices(t, p));
      ShiftedPicks(Filter(t, p), s, FilterIndices(t, p));
      if p(s[0]) {
        ShiftMember(FilterIndices(t, p), 0);
        ConsPicks(Filter(t, p), s, sh);
      } else {
        assert Filter(s, p) == Filter(t, p) && FilterIndices(s, p) == sh by {
          assert [] + Filter(t, p) == Filter(t, p) && [] + sh == sh;
        }
      }
    }
  }

  lemma {:induction false} FilterIndicesExact<T>(s: seq<T>, p: T -> bool)
    ensures forall k :: 0 <= k < |s| ==> (k in FilterIndices(s, p) <==> p(s[k]))
    decreases |s|
  {
    if |s| > 0 {
      var t := s[1..];
      FilterIndicesExact(t, p);
      var ri := FilterIndices(t, p);
      var head: seq<nat> := if p(s[0]) then [0] else [];
      assert FilterIndices(s, p) == head + Shift(ri);
      forall k | 0 <= k < |s| ensures (k in FilterIndices(s, p) <==> p(s[k])) {
        ShiftMember(ri, k);
        if k > 0 {
          assert t[k - 1] == s[k];
        }
      }
    }
  }

  lemma ShiftMember(idx: seq<nat>, k: nat)
    ensures k in Shift(idx) <==> k > 0 && k - 1 in idx
  {
    var sh := Shift(idx);
    if k > 0 && k - 1 in idx {
      var i :| 0 <= i < |idx| && idx[i] == k - 1;
      assert sh[i] == k;
    }
  }

  /** Positions in `s[1..]` are the same picks one place further on in `s`. */
  lemma ShiftedPicks<T>(r: seq<T>, s: seq<T>, idx: seq<nat>)
    requires |s| > 0 && PicksAt(r, s[1..], idx)
    ensures PicksAt(r, s, Shift(idx))
  {
    var sh := Shift(idx);
    forall i | 0 <= i < |sh| ensures sh[i] < |s| && r[i] == s[sh[i]] {
      assert r[i] == s[1..][idx[i]];
    }
  }

  lemma ConsPicks<T>(r: seq<T>, s: seq<T>, idx: seq<nat>)
    requires |s| > 0 && PicksAt(r, s, idx) && 0 !in idx
    ensures PicksAt([s[0]] + r, s, [0] + idx)
  {
    var r', idx' := [s[0]] + r, [0] + idx;
    forall i | 1 <= i < |idx'| ensures idx'[i] < |s| && r'[i] == s[idx'[i]] && 0 < idx'[i] {
      assert r'[i] == r[i - 1] && idx'[i] == idx[i - 1];
      assert idx[i - 1] in idx;
    }
  }

  /** Two sequences that each go on by applying `f` agree from a common first element for as long as both go. */
  lemma {:induction false} SameOrbit<T>(f: T -> T, t1: seq<T>, t2: seq<T>, n: nat)
    requires forall i :: 0 <= i < |t1| - 1 ==> t1[i + 1] == f(t1[i])
    requires forall i :: 0 <= i < |t2| - 1 ==> t2[i + 1] == f(t2[i])
    requires 0 < n <= |t1| && n <= |t2| && t1[0] == t2[0]
    ensures t1[..n] == t2[..n]
  {
    if n > 1 {
      SameOrbit(f, t1, t2, n - 1);
      assert t1[n - 2] == t1[..n - 1][n - 2] && t2[n - 2] == t2[..n - 1][n - 2];
      assert t1[..n] == t1[..n - 1] + [t1[n - 1]] && t2[..n] == t2[..n - 1] + [t2[n - 1]];
    }
  }

  /** A filter that every element passes keeps the sequence as it is. */
  lemma {:induction false} FilterAll<T>(s: seq<T>, p: T -> bool)
    requires forall i :: 0 <= i < |s| ==> p(s[i])
    ensures Filter(s, p) == s
  {
    if |s| > 0 {
      FilterAll(s[1..], p);
    }
  }

  /** A filter that only the element at `k` fails removes exactly that element. */
  lemma {:induction false} FilterDropsOne<T>(s: seq<T>, k: nat, p: T -> bool)
    requires k < |s| && !p(s[k])
    requires forall i :: 0 <= i < |s| && i != k ==> p(s[i])
    ensures Filter(s, p) == s[..k] + s[k + 1..]
  {
    var t := s[1..];
    if k == 0 {
      assert forall i :: 0 <= i < |t| ==> p(t[i]) by {
        forall i | 0 <= i < |t| ensures p(t[i]) {
          assert t[i] == s[i + 1];
        }
      }
      FilterAll(t, p);
    } else {
      assert p(s[0]);
      assert forall i :: 0 <= i < |t| && i != k - 1 ==> p(t[i]) by {
        forall i | 0 <= i < |t| && i != k - 1 ensures p(t[i]) {
          assert t[i] == s[i + 1];
        }
      }
      FilterDropsOne(t, k - 1, p);
      assert Filter(s, p) == [s[0]] + Filter(t, p);
      DropAfterHead(s, k);
    }
  }

  lemma DropAfterHead<T>(s: seq<T>, k: nat)
    requires 0 < k < |s|
    ensures s[..k] + s[k + 1..] == [s[0]] + (s[1..][..k - 1] + s[1..][k..])
  {
    assert s[..k] == [s[0]] + s[1..][..k - 1];
    assert s[k + 1..] == s[1..][k..];
  }

  function Reverse<T>(s: seq<T>): (r: seq<T>)
    ensures |r| == |s| && forall i :: 0 <= i < |s| ==> r[i] == s[|s| - 1 - i]
  {
    seq(|s|, i requires 0 <= i < |s| => s[|s| - 1 - i])
  }

  /** A sequence in which every element may follow each later one, read backwards, is sorted. */
  lemma SortedReverse<T>(s: seq<T>, le: (T, T) -> bool)
    requires forall i, j :: 0 <= i < j < |s| ==> le(s[j], s[i])
    ensures SortedBy(Reverse(s), le)
  {
    var r := Reverse(s);
    forall i, j | 0 <= i < j < |r| ensures le(r[i], r[j]) {
      assert r[i] == s[|s| - 1 - i] && r[j] == s[|s| - 1 - j];
    }
  }
}

=== FILE: options.dfy ===
/** The optional-value wrapper used wherever the source has `T | null | undefined`. */
module Options {

  datatype Option<+T> = None | Some(value: T) {

    /** Returns the wrapped value, or `default` when there is none (the source's `??`). */
    function GetOr(default: T): T {
      match this
      case Some(v) => v
      case None => default
    }
  }
}

=== FILE: rule_resolver.dfy ===
/**
 * The rule engine's resolver: which rules match an input record, how specific
 * each rule is, and which single matching active rule wins.
 *
 * Optional scope fields are strings in which "" stands for "not set" (both are
 * falsy where the resolver tests them). `updatedAt` is the millisecond value
 * `new Date(updatedAt).getTime()` that the tie-break compares.
 */
module RuleResolver {
  import opened Options
  import opened Lists
  import Strings

  datatype PolicyMatchType = PolicyEquals | PolicyStartsWith

  datatype RuleScope = RuleScope(
    insuranceName: string,
    planType: string,
    networkStatus: string,
    clinicName: string,
    groupId: string,
    policyId: string)

  datatype RuleAction = RuleAction(statusToSet: string)

  datatype RuleRecord = RuleRecord(
    id: string,
    ruleCode: string,
    insuranceGroupId: string,
    isActive: bool,
    createdAt: int,
    updatedAt: int,
    scope: RuleScope,
    policyMatchType: PolicyMatchType,
    action: RuleAction)

  /** The six evaluation inputs. */
  datatype RuleInputs = RuleInputs(
    clinicName: string,
    insuranceName: string,
    policyId: string,
    groupId: string,
    networkStatus: string,
    planType: string)

  /** An optional scope field constrains only when set, and then by normalized equality. */
  predicate FieldAllows(ruleValue: string, inputValue: string) {
    ruleValue == "" || Strings.Normalize(ruleValue) == Strings.Normalize(inputValue)
  }

  /** The policy constraint: normalized prefix under STARTS_WITH, normalized equality otherwise. */
  predicate PolicyAllows(ruleValue: string, matchType: PolicyMatchType, inputValue: string) {
    ruleValue == "" ||
    (match matchType
     case PolicyStartsWith => Strings.StartsWith(Strings.Normalize(inputValue), Strings.Normalize(ruleValue))
     case PolicyEquals => Strings.Normalize(ruleValue) == Strings.Normalize(inputValue))
  }

  /**
   * `ruleMatchesInputs`: a rule matches exactly when the normalized insurance
   * names agree and every set optional field agrees with the input after
   * normalization (its early returns make it a conjunction).
   * An unset field tests nothing, so a rule with only an insurance name
   * matches every input with that name; and inputs that repeat the rule's
   * scope exactly are matched under either policy match type.
   */
  function RuleMatchesInputs(rule: RuleRecord, inputs: RuleInputs): (r: bool)
    ensures r ==> Strings.Normalize(rule.scope.insuranceName) == Strings.Normalize(inputs.insuranceName)
    ensures r && rule.scope.planType != "" ==> Strings.Normalize(rule.scope.planType) == Strings.Normalize(inputs.planType)
    ensures r && rule.scope.networkStatus != "" ==>
      Strings.Normalize(rule.scope.networkStatus) == Strings.Normalize(inputs.networkStatus)
    ensures r && rule.scope.clinicName != "" ==> Strings.Normalize(rule.scope.clinicName) == Strings.Normalize(inputs.clinicName)
    ensures r && rule.scope.groupId != "" ==> Strings.Normalize(rule.scope.groupId) == Strings.Normalize(inputs.groupId)
    ensures r && rule.scope.policyId != "" && rule.policyMatchType == PolicyEquals ==>
      Strings.Normalize(rule.scope.policyId) == Strings.Normalize(inputs.policyId)
    ensures r && rule.scope.policyId != "" && rule.policyMatchType == PolicyStartsWith ==>
      Strings.StartsWith(Strings.Normalize(inputs.policyId), Strings.Normalize(rule.scope.policyId))
    ensures rule.scope == RuleScope(rule.scope.insuranceName, "", "", "", "", "") ==>
      (r <==> Strings.Normalize(rule.scope.insuranceName) == Strings.Normalize(inputs.insuranceName))
    ensures var s := rule.scope;
      && s.insuranceName == inputs.insuranceName
      && (s.planType == "" || s.planType == inputs.planType)
      && (s.networkStatus == "" || s.networkStatus == inputs.networkStatus)
      && (s.clinicName == "" || s.clinicName == inputs.clinicName)
      && (s.groupId == "" || s.groupId == inputs.groupId)
      && (s.policyId == "" || s.policyId == inputs.policyId)
      ==> r
    ensures var s := rule.scope;
      && Strings.Normalize(s.insuranceName) == Strings.Normalize(inputs.insuranceName)
      && (s.planType == "" || Strings.Normalize(s.planType) == Strings.Normalize(inputs.planType))
      && (s.networkStatus == "" || Strings.Normalize(s.networkStatus) == Strings.Normalize(inputs.networkStatus))
      && (s.clinicName == "" || Strings.Normalize(s.clinicName) == Strings.Normalize(inputs.clinicName))
      && (s.groupId == "" || Strings.Normalize(s.groupId) == Strings.Normalize(inputs.groupId))
      && (s.policyId == "" ||
          if rule.policyMatchType == PolicyEquals then Strings.Normalize(s.policyId) == Strings.Normalize(inputs.policyId)
          else Strings.StartsWith(Strings.Normalize(inputs.policyId), Strings.Normalize(s.policyId)))
      ==> r
  {
    var p := Strings.Normalize(inputs.policyId);
    assert p[..|p|] == p;
    var s := rule.scope;
    && Strings.Normalize(s.insuranceName) == Strings.Normalize(inputs.insuranceName)
    && FieldAllows(s.planType, inputs.planType)
    && FieldAllows(s.networkStatus, inputs.networkStatus)
    && FieldAllows(s.clinicName, inputs.clinicName)
    && FieldAllows(s.groupId, inputs.groupId)
    && PolicyAllows(s.policyId, rule.policyMatchType, inputs.policyId)
  }

  /** A policy id that matches under EQUALS also matches under STARTS_WITH. */
  lemma EqualsImpliesStartsWith(rule: RuleRecord, inputs: RuleInputs)
    ensures RuleMatchesInputs(rule.(policyMatchType := PolicyEquals), inputs)
        ==> RuleMatchesInputs(rule.(policyMatchType := PolicyStartsWith), inputs)
  {
    var p := Strings.Normalize(inputs.policyId);
    assert p[..|p|] == p;
  }

  /** Clearing an optional scope field can only widen the set of matching inputs. */
  lemma ClearingFieldWidens(rule: RuleRecord, inputs: RuleInputs)
    requires RuleMatchesInputs(rule, inputs)
    ensures RuleMatchesInputs(rule.(scope := rule.scope.(planType := "")), inputs)
    ensures RuleMatchesInputs(rule.(scope := rule.scope.(networkStatus := "")), inputs)
    ensures RuleMatchesInputs(rule.(scope := rule.scope.(clinicName := "")), inputs)
    ensures RuleMatchesInputs(rule.(scope := rule.scope.(groupId := "")), inputs)
    ensures RuleMatchesInputs(rule.(scope := rule.scope.(policyId := "")), inputs)
  {
  }

  /** The specificity levels, most specific first. */
  datatype ScopeLevel = PolicyLevel | GroupLevel | ClinicLevel | NetworkLevel | PlanLevel | DefaultLevel

  /** The most specific populated scope field, in the order policy > group > clinic > network > plan. */
  function LevelOf(s: RuleScope): ScopeLevel {
    if s.policyId != "" then PolicyLevel
    else if s.groupId != "" then GroupLevel
    else if s.clinicName != "" then ClinicLevel
    else if s.networkStatus != "" then NetworkLevel
    else if s.planType != "" then PlanLevel
    else DefaultLevel
  }

  function LevelScore(l: ScopeLevel): int {
    match l
    case PolicyLevel => 600
    case GroupLevel => 500
    case ClinicLevel => 400
    case NetworkLevel => 300
    case PlanLevel => 200
    case DefaultLevel => 100
  }

  function LevelLabel(l: ScopeLevel): string {
    match l
    case PolicyLevel => "Policy"
    case GroupLevel => "Group"
    case ClinicLevel => "Clinic"
    case NetworkLevel => "Network"
    case PlanLevel => "Plan"
    case DefaultLevel => "Insurance Default"
  }

  /** `precedenceScore`: higher is more specific. */
  function PrecedenceScore(rule: RuleRecord): (score: int)
    ensures score == LevelScore(LevelOf(rule.scope))
    ensures score in {100, 200, 300, 400, 500, 600}
  {
    if rule.scope.policyId != "" then 600
    else if rule.scope.groupId != "" then 500
    else if rule.scope.clinicName != "" then 400
    else if rule.scope.networkStatus != "" then 300
    else if rule.scope.planType != "" then 200
    else 100
  }

  /** `scopeLevelLabel`. */
  function ScopeLevelLabel(rule: RuleRecord): (text: string)
    ensures text == LevelLabel(LevelOf(rule.scope))
  {
    if rule.scope.policyId != "" then "Policy"
    else if rule.scope.groupId != "" then "Group"
    else if rule.scope.clinicName != "" then "Clinic"
    else if rule.scope.networkStatus != "" then "Network"
    else if rule.scope.planType != "" then "Plan"
    else "Insurance Default"
  }

  /**
   * Score and label are two names for the same level: two rules have the same
   * score exactly when they have the same label, and a populated policy id
   * outranks every rule without one.
   */
  lemma ScoreAndLabelAgree(a: RuleRecord, b: RuleRecord)
    ensures PrecedenceScore(a) == PrecedenceScore(b) <==> ScopeLevelLabel(a) == ScopeLevelLabel(b)
    ensures a.scope.policyId != "" && b.scope.policyId == "" ==> PrecedenceScore(a) > PrecedenceScore(b)
  {
  }

  /** The comparator `(a, b) => sb - sa || tb - ta` read as "a may come before b". */
  predicate RankLe(a: RuleRecord, b: RuleRecord) {
    PrecedenceScore(a) > PrecedenceScore(b)
    || (PrecedenceScore(a) == PrecedenceScore(b) && a.updatedAt >= b.updatedAt)
  }

  lemma RankLeIsTotalPreorder()
    ensures TotalPreorder(RankLe)
  {
  }

  predicate IsCandidate(inputs: RuleInputs, r: RuleRecord) {
    r.isActive && RuleMatchesInputs(r, inputs)
  }

  /** The active rules that match, in list order. */
  function Candidates(rules: seq<RuleRecord>, inputs: RuleInputs): seq<RuleRecord> {
    Filter(rules, (r: RuleRecord) => IsCandidate(inputs, r))
  }

  lemma CandidateKept(rules: seq<RuleRecord>, inputs: RuleInputs, i: nat)
    requires i < |rules| && IsCandidate(inputs, rules[i])
    ensures rules[i] in Candidates(rules, inputs)
  {
    var p := (r: RuleRecord) => IsCandidate(inputs, r);
    assert p(rules[i]);
  }

  /** The head of a list sorted by rank is in the list, outranks all of it, and is its earliest best. */
  lemma RankedHead(c: seq<RuleRecord>)
    requires |c| > 0
    ensures SortBy(c, RankLe)[0] in c
    ensures forall i :: 0 <= i < |c| ==> RankLe(SortBy(c, RankLe)[0], c[i])
    ensures exists k :: 0 <= k < |c| && c[k] == SortBy(c, RankLe)[0] && forall i :: 0 <= i < k ==> !RankLe(c[i], c[k])
  {
    RankLeIsTotalPreorder();
    HeadOfSortBy(c, RankLe);
  }

  /** Every member of the candidate list is an active matching rule of the list. */
  lemma CandidateOrigin(rules: seq<RuleRecord>, inputs: RuleInputs, w: RuleRecord)
    requires w in Candidates(rules, inputs)
    ensures w in rules && IsCandidate(inputs, w)
  {
    var c := Candidates(rules, inputs);
    var j :| 0 <= j < |c| && c[j] == w;
  }

  /** A rule that outranks every candidate outranks every active matching rule. */
  lemma OutranksAllCandidates(rules: seq<RuleRecord>, inputs: RuleInputs, w: RuleRecord)
    requires forall j :: 0 <= j < |Candidates(rules, inputs)| ==> RankLe(w, Candidates(rules, inputs)[j])
    ensures forall i :: 0 <= i < |rules| && IsCandidate(inputs, rules[i]) ==> RankLe(w, rules[i])
  {
    var c := Candidates(rules, inputs);
    forall i | 0 <= i < |rules| && IsCandidate(inputs, rules[i]) ensures RankLe(w, rules[i]) {
      CandidateKept(rules, inputs, i);
      var j :| 0 <= j < |c| && c[j] == rules[i];
    }
  }

  /** The head of the candidates sorted by rank is a best candidate. */
  lemma WinnerIsBest(rules: seq<RuleRecord>, inputs: RuleInputs)
    requires |Candidates(rules, inputs)| > 0
    ensures var c := Candidates(rules, inputs);
      var w := SortBy(c, RankLe)[0];
      && w in rules && IsCandidate(inputs, w)
      && (forall i :: 0 <= i < |rules| && IsCandidate(inputs, rules[i]) ==> RankLe(w, rules[i]))
      && exists k :: 0 <= k < |c| && c[k] == w && forall i :: 0 <= i < k ==> !RankLe(c[i], c[k])
  {
    var c := Candidates(rules, inputs);
    var w := SortBy(c, RankLe)[0];
    RankedHead(c);
    CandidateOrigin(rules, inputs, w);
    OutranksAllCandidates(rules, inputs, w);
  }

  /** The outcome of a pick: the winner, if any, and the reason shown with it. */
  datatype Pick = Pick(winner: Option<RuleRecord>, reason: string)

  /**
   * `pickWinningRule`: no winner exactly when no active rule matches; otherwise
   * the winner is an active matching rule with the highest score, the latest
   * update among those, and the earliest candidate in list order on a full tie.
   */
  function PickWinningRule(rules: seq<RuleRecord>, inputs: RuleInputs): (p: Pick)
    ensures p.winner.None? <==> forall i :: 0 <= i < |rules| ==> !IsCandidate(inputs, rules[i])
    ensures p.winner.None? ==> p.reason == NoCandidateReason
    ensures p.winner.Some? ==> p.winner.value in rules && IsCandidate(inputs, p.winner.value)
    ensures p.winner.Some? ==> forall i :: 0 <= i < |rules| && IsCandidate(inputs, rules[i]) ==>
      PrecedenceScore(rules[i]) < PrecedenceScore(p.winner.value)
      || (PrecedenceScore(rules[i]) == PrecedenceScore(p.winner.value) && rules[i].updatedAt <= p.winner.value.updatedAt)
    ensures p.winner.Some? ==>
      var c := Candidates(rules, inputs);
      exists k :: 0 <= k < |c| && c[k] == p.winner.value && forall i :: 0 <= i < k ==> !RankLe(c[i], c[k])
  {
    var c := Candidates(rules, inputs);
    if |c| == 0 then
      Pick(None, NoCandidateReason)
    else
      var winner := SortBy(c, RankLe)[0];
      WinnerIsBest(rules, inputs);
      Pick(Some(winner), MatchedReason(|c|, ScopeLevelLabel(winner)))
  }

  const NoCandidateReason := "No matching enabled rule found."

  /** The reason text of a pick among `count` candidates whose winner sits at the given level. */
  function MatchedReason(count: nat, level: string): string {
    "Matched " + Strings.NatToString(count) + " rule(s). Winner chosen by precedence (" + level + ") and latest update if tie."
  }
}

=== FILE: rule_store.dfy ===
/**
 * The rule engine's stores: insurance groups, rules with their allocated
 * `RULE-nnnnnn` codes, the active flags (rules are never deleted, only
 * switched off), the audit log each evaluation writes, and its CSV export.
 *
 * Ids and clock readings (`crypto.randomUUID`, `nowIso`) are parameters. Rule
 * and group timestamps are the milliseconds the resolver compares; an audit
 * entry's `createdAt` is the ISO text it exports. An optional text field that
 * is missing is "" (the export writes both as "").
 */
module RuleStore {
  import opened Options
  import opened Lists
  import opened RuleResolver
  import Strings
  import Csv

  datatype InsuranceGroup = InsuranceGroup(id: string, name: string, updatedAt: int)

  // ---------------------------------------------------------------------------
  // Rule codes

  const CodePrefix := "RULE-"

  /** `makeRuleCode`: "RULE-" and the number, zero-padded to at least six digits. */
  function MakeRuleCode(n: nat): (code: string)
    ensures Strings.StartsWith(code, CodePrefix)
    ensures n < 1000000 ==> |code| == 11
    ensures Strings.AllDigits(code[5..])
  {
    var digits := Strings.NatToString(n);
    ShortDecimal(n, 6);
    var padded := Strings.PadStart(digits, 6, '0');
    PaddedDigits(digits);
    CodePrefix + padded
  }

  function Pow10(k: nat): nat {
    if k == 0 then 1 else 10 * Pow10(k - 1)
  }

  /** A number below `10^k` is written with at most `k` digits. */
  lemma {:induction false} ShortDecimal(n: nat, k: nat)
    ensures n < Pow10(k) && k >= 1 ==> |Strings.NatToString(n)| <= k
    decreases k
  {
    if n >= 10 && k > 1 && n < Pow10(k) {
      ShortDecimal(n / 10, k - 1);
    }
  }

  /** Zero-padding a digit string keeps it a digit string of the same value. */
  lemma PaddedDigits(digits: string)
    requires Strings.AllDigits(digits)
    ensures Strings.AllDigits(Strings.PadStart(digits, 6, '0'))
    ensures Strings.DigitsValue(Strings.PadStart(digits, 6, '0')) == Strings.DigitsValue(digits)
  {
    if |digits| < 6 {
      Strings.LeadingZerosValue(6 - |digits|, digits);
    }
  }

  /**
   * `Number(s)` where the result is finite, for the numerals this model reads:
   * the trimmed text is a run of decimal digits (empty reads as 0). Any other
   * text is taken to be non-finite.
   */
  function NumberValue(s: string): (r: Option<nat>)
    ensures r.Some? <==> Strings.AllDigits(Strings.Trim(s))
    ensures r.Some? ==> r.value == Strings.DigitsValue(Strings.Trim(s))
  {
    var t := Strings.Trim(s);
    if Strings.AllDigits(t) then Some(Strings.DigitsValue(t)) else None
  }

  /** The number `addRule` reads from a rule code: `Number(code.replace("RULE-", ""))`. */
  function CodeNumber(code: string): Option<nat> {
    NumberValue(Strings.ReplaceFirst(code, CodePrefix, ""))
  }

  lemma DigitsAreTrimmed(s: string)
    requires Strings.AllDigits(s)
    ensures Strings.Trim(s) == s
  {
    if |s| > 0 {
      assert Strings.IsDigit(s[0]) && Strings.IsDigit(s[|s| - 1]);
      Strings.TrimmedIsFixed(s);
    }
  }

  /** Reading a code back gives the number it was made from, at any width. */
  lemma RuleCodeRoundTrip(n: nat)
    ensures CodeNumber(MakeRuleCode(n)) == Some(n)
  {
    var code := MakeRuleCode(n);
    var digits := code[5..];
    assert code == CodePrefix + digits;
    assert Strings.StartsWith(code[0..], CodePrefix);
    assert Strings.IndexOf(code, CodePrefix) == Some(0);
    assert Strings.ReplaceFirst(code, CodePrefix, "") == digits;
    DigitsAreTrimmed(digits);
    Strings.NatToStringValue(n);
    PaddedDigits(Strings.NatToString(n));
  }

  /** Distinct numbers get distinct codes. */
  lemma RuleCodesDistinct(m: nat, n: nat)
    requires m != n
    ensures MakeRuleCode(m) != MakeRuleCode(n)
  {
    RuleCodeRoundTrip(m);
    RuleCodeRoundTrip(n);
  }

  /** The greatest of the numbers present, 0 when there is none (the `reduce` in `addRule`). */
  function MaxPresent(xs: seq<Option<nat>>): (m: nat)
    ensures forall i :: 0 <= i < |xs| && xs[i].Some? ==> xs[i].value <= m
    ensures m == 0 || exists i :: 0 <= i < |xs| && xs[i] == Some(m)
    decreases |xs|
  {
    if |xs| == 0 then 0
    else
      var rest := MaxPresent(xs[..|xs| - 1]);
      assert forall i :: 0 <= i < |xs| - 1 ==> xs[..|xs| - 1][i] == xs[i];
      match xs[|xs| - 1]
      case Some(n) => if n > rest then n else rest
      case None => rest
  }

  function CodeNumbers(rules: seq<RuleRecord>): (xs: seq<Option<nat>>)
    ensures |xs| == |rules| && forall i :: 0 <= i < |rules| ==> xs[i] == CodeNumber(rules[i].ruleCode)
  {
    seq(|rules|, i requires 0 <= i < |rules| => CodeNumber(rules[i].ruleCode))
  }

  /** The greatest number read from any rule code, 0 when none reads as a number. */
  function MaxCodeNumber(rules: seq<RuleRecord>): (m: nat)
    ensures forall i :: 0 <= i < |rules| && CodeNumber(rules[i].ruleCode).Some? ==>
      CodeNumber(rules[i].ruleCode).value <= m
    ensures m == 0 || exists i :: 0 <= i < |rules| && CodeNumber(rules[i].ruleCode) == Some(m)
  {
    MaxPresent(CodeNumbers(rules))
  }

  /** The number `addRule` allocates: one past the greatest existing code number. */
  function NextRuleNumber(rules: seq<RuleRecord>): (n: nat)
    ensures n >= 1
    ensures forall i :: 0 <= i < |rules| && CodeNumber(rules[i].ruleCode).Some? ==>
      CodeNumber(rules[i].ruleCode).value < n
    ensures n == 1 || exists i :: 0 <= i < |rules| && CodeNumber(rules[i].ruleCode).Some? && CodeNumber(rules[i].ruleCode).value + 1 == n
  {
    MaxCodeNumber(rules) + 1
  }

  // ---------------------------------------------------------------------------
  // Groups and rules

  /** `g.name.toLowerCase() === name.toLowerCase()` for some group. */
  predicate NameTaken(groups: seq<InsuranceGroup>, name: string) {
    exists i :: 0 <= i < |groups| && Strings.Lower(groups[i].name) == Strings.Lower(name)
  }

  /** No two groups have names equal up to case. */
  predicate NamesUnique(groups: seq<InsuranceGroup>) {
    forall i, j :: 0 <= i < j < |groups| ==> Strings.Lower(groups[i].name) != Strings.Lower(groups[j].name)
  }

  /**
   * `addInsuranceGroup`: a name whose trim equals an existing name up to case
   * adds nothing; otherwise one group with the trimmed name is appended.
   */
  function AddInsuranceGroup(groups: seq<InsuranceGroup>, name: string, id: string, now: int)
    : (r: seq<InsuranceGroup>)
    ensures NameTaken(groups, Strings.Trim(name)) ==> r == groups
    ensures !NameTaken(groups, Strings.Trim(name)) ==>
      |r| == |groups| + 1 && r[..|groups|] == groups
      && r[|groups|] == InsuranceGroup(id, Strings.Trim(name), now)
    ensures NameTaken(r, Strings.Trim(name))
  {
    var trimmed := Strings.Trim(name);
    if NameTaken(groups, trimmed) then groups
    else
      var r := groups + [InsuranceGroup(id, trimmed, now)];
      assert Strings.Lower(r[|groups|].name) == Strings.Lower(trimmed);
      r
  }

  /** Adding a group keeps the names unique up to case. */
  lemma AddKeepsNamesUnique(groups: seq<InsuranceGroup>, name: string, id: string, now: int)
    requires NamesUnique(groups)
    ensures NamesUnique(AddInsuranceGroup(groups, name, id, now))
  {
    var r := AddInsuranceGroup(groups, name, id, now);
    if !NameTaken(groups, Strings.Trim(name)) {
      forall i, j | 0 <= i < j < |r| ensures Strings.Lower(r[i].name) != Strings.Lower(r[j].name) {
        if j == |groups| {
          assert r[i] == groups[i];
        } else {
          assert r[i] == groups[i] && r[j] == groups[j];
        }
      }
    }
  }

  /** Adding the same name a second time changes nothing. */
  lemma AddGroupTwice(groups: seq<InsuranceGroup>, name: string, id: string, id2: string, now: int, now2: int)
    ensures AddInsuranceGroup(AddInsuranceGroup(groups, name, id, now), name, id2, now2)
         == AddInsuranceGroup(groups, name, id, now)
  {
  }

  /** What the add-rule form submits. */
  datatype RulePayload = RulePayload(
    insuranceGroupId: string, scope: RuleScope, action: RuleAction, policyMatchType: PolicyMatchType)

  /**
   * `addRule`: a new active rule, coded one past the greatest existing code
   * number, goes in front of the rules, and its group's `updatedAt` is bumped.
   */
  function AddRule(rules: seq<RuleRecord>, groups: seq<InsuranceGroup>, payload: RulePayload,
                   id: string, created: int): (r: (seq<RuleRecord>, seq<InsuranceGroup>))
    ensures |r.0| == |rules| + 1 && r.0[1..] == rules
    ensures var added := r.0[0];
      && added.id == id && added.isActive
      && added.createdAt == created && added.updatedAt == created
      && added.insuranceGroupId == payload.insuranceGroupId
      && added.scope == payload.scope && added.action == payload.action
      && added.policyMatchType == payload.policyMatchType
    ensures CodeNumber(r.0[0].ruleCode) == Some(NextRuleNumber(rules))
    ensures |r.1| == |groups|
    ensures forall i :: 0 <= i < |groups| ==>
      r.1[i] == if groups[i].id == payload.insuranceGroupId then groups[i].(updatedAt := created) else groups[i]
  {
    var n := NextRuleNumber(rules);
    RuleCodeRoundTrip(n);
    var added := RuleRecord(id, MakeRuleCode(n), payload.insuranceGroupId, true, created, created,
                            payload.scope, payload.policyMatchType, payload.action);
    var groups' := seq(|groups|, i requires 0 <= i < |groups| =>
      if groups[i].id == payload.insuranceGroupId then groups[i].(updatedAt := created) else groups[i]);
    ([added] + rules, groups')
  }

  /**
   * The new rule's code number is above that of every existing rule, active
   * or not, so no code is ever handed out twice.
   */
  lemma NewCodeIsFresh(rules: seq<RuleRecord>, groups: seq<InsuranceGroup>, payload: RulePayload,
                       id: string, created: int, i: nat)
    requires i < |rules|
    ensures var added := AddRule(rules, groups, payload, id, created).0[0];
      added.ruleCode != rules[i].ruleCode
      && (CodeNumber(rules[i].ruleCode).Some? ==>
            CodeNumber(rules[i].ruleCode).value < CodeNumber(added.ruleCode).value)
  {
  }

  /** `toggleRuleActive`: the rules with the id flip their flag and take the new time; nothing else changes. */
  function ToggleRuleActive(rules: seq<RuleRecord>, ruleId: string, t: int): (r: seq<RuleRecord>)
    ensures |r| == |rules|
    ensures forall i :: 0 <= i < |rules| ==>
      if rules[i].id == ruleId then r[i] == rules[i].(isActive := !rules[i].isActive, updatedAt := t)
      else r[i] == rules[i]
  {
    seq(|rules|, i requires 0 <= i < |rules| =>
      if rules[i].id == ruleId then rules[i].(isActive := !rules[i].isActive, updatedAt := t) else rules[i])
  }

  /** Toggling twice restores every rule except for its update time. */
  lemma ToggleTwiceRestores(rules: seq<RuleRecord>, ruleId: string, t: int, t2: int)
    ensures var r := ToggleRuleActive(ToggleRuleActive(rules, ruleId, t), ruleId, t2);
      |r| == |rules| && forall i :: 0 <= i < |rules| ==> r[i].(updatedAt := rules[i].updatedAt) == rules[i]
  {
  }

  /**
   * `bulkSetRulesActive`: with no group selected (""), nothing changes;
   * otherwise every rule of the selected group gets the flag and the time.
   */
  function BulkSetRulesActive(rules: seq<RuleRecord>, selectedGroupId: string, isActive: bool, t: int)
    : (r: seq<RuleRecord>)
    ensures |r| == |rules|
    ensures selectedGroupId == "" ==> r == rules
    ensures forall i :: 0 <= i < |rules| ==>
      if selectedGroupId != "" && rules[i].insuranceGroupId == selectedGroupId
      then r[i] == rules[i].(isActive := isActive, updatedAt := t)
      else r[i] == rules[i]
  {
    if selectedGroupId == "" then rules
    else
      seq(|rules|, i requires 0 <= i < |rules| =>
        if rules[i].insuranceGroupId == selectedGroupId then rules[i].(isActive := isActive, updatedAt := t) else rules[i])
  }

  /** `rulesForSelectedGroup`: the rules of the group, in list order. */
  function GroupRules(rules: seq<RuleRecord>, groupId: string): (r: seq<RuleRecord>)
    ensures forall i :: 0 <= i < |r| ==> r[i] in rules && r[i].insuranceGroupId == groupId
    ensures forall i :: 0 <= i < |rules| && rules[i].insuranceGroupId == groupId ==> rules[i] in r
    ensures exists idx :: (PicksAt(r, rules, idx)
      && forall k :: 0 <= k < |rules| ==> (k in idx <==> rules[k].insuranceGroupId == groupId))
  {
    var inGroup := (x: RuleRecord) => x.insuranceGroupId == groupId;
    assert forall i :: 0 <= i < |rules| && rules[i].insuranceGroupId == groupId ==> inGroup(rules[i]);
    FilterKeepsOrder(rules, inGroup);
    Filter(rules, inGroup)
  }

  /** After switching a group off, no rule of that group can win an evaluation scoped to it. */
  lemma DisabledGroupHasNoWinner(rules: seq<RuleRecord>, groupId: string, t: int, inputs: RuleInputs)
    requires groupId != ""
    ensures PickWinningRule(GroupRules(BulkSetRulesActive(rules, groupId, false, t), groupId), inputs).winner.None?
  {
    var r := BulkSetRulesActive(rules, groupId, false, t);
    var g := GroupRules(r, groupId);
    forall i | 0 <= i < |g| ensures !g[i].isActive {
      var j :| 0 <= j < |r| && r[j] == g[i];
    }
    InactiveRulesNeverWin(g, inputs);
  }

  /** A list of inactive rules has no winner. */
  lemma InactiveRulesNeverWin(rules: seq<RuleRecord>, inputs: RuleInputs)
    requires forall i :: 0 <= i < |rules| ==> !rules[i].isActive
    ensures PickWinningRule(rules, inputs).winner.None?
  {
    assert forall i :: 0 <= i < |rules| ==> !IsCandidate(inputs, rules[i]);
  }

  // ---------------------------------------------------------------------------
  // Evaluation and its audit log

  datatype LogType = Evaluate | BatchEvaluate | ManualOverride

  function LogTypeCode(t: LogType): string {
    match t
    case Evaluate => "EVALUATE"
    case BatchEvaluate => "BATCH_EVALUATE"
    case ManualOverride => "MANUAL_OVERRIDE"
  }

  datatype WinningRule = WinningRule(ruleId: string, scopeLevel: string, precedenceReason: string, statusToSet: string)

  datatype RuleAuditLog = RuleAuditLog(
    id: string,
    createdAt: string,
    logType: LogType,
    insuranceGroupName: string,
    inputs: RuleInputs,
    winningRule: Option<WinningRule>,
    notes: string)

  /** What the Test & Evaluate tab shows. */
  datatype EvalResult = EvalResult(winner: Option<RuleRecord>, message: string)

  const EvaluatedNote := "Evaluation completed."
  const NoMatchNote := "No matching rule found."
  const StatusSetText := " → Status set to \""
  const BatchNote := "Batch re-evaluate is a backend job in production. This button is a UI hook for now."

  /** The rules an evaluation considers: the selected group's, or all of them when none is selected. */
  function TargetRules(rules: seq<RuleRecord>, selectedGroupId: string): seq<RuleRecord> {
    if selectedGroupId == "" then rules else GroupRules(rules, selectedGroupId)
  }

  /** The name of the first group with the id, "" when there is none. */
  function GroupName(groups: seq<InsuranceGroup>, groupId: string): (name: string)
    ensures name != "" ==> exists i :: 0 <= i < |groups| && groups[i].id == groupId && groups[i].name == name
    ensures forall k :: (0 <= k < |groups| && groups[k].id == groupId && (forall j :: 0 <= j < k ==> groups[j].id != groupId)
      ==> name == groups[k].name)
    ensures (forall k :: 0 <= k < |groups| ==> groups[k].id != groupId) ==> name == ""
  {
    match Find(groups, (g: InsuranceGroup) => g.id == groupId)
    case Some(g) => g.name
    case None => ""
  }

  /** The message of an evaluation: the reason, and the status the winner sets. */
  function EvalMessage(p: Pick): string {
    if p.winner.Some? then p.reason + StatusSetText + p.winner.value.action.statusToSet + "\"."
    else p.reason
  }

  /**
   * `runEvaluate`: picks the winner among the target rules and puts exactly
   * one EVALUATE entry in front of the log, recording the winner when there
   * is one.
   */
  function RunEvaluate(rules: seq<RuleRecord>, groups: seq<InsuranceGroup>, selectedGroupId: string,
                       inputs: RuleInputs, logId: string, now: string, logs: seq<RuleAuditLog>)
    : (r: (EvalResult, seq<RuleAuditLog>))
    ensures r.0.winner == PickWinningRule(TargetRules(rules, selectedGroupId), inputs).winner
    ensures |r.1| == |logs| + 1 && r.1[1..] == logs
    ensures var p := PickWinningRule(TargetRules(rules, selectedGroupId), inputs);
      && (p.winner.None? ==> r.0.message == NoCandidateReason)
      && (p.winner.Some? ==> r.0.message == p.reason + StatusSetText + p.winner.value.action.statusToSet + "\".")
    ensures var entry := r.1[0];
      && entry.logType == Evaluate && entry.inputs == inputs && entry.id == logId && entry.createdAt == now
      && (entry.winningRule.Some? <==> r.0.winner.Some?)
      && (entry.notes == if r.0.winner.Some? then EvaluatedNote else NoMatchNote)
      && (selectedGroupId == "" ==> entry.insuranceGroupName == "")
      && (selectedGroupId != "" ==> entry.insuranceGroupName == GroupName(groups, selectedGroupId))
    ensures r.0.winner.Some? ==>
      var w := r.0.winner.value;
      var entry := r.1[0].winningRule.value;
      && entry.ruleId == w.ruleCode
      && entry.statusToSet == w.action.statusToSet
      && entry.scopeLevel == LevelLabel(LevelOf(w.scope))
      && entry.precedenceReason == PickWinningRule(TargetRules(rules, selectedGroupId), inputs).reason
  {
    var p := PickWinningRule(TargetRules(rules, selectedGroupId), inputs);
    var groupName := if selectedGroupId == "" then "" else GroupName(groups, selectedGroupId);
    var winning := match p.winner
      case Some(w) => Some(WinningRule(w.ruleCode, ScopeLevelLabel(w), p.reason, w.action.statusToSet))
      case None => None;
    var entry := RuleAuditLog(logId, now, Evaluate, groupName, inputs, winning,
                              if p.winner.Some? then EvaluatedNote else NoMatchNote);
    (EvalResult(p.winner, EvalMessage(p)), [entry] + logs)
  }

  /**
   * An evaluation scoped to a group can only be won by an active rule of that
   * group that matches, and it outranks every other such rule.
   */
  lemma ScopedWinnerBelongsToGroup(rules: seq<RuleRecord>, groups: seq<InsuranceGroup>, groupId: string,
                                   inputs: RuleInputs, logId: string, now: string, logs: seq<RuleAuditLog>)
    requires groupId != ""
    requires RunEvaluate(rules, groups, groupId, inputs, logId, now, logs).0.winner.Some?
    ensures var w := RunEvaluate(rules, groups, groupId, inputs, logId, now, logs).0.winner.value;
      && w in rules && w.insuranceGroupId == groupId && w.isActive && RuleMatchesInputs(w, inputs)
      && forall i :: 0 <= i < |rules| && rules[i].insuranceGroupId == groupId && IsCandidate(inputs, rules[i]) ==>
           RankLe(w, rules[i])
  {
    GroupWinner(rules, groupId, inputs);
  }

  lemma GroupWinner(rules: seq<RuleRecord>, groupId: string, inputs: RuleInputs)
    requires PickWinningRule(GroupRules(rules, groupId), inputs).winner.Some?
    ensures var w := PickWinningRule(GroupRules(rules, groupId), inputs).winner.value;
      && w in rules && w.insuranceGroupId == groupId && w.isActive && RuleMatchesInputs(w, inputs)
      && forall i :: 0 <= i < |rules| && rules[i].insuranceGroupId == groupId && IsCandidate(inputs, rules[i]) ==>
           RankLe(w, rules[i])
  {
    var target := GroupRules(rules, groupId);
    var w := PickWinningRule(target, inputs).winner.value;
    InGroupRules(rules, groupId, w);
    GroupWinnerOutranks(rules, groupId, inputs, w);
  }

  lemma InGroupRules(rules: seq<RuleRecord>, groupId: string, w: RuleRecord)
    requires w in GroupRules(rules, groupId)
    ensures w in rules && w.insuranceGroupId == groupId
  {
    var target := GroupRules(rules, groupId);
    var k :| 0 <= k < |target| && target[k] == w;
  }

  lemma GroupWinnerOutranks(rules: seq<RuleRecord>, groupId: string, inputs: RuleInputs, w: RuleRecord)
    requires forall j :: 0 <= j < |GroupRules(rules, groupId)| && IsCandidate(inputs, GroupRules(rules, groupId)[j]) ==>
      RankLe(w, GroupRules(rules, groupId)[j])
    ensures forall i :: 0 <= i < |rules| && rules[i].insuranceGroupId == groupId && IsCandidate(inputs, rules[i]) ==>
      RankLe(w, rules[i])
  {
    var target := GroupRules(rules, groupId);
    forall i | 0 <= i < |rules| && rules[i].insuranceGroupId == groupId && IsCandidate(inputs, rules[i])
      ensures RankLe(w, rules[i])
    {
      var j :| 0 <= j < |target| && target[j] == rules[i];
    }
  }

  /**
   * `batchReEvaluate`: with no selected group, or a selection that names no
   * group, nothing is logged; otherwise one BATCH_EVALUATE entry naming the
   * group is put in front.
   */
  function BatchReEvaluate(groups: seq<InsuranceGroup>, selectedGroupId: string, inputs: RuleInputs,
                           logId: string, now: string, logs: seq<RuleAuditLog>): (r: seq<RuleAuditLog>)
    ensures selectedGroupId == "" || (forall i :: 0 <= i < |groups| ==> groups[i].id != selectedGroupId) ==> r == logs
    ensures selectedGroupId != "" && (exists i :: 0 <= i < |groups| && groups[i].id == selectedGroupId) ==>
      |r| == |logs| + 1 && r[1..] == logs
      && r[0].logType == BatchEvaluate && r[0].winningRule.None? && r[0].notes == BatchNote
      && r[0].id == logId && r[0].createdAt == now && r[0].inputs == inputs
      && r[0].insuranceGroupName == GroupName(groups, selectedGroupId)
  {
    var isSelected := (g: InsuranceGroup) => g.id == selectedGroupId;
    if selectedGroupId == "" then logs
    else
      match Find(groups, isSelected)
      case None => logs
      case Some(g) =>
        [RuleAuditLog(logId, now, BatchEvaluate, g.name, inputs, None, BatchNote)] + logs
  }

  // ---------------------------------------------------------------------------
  // CSV export

  const LogHeaders: seq<string> := ["time", "type", "insuranceGroup", "ruleId", "scopeLevel", "statusToSet", "notes"]

  /** One entry as an export row, in header order; a missing winner leaves its three columns empty. */
  function LogRow(l: RuleAuditLog): (row: seq<string>)
    ensures |row| == |LogHeaders|
    ensures row[0] == l.createdAt && row[1] == LogTypeCode(l.logType) && row[2] == l.insuranceGroupName
    ensures row[6] == l.notes
    ensures l.winningRule.None? ==> row[3] == "" && row[4] == "" && row[5] == ""
    ensures l.winningRule.Some? ==>
      var w := l.winningRule.value;
      row[3] == w.ruleId && row[4] == w.scopeLevel && row[5] == w.statusToSet
  {
    var w := l.winningRule;
    [ l.createdAt, LogTypeCode(l.logType), l.insuranceGroupName,
      if w.Some? then w.value.ruleId else "",
      if w.Some? then w.value.scopeLevel else "",
      if w.Some? then w.value.statusToSet else "",
      l.notes ]
  }

  function LogTable(logs: seq<RuleAuditLog>): (t: seq<seq<string>>)
    ensures |t| == |logs| + 1 && t[0] == LogHeaders
    ensures forall i :: 0 <= i < |logs| ==> t[i + 1] == LogRow(logs[i])
  {
    [LogHeaders] + seq(|logs|, i requires 0 <= i < |logs| => LogRow(logs[i]))
  }

  lemma LogTableShape(logs: seq<RuleAuditLog>)
    ensures forall k :: 0 <= k < |LogTable(logs)| ==> |LogTable(logs)[k]| == 7
  {
    var table := LogTable(logs);
    forall k | 0 <= k < |table| ensures |table[k]| == 7 {
      if k > 0 {
        assert table[k] == LogRow(logs[k - 1]);
      }
    }
  }

  /** `exportLogsCsv`: the text decodes back to the header and one seven-column row per entry. */
  function ExportLogsCsv(logs: seq<RuleAuditLog>): (csv: string)
    ensures Csv.Parse(csv) == Some(LogTable(logs))
    ensures |Csv.Parse(csv).value| == |logs| + 1
  {
    var table := LogTable(logs);
    LogTableShape(logs);
    Csv.ParseEncode(table);
    Csv.Encode(table)
  }
}

=== FILE: sort_keys.dfy ===
/**
 * What the two claim listings share: the clickable column header state
 * (`handleSort`) and the per-column comparator, which orders text and
 * numbers ascending or descending and treats any other value as a tie.
 */
module SortKeys {
  import Strings

  datatype SortOrder = Asc | Desc

  datatype SortState<F> = SortState(field: F, order: SortOrder)

  /** `handleSort`: the current column flips direction; another column is selected ascending. */
  function HandleSort<F(==)>(state: SortState<F>, field: F): (r: SortState<F>)
    ensures r.field == field
    ensures field == state.field ==> r.order != state.order
    ensures field != state.field ==> r.order == Asc
  {
    if state.field == field then SortState(field, if state.order == Asc then Desc else Asc)
    else SortState(field, Asc)
  }

  /** Clicking the same column twice restores the previous order. */
  lemma HandleSortTwice<F>(state: SortState<F>)
    ensures HandleSort(HandleSort(state, state.field), state.field) == state
  {
  }

  /** A column's value as a comparator sees it: text, a number, or an object that compares as a tie. */
  datatype SortKey = Text(text: string) | Number(number: int) | Opaque

  /**
   * `cmp(a, b) <= 0` for the column comparators: text by `localeCompare`,
   * numbers by difference, each reversed for `Desc`; other values tie.
   */
  predicate KeyLe(order: SortOrder, a: SortKey, b: SortKey) {
    match (a, b)
    case (Text(x), Text(y)) => if order == Asc then Strings.LessEq(x, y) else Strings.LessEq(y, x)
    case (Number(x), Number(y)) => if order == Asc then x <= y else y <= x
    case _ => true
  }

  predicate SameKind(a: SortKey, b: SortKey) {
    (a.Text? && b.Text?) || (a.Number? && b.Number?) || (a.Opaque? && b.Opaque?)
  }

  /** Descending is ascending with the operands swapped. */
  lemma DescIsFlippedAsc(a: SortKey, b: SortKey)
    ensures KeyLe(Desc, a, b) == KeyLe(Asc, b, a)
  {
  }

  lemma KeyLeTotal(order: SortOrder, a: SortKey, b: SortKey)
    ensures KeyLe(order, a, b) || KeyLe(order, b, a)
  {
    if a.Text? && b.Text? {
      Strings.LessEqTotal(a.text, b.text);
    }
  }

  /** On keys of one kind, as a column's keys are, the order is transitive. */
  lemma KeyLeTransitive(order: SortOrder, a: SortKey, b: SortKey, c: SortKey)
    requires SameKind(a, b) && SameKind(b, c)
    requires KeyLe(order, a, b) && KeyLe(order, b, c)
    ensures KeyLe(order, a, c)
  {
    if a.Text? {
      if order == Asc {
        Strings.LessEqTransitive(a.text, b.text, c.text);
      } else {
        Strings.LessEqTransitive(c.text, b.text, a.text);
      }
    }
  }
}

=== FILE: strings.dfy ===
/**
 * The JavaScript string primitives the views rely on: `trim`, `toLowerCase`,
 * `startsWith`, `includes`, `replace` (first occurrence), `join`, `split`,
 * `padStart`, `String(n)` / `Number(s)` on decimal digits, and the `<`
 * order on strings.
 */
module Strings {
  import opened Options

  /** The ECMAScript WhiteSpace and LineTerminator code points, which `trim` strips. */
  predicate IsWhitespace(c: char) {
    || c == ' ' || c == '\t' || c == '\n' || c == '\r'
    || c == '\U{000B}' || c == '\U{000C}' || c == '\U{00A0}' || c == '\U{1680}'
    || ('\U{2000}' <= c <= '\U{200A}')
    || c == '\U{2028}' || c == '\U{2029}' || c == '\U{202F}' || c == '\U{205F}'
    || c == '\U{3000}' || c == '\U{FEFF}'
  }

  /** Drops leading whitespace: the result is a suffix of `s` that does not start with whitespace. */
  function TrimStart(s: string): (r: string)
    ensures |r| <= |s| && r == s[|s| - |r|..]
    ensures |r| > 0 ==> !IsWhitespace(r[0])
    ensures forall i :: 0 <= i < |s| - |r| ==> IsWhitespace(s[i])
  {
    if |s| > 0 && IsWhitespace(s[0]) then TrimStart(s[1..]) else s
  }

  /** Drops trailing whitespace: the result is a prefix of `s` that does not end with whitespace. */
  function TrimEnd(s: string): (r: string)
    ensures |r| <= |s| && r == s[..|r|]
    ensures |r| > 0 ==> !IsWhitespace(r[|r| - 1])
    ensures forall i :: |r| <= i < |s| ==> IsWhitespace(s[i])
  {
    if |s| > 0 && IsWhitespace(s[|s| - 1]) then TrimEnd(s[..|s| - 1]) else s
  }

  /** `s.trim()`. */
  function Trim(s: string): (r: string)
    ensures |r| > 0 ==> !IsWhitespace(r[0]) && !IsWhitespace(r[|r| - 1])
  {
    TrimEnd(TrimStart(s))
  }

  /** A string that neither starts nor ends with whitespace is its own trim. */
  lemma TrimmedIsFixed(s: string)
    requires |s| > 0 ==> !IsWhitespace(s[0]) && !IsWhitespace(s[|s| - 1])
    ensures Trim(s) == s
  {
  }

  /** `toLowerCase` on one code point; only the ASCII letters are mapped. */
  function LowerChar(c: char): (d: char)
    ensures IsWhitespace(d) <==> IsWhitespace(c)
  {
    if 'A' <= c <= 'Z' then (c as int + 32) as char else c
  }

  function Lower(s: string): (r: string)
    ensures |r| == |s|
  {
    seq(|s|, i requires 0 <= i < |s| => LowerChar(s[i]))
  }

  /** The `trim().toLowerCase()` normal form both engines compare under. */
  function Normalize(s: string): string {
    Lower(Trim(s))
  }

  lemma LowerIdempotent(s: string)
    ensures Lower(Lower(s)) == Lower(s)
  {
  }

  /** Normalizing twice changes nothing: a normalized value compares equal to itself. */
  lemma NormalizeIdempotent(s: string)
    ensures Normalize(Normalize(s)) == Normalize(s)
  {
    var t := Trim(s);
    var l := Lower(t);
    assert |l| > 0 ==> l[0] == LowerChar(t[0]) && l[|l| - 1] == LowerChar(t[|t| - 1]);
    TrimmedIsFixed(l);
    LowerIdempotent(t);
  }

  /** A value normalizes to "" exactly when it is blank. */
  lemma NormalizeBlank(s: string)
    ensures Normalize(s) == "" <==> Trim(s) == ""
  {
    assert |Normalize(s)| == |Trim(s)|;
  }

  /** `s.startsWith(p)`. */
  predicate StartsWith(s: string, p: string) {
    |p| <= |s| && s[..|p|] == p
  }

  /** `s.includes(p)`: `p` occurs somewhere in `s`. */
  predicate Contains(s: string, p: string)
    decreases |s|
  {
    StartsWith(s, p) || (|s| > 0 && Contains(s[1..], p))
  }

  lemma {:induction false} ContainsAt(s: string, p: string, i: nat)
    requires i + |p| <= |s| && s[i..i + |p|] == p
    ensures Contains(s, p)
    decreases i
  {
    if i == 0 {
      assert s[..|p|] == p;
    } else {
      assert s[1..][i - 1..i - 1 + |p|] == s[i..i + |p|];
      ContainsAt(s[1..], p, i - 1);
    }
  }

  /** Index of the first occurrence of `p` in `s` (`indexOf`), if any. */
  function IndexOf(s: string, p: string): (r: Option<nat>)
    ensures r.Some? ==> r.value + |p| <= |s| && StartsWith(s[r.value..], p)
    ensures r.Some? ==> forall i :: 0 <= i < r.value ==> !StartsWith(s[i..], p)
    ensures r.None? ==> forall i :: 0 <= i <= |s| ==> !StartsWith(s[i..], p)
    decreases |s|
  {
    if StartsWith(s, p) then Some(0)
    else if |s| == 0 then None
    else
      SuffixesOfTail(s);
      match IndexOf(s[1..], p)
      case None => None
      case Some(k) => Some(k + 1)
  }

  /** The suffixes of `s[1..]` are the suffixes of `s` past its first character. */
  lemma SuffixesOfTail(s: string)
    requires |s| > 0
    ensures forall i :: 1 <= i <= |s| ==> s[i..] == s[1..][i - 1..]
  {
  }

  /** `s.replace(p, q)` with a string pattern: only the first occurrence is replaced. */
  function ReplaceFirst(s: string, p: string, q: string): string {
    match IndexOf(s, p)
    case None => s
    case Some(i) => s[..i] + q + s[i + |p|..]
  }

  /** `xs.join(sep)`. */
  function Join(xs: seq<string>, sep: string): string
    decreases |xs|
  {
    if |xs| == 0 then ""
    else if |xs| == 1 then xs[0]
    else xs[0] + sep + Join(xs[1..], sep)
  }

  /** `s.split(c)` for a one-character separator: never empty; `""` splits into `[""]`. */
  function Split(s: string, c: char): (r: seq<string>)
    ensures |r| >= 1
    ensures forall k :: 0 <= k < |r| ==> c !in r[k]
    decreases |s|
  {
    if |s| == 0 then [""]
    else if s[0] == c then [""] + Split(s[1..], c)
    else
      var rest := Split(s[1..], c);
      [[s[0]] + rest[0]] + rest[1..]
  }

  /** Splitting and joining back with the same separator is the identity. */
  lemma {:induction false} JoinSplit(s: string, c: char)
    ensures Join(Split(s, c), [c]) == s
    decreases |s|
  {
    if |s| == 0 {
    } else if s[0] == c {
      JoinSplit(s[1..], c);
    } else {
      JoinSplit(s[1..], c);
      var rest := Split(s[1..], c);
      if |rest| == 1 {
      } else {
        assert Join(rest, [c]) == rest[0] + [c] + Join(rest[1..], [c]);
      }
    }
  }

  /** Joining separator-free parts and splitting again gives the parts back. */
  lemma {:induction false} SplitJoin(parts: seq<string>, c: char)
    requires |parts| >= 1
    requires forall k :: 0 <= k < |parts| ==> c !in parts[k]
    ensures Split(Join(parts, [c]), c) == parts
    decreases |parts|, |parts[0]|
  {
    var head := parts[0];
    if |head| == 0 {
      if |parts| == 1 {
      } else {
        assert Join(parts, [c]) == [c] + Join(parts[1..], [c]);
        assert (Join(parts, [c]))[1..] == Join(parts[1..], [c]);
        SplitJoin(parts[1..], c);
      }
    } else {
      var parts' := [head[1..]] + parts[1..];
      assert parts'[1..] == parts[1..];
      assert head[0] != c by { assert head[0] in head; }
      assert Join(parts, [c]) == [head[0]] + Join(parts', [c]) by {
        if |parts| > 1 {
          assert Join(parts', [c]) == head[1..] + [c] + Join(parts[1..], [c]);
        }
      }
      assert (Join(parts, [c]))[1..] == Join(parts', [c]);
      assert forall k :: 0 <= k < |parts'| ==> c !in parts'[k] by {
        forall k | 0 <= k < |parts'| ensures c !in parts'[k] {
          if k == 0 {
            assert forall x :: x in head[1..] ==> x in head;
          }
        }
      }
      SplitJoin(parts', c);
      assert [head[0]] + head[1..] == head;
    }
  }

  /** `n` copies of `c`. */
  function Repeat(c: char, n: nat): (r: string)
    ensures |r| == n && forall i :: 0 <= i < n ==> r[i] == c
  {
    if n == 0 then "" else [c] + Repeat(c, n - 1)
  }

  /** `s.padStart(width, c)` for a one-character pad. */
  function PadStart(s: string, width: nat, c: char): (r: string)
    ensures |r| == if |s| >= width then |s| else width
    ensures r[|r| - |s|..] == s
  {
    if |s| >= width then s else Repeat(c, width - |s|) + s
  }

  predicate IsDigit(c: char) {
    '0' <= c <= '9'
  }

  predicate AllDigits(s: string) {
    forall i :: 0 <= i < |s| ==> IsDigit(s[i])
  }

  function DigitChar(d: nat): (c: char)
    requires d < 10
    ensures IsDigit(c) && c as int - '0' as int == d
  {
    ('0' as int + d) as char
  }

  /** The value of a run of decimal digits (`Number` on such a string; `""` is 0). */
  function DigitsValue(s: string): nat
    requires AllDigits(s)
  {
    if |s| == 0 then 0
    else DigitsValue(s[..|s| - 1]) * 10 + (s[|s| - 1] as int - '0' as int)
  }

  /** `String(n)` for a natural number: decimal, without leading zeros. */
  function NatToString(n: nat): (r: string)
    ensures |r| >= 1 && AllDigits(r)
    ensures |r| > 1 ==> r[0] != '0'
  {
    if n < 10 then [DigitChar(n)] else NatToString(n / 10) + [DigitChar(n % 10)]
  }

  /** `String(i)` for an integer. */
  function IntToString(i: int): string {
    if i < 0 then "-" + NatToString(-i) else NatToString(i)
  }

  /** Reading back the decimal rendering of `n` gives `n`. */
  lemma {:induction false} NatToStringValue(n: nat)
    ensures DigitsValue(NatToString(n)) == n
  {
    var s := NatToString(n);
    if n >= 10 {
      NatToStringValue(n / 10);
      assert s[..|s| - 1] == NatToString(n / 10);
    }
  }

  lemma {:induction false} ZerosValue(k: nat)
    ensures AllDigits(Repeat('0', k)) && DigitsValue(Repeat('0', k)) == 0
  {
    if k > 0 {
      var z := Repeat('0', k);
      assert z[..k - 1] == Repeat('0', k - 1);
      ZerosValue(k - 1);
    }
  }

  /** Leading zeros do not change the value of a digit string. */
  lemma {:induction false} LeadingZerosValue(k: nat, s: string)
    requires AllDigits(s)
    ensures AllDigits(Repeat('0', k) + s)
    ensures DigitsValue(Repeat('0', k) + s) == DigitsValue(s)
    decreases |s|
  {
    var z := Repeat('0', k);
    if |s| == 0 {
      assert z + s == z;
      ZerosValue(k);
    } else {
      var t := z + s;
      LeadingZerosValue(k, s[..|s| - 1]);
      assert t[..|t| - 1] == z + s[..|s| - 1];
    }
  }

  /** JavaScript's `a < b` on strings (and the order `localeCompare` is taken to be). */
  predicate Less(a: string, b: string)
    decreases |a|
  {
    if |a| == 0 then |b| > 0
    else if |b| == 0 then false
    else if a[0] != b[0] then a[0] < b[0]
    else Less(a[1..], b[1..])
  }

  lemma {:induction false} LessIrreflexive(a: string)
    ensures !Less(a, a)
    decreases |a|
  {
    if |a| > 0 {
      LessIrreflexive(a[1..]);
    }
  }

  /** Any two strings are ordered one way or the other, or are equal. */
  lemma {:induction false} LessTotal(a: string, b: string)
    ensures Less(a, b) || a == b || Less(b, a)
    decreases |a|
  {
    if |a| > 0 && |b| > 0 && a[0] == b[0] {
      LessTotal(a[1..], b[1..]);
      if a[1..] == b[1..] {
        assert a == [a[0]] + a[1..] && b == [b[0]] + b[1..];
      }
    }
  }

  lemma {:induction false} LessTransitive(a: string, b: string, c: string)
    requires Less(a, b) && Less(b, c)
    ensures Less(a, c)
    decreases |a|
  {
    if |a| > 0 && a[0] == b[0] && b[0] == c[0] {
      LessTransitive(a[1..], b[1..], c[1..]);
    }
  }

  lemma {:induction false} LessAsymmetric(a: string, b: string)
    requires Less(a, b)
    ensures !Less(b, a)
    decreases |a|
  {
    if |a| > 0 && a[0] == b[0] {
      LessAsymmetric(a[1..], b[1..]);
    }
  }

  /** `a <= b` on strings, which is also `a.localeCompare(b) <= 0` here. */
  predicate LessEq(a: string, b: string) {
    !Less(b, a)
  }

  lemma LessEqTotal(a: string, b: string)
    ensures LessEq(a, b) || LessEq(b, a)
  {
    if Less(a, b) {
      LessAsymmetric(a, b);
    }
  }

  lemma LessEqTransitive(a: string, b: string, c: string)
    requires LessEq(a, b) && LessEq(b, c)
    ensures LessEq(a, c)
  {
    if Less(c, a) {
      LessTotal(a, b);
      if Less(a, b) {
        LessTransitive(c, a, b);
      }
    }
  }
}

=== FILE: submissions.dfy ===
/**
 * The "my submissions" list: the clinic drop-down built from the submissions,
 * and the filter behind the table.
 */
module Submissions {
  import opened Options
  import opened Lists
  import Strings

  datatype SubmissionStatus = Pending | Completed | ActionRequired

  /** A submission; a missing `clinicName` is "". */
  datatype Submission = Submission(
    id: string,
    refNumber: string,
    patientName: string,
    carrier: string,
    dateSubmitted: string,
    status: SubmissionStatus,
    workflow: string,
    clinicName: string)

  const AllClinics := "All Clinics"

  // ---------------------------------------------------------------------------
  // Clinic options

  /**
   * The distinct non-empty names of `names`, in order of first appearance
   * (`Array.from(new Set(names)).filter(Boolean)`).
   */
  function DistinctNames(names: seq<string>): seq<string>
    decreases |names|
  {
    if |names| == 0 then []
    else
      var seen := DistinctNames(names[..|names| - 1]);
      var last := names[|names| - 1];
      if last == "" || last in seen then seen else seen + [last]
  }

  function ClinicNames(subs: seq<Submission>): (names: seq<string>)
    ensures |names| == |subs| && forall i :: 0 <= i < |subs| ==> names[i] == subs[i].clinicName
  {
    seq(|subs|, i requires 0 <= i < |subs| => subs[i].clinicName)
  }

  /** `clinics`: "All Clinics" followed by the distinct clinic names in order of first appearance. */
  method ClinicOptions(subs: seq<Submission>) returns (options: seq<string>)
    ensures options == [AllClinics] + DistinctNames(ClinicNames(subs))
  {
    var names := ClinicNames(subs);
    var seen: seq<string> := [];
    var i := 0;
    while i < |subs|
      invariant 0 <= i <= |subs|
      invariant seen == DistinctNames(names[..i])
    {
      var name := subs[i].clinicName;
      assert names[..i + 1][..i] == names[..i];
      if name != "" && name !in seen {
        seen := seen + [name];
      }
      i := i + 1;
    }
    assert names[..|subs|] == names;
    options := [AllClinics] + seen;
  }

  /** The first position of `x` in `s`. */
  function FirstIndex(s: seq<string>, x: string): (k: nat)
    requires x in s
    ensures k < |s| && s[k] == x && forall j :: 0 <= j < k ==> s[j] != x
  {
    if s[0] == x then 0 else 1 + FirstIndex(s[1..], x)
  }

  lemma FirstIndexInPrefix(s: seq<string>, n: nat, x: string)
    requires n <= |s| && x in s[..n]
    ensures x in s && FirstIndex(s, x) == FirstIndex(s[..n], x)
  {
    var k := FirstIndex(s[..n], x);
    assert s[k] == x;
    var m := FirstIndex(s, x);
    assert m <= k;
    assert s[..n][m] == x;
  }

  /**
   * The names listed are exactly the non-empty names that occur, each once,
   * in the order in which they first occur.
   */
  lemma {:induction false} DistinctNamesSpec(names: seq<string>)
    ensures var d := DistinctNames(names);
      && (forall x :: x in d <==> x != "" && x in names)
      && (forall i, j :: 0 <= i < j < |d| ==> d[i] != d[j])
      && (forall i, j :: 0 <= i < j < |d| ==> FirstIndex(names, d[i]) < FirstIndex(names, d[j]))
    decreases |names|
  {
    if |names| > 0 {
      var n := |names| - 1;
      var prefix := names[..n];
      var seen := DistinctNames(prefix);
      var last := names[n];
      DistinctNamesSpec(prefix);
      assert names == prefix + [last];
      var d := DistinctNames(names);
      forall x | x in d ensures x in names {
      }
      forall i | 0 <= i < |seen| ensures FirstIndex(names, seen[i]) == FirstIndex(prefix, seen[i]) {
        FirstIndexInPrefix(names, n, seen[i]);
      }
      if !(last == "" || last in seen) {
        assert last !in prefix;
        assert FirstIndex(names, last) == n;
        forall i | 0 <= i < |seen| ensures FirstIndex(names, seen[i]) < n {
          FirstIndexInPrefix(names, n, seen[i]);
        }
      }
    }
  }

  // ---------------------------------------------------------------------------
  // Filter

  /** The filter bar: search, status (`None` for "All"), clinic (or "All Clinics"), optional date bounds. */
  datatype SubmissionFilter = SubmissionFilter(
    searchTerm: string, status: Option<SubmissionStatus>, clinic: string, startDate: string, endDate: string)

  predicate MatchesSearch(s: Submission, term: string) {
    var q := Strings.Lower(term);
    Strings.Contains(Strings.Lower(s.patientName), q) || Strings.Contains(Strings.Lower(s.refNumber), q)
  }

  /** The filter predicate of `filteredSubmissions`. */
  predicate Kept(f: SubmissionFilter, s: Submission) {
    && MatchesSearch(s, f.searchTerm)
    && (f.status.None? || s.status == f.status.value)
    && (f.clinic == AllClinics || s.clinicName == f.clinic)
    && (f.startDate != "" ==> Strings.LessEq(f.startDate, s.dateSubmitted))
    && (f.endDate != "" ==> Strings.LessEq(s.dateSubmitted, f.endDate))
  }

  /** The kept submissions, in list order, before the view's final sort. */
  function FilterSubmissions(subs: seq<Submission>, f: SubmissionFilter): (r: seq<Submission>)
    ensures forall i :: 0 <= i < |r| ==> r[i] in subs && Kept(f, r[i])
    ensures forall i :: 0 <= i < |subs| && Kept(f, subs[i]) ==> subs[i] in r
    ensures exists idx :: (PicksAt(r, subs, idx)
      && forall k :: 0 <= k < |subs| ==> (k in idx <==> Kept(f, subs[k])))
  {
    var keep := (x: Submission) => Kept(f, x);
    assert forall i :: 0 <= i < |subs| && Kept(f, subs[i]) ==> keep(subs[i]);
    FilterKeepsOrder(subs, keep);
    Filter(subs, keep)
  }

  /**
   * Narrowing any one criterion can only drop submissions: a submission kept
   * under a chosen clinic is kept under "All Clinics", and one kept under a
   * status is kept under "All".
   */
  lemma WideningKeeps(f: SubmissionFilter, s: Submission)
    requires Kept(f, s)
    ensures Kept(f.(clinic := AllClinics), s)
    ensures Kept(f.(status := None), s)
    ensures Kept(f.(startDate := ""), s) && Kept(f.(endDate := ""), s)
  {
  }

  /** Choosing a listed clinic keeps exactly the otherwise-kept submissions of that clinic. */
  lemma ClinicSelection(f: SubmissionFilter, s: Submission)
    requires f.clinic != AllClinics
    ensures Kept(f, s) <==> s.clinicName == f.clinic && Kept(f.(clinic := AllClinics), s)
  {
  }
}

=== FILE: wcpi_listing.dfy ===
/**
 * The WC/PI claims list: a search and two multi-select filters, a sort on the
 * chosen column (status descending at first), and the page of it shown.
 */
module WCPIListing {
  import opened Lists
  import opened SortKeys
  import Strings

  datatype Claim = Claim(
    claimId: string,
    claimType: string,
    patientName: string,
    clinicName: string,
    providerName: string,
    insurerOrThirdParty: string,
    policyOrClaimNumber: string,
    dateOfInjury: string,
    dateReceived: string,
    status: string,
    assignedTo: string,
    primaryContact: string,
    caseTotal: int,
    balanceRemaining: int,
    createdAt: string,
    lastUpdatedAt: string,
    createdBy: string,
    lastUpdatedBy: string)

  datatype ClaimField =
    | ClaimId | ClaimType | PatientName | ClinicName | ProviderName | InsurerOrThirdParty
    | PolicyOrClaimNumber | DateOfInjury | DateReceived | Status | AssignedTo | PrimaryContact
    | CaseTotal | BalanceRemaining | CreatedAt | LastUpdatedAt | CreatedBy | LastUpdatedBy

  /** The header state the view starts in: status, descending. */
  const InitialSort: SortState<ClaimField> := SortState(Status, Desc)

  function ValueOf(c: Claim, field: ClaimField): (k: SortKey)
    ensures field == CaseTotal || field == BalanceRemaining <==> k.Number?
    ensures !k.Opaque?
  {
    match field
    case ClaimId => Text(c.claimId)
    case ClaimType => Text(c.claimType)
    case PatientName => Text(c.patientName)
    case ClinicName => Text(c.clinicName)
    case ProviderName => Text(c.providerName)
    case InsurerOrThirdParty => Text(c.insurerOrThirdParty)
    case PolicyOrClaimNumber => Text(c.policyOrClaimNumber)
    case DateOfInjury => Text(c.dateOfInjury)
    case DateReceived => Text(c.dateReceived)
    case Status => Text(c.status)
    case AssignedTo => Text(c.assignedTo)
    case PrimaryContact => Text(c.primaryContact)
    case CaseTotal => Number(c.caseTotal)
    case BalanceRemaining => Number(c.balanceRemaining)
    case CreatedAt => Text(c.createdAt)
    case LastUpdatedAt => Text(c.lastUpdatedAt)
    case CreatedBy => Text(c.createdBy)
    case LastUpdatedBy => Text(c.lastUpdatedBy)
  }

  // ---------------------------------------------------------------------------
  // Filter

  /** The filter bar: a search term and the selected statuses and claim types (empty: all). */
  datatype ClaimFilter = ClaimFilter(searchTerm: string, statuses: seq<string>, types: seq<string>)

  predicate MatchesSearch(c: Claim, term: string) {
    var q := Strings.Lower(term);
    || Strings.Contains(Strings.Lower(c.claimId), q)
    || Strings.Contains(Strings.Lower(c.patientName), q)
    || Strings.Contains(Strings.Lower(c.insurerOrThirdParty), q)
    || Strings.Contains(Strings.Lower(c.policyOrClaimNumber), q)
  }

  /** A multi-select with nothing selected lets everything through. */
  predicate Selected(choices: seq<string>, value: string) {
    |choices| == 0 || value in choices
  }

  predicate Kept(f: ClaimFilter, c: Claim) {
    MatchesSearch(c, f.searchTerm) && Selected(f.statuses, c.status) && Selected(f.types, c.claimType)
  }

  function FilterClaims(claims: seq<Claim>, f: ClaimFilter): (r: seq<Claim>)
    ensures forall i :: 0 <= i < |r| ==> r[i] in claims && Kept(f, r[i])
    ensures forall i :: 0 <= i < |claims| && Kept(f, claims[i]) ==> claims[i] in r
    ensures exists idx :: (PicksAt(r, claims, idx)
      && forall k :: 0 <= k < |claims| ==> (k in idx <==> Kept(f, claims[k])))
  {
    var keep := (x: Claim) => Kept(f, x);
    assert forall i :: 0 <= i < |claims| && Kept(f, claims[i]) ==> keep(claims[i]);
    FilterKeepsOrder(claims, keep);
    Filter(claims, keep)
  }

  /** Selecting a status keeps exactly the claims with one of the selected statuses among those otherwise kept. */
  lemma StatusSelection(f: ClaimFilter, c: Claim)
    requires |f.statuses| > 0
    ensures Kept(f, c) <==> c.status in f.statuses && Kept(f.(statuses := []), c)
  {
  }

  // ---------------------------------------------------------------------------
  // Sort

  /**
   * `cmp(a, b) <= 0` for the comparator built from `<` and `>`: ascending
   * means no greater, descending means no less.
   */
  predicate ClaimLe(state: SortState<ClaimField>, a: Claim, b: Claim) {
    KeyLe(state.order, ValueOf(a, state.field), ValueOf(b, state.field))
  }

  function ClaimOrder(state: SortState<ClaimField>): (Claim, Claim) -> bool {
    (a, b) => ClaimLe(state, a, b)
  }

  lemma ClaimOrderIsTotalPreorder(state: SortState<ClaimField>)
    ensures TotalPreorder(ClaimOrder(state))
  {
    forall x, y ensures ClaimLe(state, x, y) || ClaimLe(state, y, x) {
      KeyLeTotal(state.order, ValueOf(x, state.field), ValueOf(y, state.field));
    }
    forall x, y, z | ClaimLe(state, x, y) && ClaimLe(state, y, z) ensures ClaimLe(state, x, z) {
      KeyLeTransitive(state.order, ValueOf(x, state.field), ValueOf(y, state.field), ValueOf(z, state.field));
    }
  }

  /**
   * `filteredClaims`: the kept claims, a permutation of them, ordered by the
   * chosen column, with claims that tie on it left in their filtered order.
   */
  function FilteredClaims(claims: seq<Claim>, f: ClaimFilter, state: SortState<ClaimField>): (r: seq<Claim>)
    ensures multiset(r) == multiset(FilterClaims(claims, f))
    ensures forall i :: 0 <= i < |r| ==> r[i] in claims && Kept(f, r[i])
    ensures SortedBy(r, ClaimOrder(state))
    ensures KeepsTieOrder(r, FilterClaims(claims, f), ClaimOrder(state))
  {
    var kept := FilterClaims(claims, f);
    ClaimOrderIsTotalPreorder(state);
    SortBySorted(kept, ClaimOrder(state));
    SortByKeepsTieOrder(kept, ClaimOrder(state));
    var r := SortBy(kept, ClaimOrder(state));
    forall i | 0 <= i < |r| ensures r[i] in claims && Kept(f, r[i]) {
      assert r[i] in multiset(kept);
      var j :| 0 <= j < |kept| && kept[j] == r[i];
    }
    r
  }

  /** A descending listing read backwards is in ascending order of the same column. */
  lemma DescIsReversedAsc(claims: seq<Claim>, f: ClaimFilter, field: ClaimField)
    ensures SortedBy(Reverse(FilteredClaims(claims, f, SortState(field, Desc))), ClaimOrder(SortState(field, Asc)))
  {
    var r := FilteredClaims(claims, f, SortState(field, Desc));
    forall i, j | 0 <= i < j < |r| ensures ClaimLe(SortState(field, Asc), r[j], r[i]) {
      assert ClaimOrder(SortState(field, Desc))(r[i], r[j]);
      DescIsFlippedAsc(ValueOf(r[i], field), ValueOf(r[j], field));
    }
    SortedReverse(r, ClaimOrder(SortState(field, Asc)));
  }

  // ---------------------------------------------------------------------------
  // Pagination

  /** A `slice` bound: negative counts back from the end; the result lies in `[0, len]`. */
  function SliceBound(i: int, len: nat): (b: nat)
    ensures b <= len
  {
    if i < 0 then (if len + i < 0 then 0 else len + i)
    else if i > len then len
    else i
  }

  /** `s.slice(start, end)`. */
  function Slice<T>(s: seq<T>, start: int, end: int): (r: seq<T>)
    ensures var b := SliceBound(start, |s|);
      var e := SliceBound(end, |s|);
      if b < e then r == s[b..e] else r == []
  {
    var b := SliceBound(start, |s|);
    var e := SliceBound(end, |s|);
    if b < e then s[b..e] else []
  }

  /**
   * Where page `page` (from 1) starts, `(page - 1) * pageSize`, counted out
   * one page at a time so that the solver does not face the product.
   */
  function PageStart(page: int, pageSize: int): int
    decreases if page > 1 then page - 1 else 1 - page
  {
    if page == 1 then 0
    else if page > 1 then PageStart(page - 1, pageSize) + pageSize
    else PageStart(page + 1, pageSize) - pageSize
  }

  lemma {:induction false} PageStartIsProduct(page: int, pageSize: int)
    ensures PageStart(page, pageSize) == (page - 1) * pageSize
    decreases if page > 1 then page - 1 else 1 - page
  {
    if page > 1 {
      PageStartIsProduct(page - 1, pageSize);
    } else if page < 1 {
      PageStartIsProduct(page + 1, pageSize);
    }
  }

  lemma {:induction false} PageStartNonNegative(page: int, pageSize: int)
    ensures page >= 1 && pageSize >= 0 ==> PageStart(page, pageSize) >= 0
    decreases if page > 1 then page else 0
  {
    if page > 1 {
      PageStartNonNegative(page - 1, pageSize);
    }
  }

  /** How many entries a page starting at `start` holds: a full page, the rest of the list, or none. */
  function PageLength(len: nat, start: int, pageSize: int): int {
    if start >= len then 0
    else if start + pageSize <= len then pageSize
    else len - start
  }

  /** `r` is the page of `s` from `start` holding up to `pageSize` entries: exactly the entries there are, in order. */
  ghost predicate IsPage<T>(r: seq<T>, s: seq<T>, start: int, pageSize: int) {
    && |r| == PageLength(|s|, start, pageSize)
    && forall k :: 0 <= k < |r| ==> 0 <= start + k < |s| && r[k] == s[start + k]
  }

  /**
   * `paginatedClaims`: page `page` (from 1) of `pageSize` entries. The view's
   * end bound `page * pageSize` is written `PageStart(page, pageSize) + pageSize`.
   */
  function PageOf<T>(s: seq<T>, page: int, pageSize: int): (r: seq<T>)
    ensures page >= 1 && pageSize >= 0 ==> IsPage(r, s, PageStart(page, pageSize), pageSize)
    ensures forall k :: 0 <= k < |r| ==> r[k] in s
  {
    var start := PageStart(page, pageSize);
    PageStartNonNegative(page, pageSize);
    SliceEntries(s, start, start + pageSize);
    Slice(s, start, start + pageSize)
  }

  /** A slice between ordered, non-negative bounds holds at most `end - start` consecutive entries from `start`. */
  lemma SliceEntries<T>(s: seq<T>, start: int, end: int)
    ensures var r := Slice(s, start, end);
      && (forall k :: 0 <= k < |r| ==> r[k] in s)
      && (0 <= start <= end ==> |r| <= end - start && forall k :: 0 <= k < |r| ==> start + k < |s| && r[k] == s[start + k])
  {
  }

  /** Entry `q * size + r` of the list (with `r < size`) is entry `r` of page `q + 1`. */
  lemma EntryOnItsPage<T>(s: seq<T>, pageSize: nat, q: nat, r: nat)
    requires r < pageSize && q * pageSize + r < |s|
    ensures r < |PageOf(s, q + 1, pageSize)| && PageOf(s, q + 1, pageSize)[r] == s[q * pageSize + r]
  {
    var start := PageStart(q + 1, pageSize);
    PageStartIsProduct(q + 1, pageSize);
    assert PageOf(s, q + 1, pageSize) == Slice(s, start, start + pageSize);
  }

  /** The page the view shows: the current page of the sorted, filtered claims. */
  function PaginatedClaims(claims: seq<Claim>, f: ClaimFilter, state: SortState<ClaimField>,
                           page: int, pageSize: int): (r: seq<Claim>)
    ensures page >= 1 && pageSize >= 0 ==> IsPage(r, FilteredClaims(claims, f, state), PageStart(page, pageSize), pageSize)
    ensures forall k :: 0 <= k < |r| ==> r[k] in claims && Kept(f, r[k])
  {
    var all := FilteredClaims(claims, f, state);
    var r := PageOf(all, page, pageSize);
    assert forall k :: 0 <= k < |r| ==> r[k] in all;
    r
  }
}

=== FILE: workflow_executor.dfy ===
/**
 * The workflow simulator: a deterministic walk over a definition from its
 * first TRIGGER node, applying node actions and taking, at each node, the
 * lowest-priority matching IF edge or else the ELSE edge, until an END node,
 * a dead end, a missing target or a revisited node stops it.
 */
module WorkflowExecutor {
  import opened Options
  import opened Conditions
  import opened WorkflowGraph
  import opened Lists

  /** The last edge taken: the names of its two nodes and its label. */
  datatype PathStep = PathStep(from: string, to: string, edgeLabel: string)

  datatype StopReason =
    | NoNodes
    | LoopDetected
    | MissingTarget
    | NoOutgoing(nodeName: string)
    | NoBranch(nodeName: string)
    | ReachedEnd(nodeName: string)
    | StartIsEnd

  /** The stops the simulator reports as failures (`ok: false`). */
  predicate IsDefect(r: StopReason) {
    r.NoNodes? || r.LoopDetected? || r.MissingTarget?
  }

  function ReasonText(r: StopReason): string {
    match r
    case NoNodes => "Workflow has no nodes."
    case LoopDetected => "Loop detected in workflow graph."
    case MissingTarget => "Edge points to missing node."
    case NoOutgoing(n) => "Stopped: no outgoing path from \"" + n + "\"."
    case NoBranch(n) => "Stopped: no matching IF branch from \"" + n + "\" and no ELSE branch."
    case ReachedEnd(n) => "Completed: reached \"" + n + "\"."
    case StartIsEnd => "Completed."
  }

  /**
   * What a run returns. `trail` is the model's record of the nodes whose actions
   * were applied, in order (the source keeps only their ids, in `visited`).
   */
  datatype SimResult = SimResult(
    ok: bool,
    reason: StopReason,
    executed: seq<WorkflowAction>,
    finalStatus: string,
    assignedTo: string,
    chosenPath: Option<PathStep>,
    trail: seq<HubNode>)

  /** One action's effect on the running status and assignee. */
  function ApplyAction(a: WorkflowAction, status: string, assignee: string): (string, string) {
    match a
    case SetStatus(_, s) => (s, assignee)
    case AssignUser(_, m, v) => (status, Assignee(m, v))
    case AutofillFields(_, _) => (status, assignee)
    case SendEmail(_, _, _) => (status, assignee)
  }

  /** A node's actions applied in list order. */
  function ApplyActions(actions: seq<WorkflowAction>, status: string, assignee: string): (string, string)
    decreases |actions|
  {
    if |actions| == 0 then (status, assignee)
    else
      var after := ApplyAction(actions[0], status, assignee);
      ApplyActions(actions[1..], after.0, after.1)
  }

  /** The status of the last SET_STATUS in `executed`, or `initial` when there is none. */
  function LastStatus(executed: seq<WorkflowAction>, initial: string): string
    decreases |executed|
  {
    if |executed| == 0 then initial
    else if executed[|executed| - 1].SetStatus? then executed[|executed| - 1].statusToSet
    else LastStatus(executed[..|executed| - 1], initial)
  }

  /** The `mode:value` of the last ASSIGN_USER in `executed`, or "" when there is none. */
  function LastAssignee(executed: seq<WorkflowAction>): string
    decreases |executed|
  {
    if |executed| == 0 then ""
    else if executed[|executed| - 1].AssignUser? then
      Assignee(executed[|executed| - 1].mode, executed[|executed| - 1].value)
    else LastAssignee(executed[..|executed| - 1])
  }

  /** Applying actions one by one leaves exactly the last SET_STATUS and ASSIGN_USER in force. */
  lemma {:induction false} ApplyActionsIsLast(executed: seq<WorkflowAction>, actions: seq<WorkflowAction>, initial: string)
    ensures ApplyActions(actions, LastStatus(executed, initial), LastAssignee(executed))
         == (LastStatus(executed + actions, initial), LastAssignee(executed + actions))
    decreases |actions|
  {
    if |actions| > 0 {
      var e' := executed + [actions[0]];
      assert e'[..|e'| - 1] == executed;
      assert ApplyAction(actions[0], LastStatus(executed, initial), LastAssignee(executed))
          == (LastStatus(e', initial), LastAssignee(e'));
      ApplyActionsIsLast(e', actions[1..], initial);
      assert e' + actions[1..] == executed + actions;
    } else {
      assert executed + actions == executed;
    }
  }

  /** The concatenated actions of a sequence of nodes. */
  function ActionsOf(nodes: seq<HubNode>): seq<WorkflowAction>
    decreases |nodes|
  {
    if |nodes| == 0 then [] else ActionsOf(nodes[..|nodes| - 1]) + nodes[|nodes| - 1].actions
  }

  function NodeIds(d: WorkflowDefinition): set<string> {
    set i | 0 <= i < |d.nodes| :: d.nodes[i].id
  }

  predicate PriorityLe(a: HubEdge, b: HubEdge) {
    a.priority <= b.priority
  }

  /** The edges leaving `nodeId`, in definition order. */
  function Leaving(d: WorkflowDefinition, nodeId: string): seq<HubEdge> {
    Filter(d.edges, (e: HubEdge) => e.source == nodeId)
  }

  /** `def.edges.filter(source === id).sort(by priority)`: the order branches are tried in. */
  function Outgoing(d: WorkflowDefinition, nodeId: string): seq<HubEdge> {
    SortBy(Leaving(d, nodeId), PriorityLe)
  }

  /** An IF edge (one with conditions) whose group matches the inputs. */
  function MatchesIf(inputs: EvalInputs): HubEdge -> bool {
    (e: HubEdge) => HasConditions(e.conditionGroup) && GroupMatches(e.conditionGroup, inputs)
  }

  /** The first matching IF edge in `outgoing`, or else the first ELSE edge. */
  function ChooseEdge(outgoing: seq<HubEdge>, inputs: EvalInputs): Option<HubEdge> {
    var matchingIf := Find(outgoing, MatchesIf(inputs));
    var elseEdge := Find(outgoing, IsElse);
    if matchingIf.Some? then matchingIf else elseEdge
  }

  /** The first node with the given id. */
  function FindNode(d: WorkflowDefinition, id: string): (r: Option<HubNode>)
    ensures r.Some? ==> r.value in d.nodes && r.value.id == id
    ensures r.None? <==> !HasNode(d, id)
  {
    Find(d.nodes, (n: HubNode) => n.id == id)
  }

  /**
   * The reference reading of branch selection, without sorting: the position of
   * the edge with the lowest priority among those satisfying `p`, the earliest
   * of those on a tie.
   */
  function LowestIndex(s: seq<HubEdge>, p: HubEdge -> bool): (r: Option<nat>)
    ensures r.Some? ==> r.value < |s| && p(s[r.value])
    ensures r.Some? ==> forall i :: 0 <= i < |s| && p(s[i]) ==> s[r.value].priority <= s[i].priority
    ensures r.Some? ==> forall i :: 0 <= i < r.value && p(s[i]) ==> s[i].priority > s[r.value].priority
    ensures r.None? <==> forall i :: 0 <= i < |s| ==> !p(s[i])
    decreases |s|
  {
    if |s| == 0 then None
    else
      var rest := LowestIndex(s[1..], p);
      if p(s[0]) && (rest.None? || s[0].priority <= s[1..][rest.value].priority) then Some(0)
      else if rest.None? then None
      else Some(rest.value + 1)
  }

  /** The edge at `LowestIndex`. */
  function LowestOf(s: seq<HubEdge>, p: HubEdge -> bool): Option<HubEdge> {
    match LowestIndex(s, p)
    case None => None
    case Some(k) => Some(s[k])
  }

  /** `x` in front of a candidate: `x` wins when it qualifies and is no later in priority. */
  function Prefer(x: HubEdge, rest: Option<HubEdge>, p: HubEdge -> bool): Option<HubEdge> {
    if !p(x) then rest
    else if rest.None? || x.priority <= rest.value.priority then Some(x)
    else rest
  }

  /** Finding in a stably inserted sequence prefers the inserted edge exactly as `Prefer` does. */
  lemma {:induction false} FindInsert(x: HubEdge, t: seq<HubEdge>, p: HubEdge -> bool)
    requires SortedBy(t, PriorityLe)
    ensures Find(Insert(x, t, PriorityLe), p) == Prefer(x, Find(t, p), p)
    decreases |t|
  {
    var ins := Insert(x, t, PriorityLe);
    if |t| == 0 {
      assert ins == [x];
    } else if PriorityLe(x, t[0]) {
      assert ins == [x] + t;
      assert ins[1..] == t;
    } else {
      var tail := t[1..];
      assert SortedBy(tail, PriorityLe);
      FindInsert(x, tail, p);
      assert ins == [t[0]] + Insert(x, tail, PriorityLe);
      assert ins[1..] == Insert(x, tail, PriorityLe);
    }
  }

  /**
   * Taking the first edge satisfying `p` after the stable priority sort is the
   * same as taking the lowest-priority one, earliest on a tie.
   */
  lemma {:induction false} FirstOfSortedIsLowest(s: seq<HubEdge>, p: HubEdge -> bool)
    ensures Find(SortBy(s, PriorityLe), p) == LowestOf(s, p)
    decreases |s|
  {
    if |s| > 0 {
      assert LowestOf(s, p) == Prefer(s[0], LowestOf(s[1..], p), p);
      FirstOfSortedIsLowest(s[1..], p);
      SortBySorted(s[1..], PriorityLe);
      FindInsert(s[0], SortBy(s[1..], PriorityLe), p);
    }
  }

  /**
   * The branch a node takes: the lowest-priority IF edge whose group matches, or
   * failing that the lowest-priority ELSE edge; either way an edge leaving the node.
   */
  lemma BranchChoice(d: WorkflowDefinition, nodeId: string, inputs: EvalInputs)
    ensures ChooseEdge(Outgoing(d, nodeId), inputs)
         == (if LowestOf(Leaving(d, nodeId), MatchesIf(inputs)).Some?
             then LowestOf(Leaving(d, nodeId), MatchesIf(inputs))
             else LowestOf(Leaving(d, nodeId), IsElse))
    ensures ChooseEdge(Outgoing(d, nodeId), inputs).Some? ==>
      ChooseEdge(Outgoing(d, nodeId), inputs).value.source == nodeId
  {
    var l := Leaving(d, nodeId);
    FirstOfSortedIsLowest(l, MatchesIf(inputs));
    FirstOfSortedIsLowest(l, IsElse);
    LowestLeaves(d, nodeId, MatchesIf(inputs));
    LowestLeaves(d, nodeId, IsElse);
  }

  lemma LowestLeaves(d: WorkflowDefinition, nodeId: string, p: HubEdge -> bool)
    ensures LowestOf(Leaving(d, nodeId), p).Some? ==> LowestOf(Leaving(d, nodeId), p).value.source == nodeId
  {
    var l := Leaving(d, nodeId);
    match LowestIndex(l, p)
    case None =>
    case Some(k) => assert l[k] in l;
  }

  /** What one round of the loop decides at a non-END node: stop, or follow an edge to a node. */
  datatype Step = Stop(reason: StopReason) | Advance(edge: HubEdge, next: HubNode)

  /**
   * One round at `current`: no outgoing edge, no branch taken and a missing
   * target stop the run; otherwise the chosen edge leads to the first node with
   * its target id.
   */
  function NextStep(d: WorkflowDefinition, inputs: EvalInputs, current: HubNode): (r: Step)
    ensures r.Stop? ==> r.reason.NoOutgoing? || r.reason.NoBranch? || r.reason.MissingTarget?
    ensures r.Advance? ==> r.next in d.nodes && r.next.id == r.edge.target
  {
    var outgoing := Outgoing(d, current.id);
    if |outgoing| == 0 then Stop(NoOutgoing(current.name))
    else
      match ChooseEdge(outgoing, inputs)
      case None => Stop(NoBranch(current.name))
      case Some(chosen) =>
        match FindNode(d, chosen.target)
        case None => Stop(MissingTarget)
        case Some(next) => Advance(chosen, next)
  }

  /**
   * How a round decides, case by case: it stops at a dead end exactly when no
   * edge leaves the node; for want of a branch exactly when edges leave but
   * none is chosen; at a missing target exactly when the chosen edge's target
   * names no node; and otherwise it follows the chosen edge to the first node
   * with the target id.
   */
  lemma NextStepDecides(d: WorkflowDefinition, inputs: EvalInputs, current: HubNode)
    ensures var r := NextStep(d, inputs, current);
      && (r == Stop(NoOutgoing(current.name)) <==> |Outgoing(d, current.id)| == 0)
      && (r == Stop(NoBranch(current.name))
          <==> |Outgoing(d, current.id)| > 0 && ChooseEdge(Outgoing(d, current.id), inputs).None?)
      && (r == Stop(MissingTarget)
          <==> |Outgoing(d, current.id)| > 0 && ChooseEdge(Outgoing(d, current.id), inputs).Some?
               && !HasNode(d, ChooseEdge(Outgoing(d, current.id), inputs).value.target))
      && (r.Advance? ==> Some(r.edge) == ChooseEdge(Outgoing(d, current.id), inputs))
      && (r.Advance? ==> Some(r.next) == FindNode(d, r.edge.target))
  {
  }

  /**
   * The run entered the nodes of `trail` in order: each node but the last is a
   * non-END node from which one round steps to the next.
   */
  ghost predicate Follows(nodes: seq<HubNode>, round: HubNode -> Step, trail: seq<HubNode>) {
    && (forall i :: 0 <= i < |trail| ==> trail[i] in nodes)
    && (forall i :: 0 <= i < |trail| - 1 ==>
          trail[i].kind != End && round(trail[i]).Advance? && round(trail[i]).next == trail[i + 1])
  }

  /** One round of a definition on an input record, as a function of the node it starts at. */
  function Round(d: WorkflowDefinition, inputs: EvalInputs): HubNode -> Step {
    (x: HubNode) => NextStep(d, inputs, x)
  }

  /**
   * What any round may decide: stop at a dead end, for want of a branch or at
   * a missing target, or move on to a node of `nodes`.
   */
  ghost predicate RoundsWithin(nodes: seq<HubNode>, round: HubNode -> Step) {
    forall x :: (round(x).Stop? ==> round(x).reason.NoOutgoing? || round(x).reason.NoBranch? || round(x).reason.MissingTarget?)
             && (round(x).Advance? ==> round(x).next in nodes)
  }

  /** The rounds of a definition stay within it. */
  lemma RoundOfDefinition(d: WorkflowDefinition, inputs: EvalInputs)
    ensures RoundsWithin(d.nodes, Round(d, inputs))
  {
  }

  /** The ids of the nodes the loop has left: every trail node but the last. */
  function IdsBefore(trail: seq<HubNode>): set<string> {
    set j | 0 <= j < |trail| - 1 :: trail[j].id
  }

  /** No node id is left twice. */
  predicate DistinctBefore(trail: seq<HubNode>) {
    forall i, j :: 0 <= i < j < |trail| - 1 ==> trail[i].id != trail[j].id
  }

  /** The step into the last node of the trail, if the trail took one. */
  function PathInto(round: HubNode -> Step, trail: seq<HubNode>): Option<PathStep> {
    if |trail| < 2 then None
    else
      var step := round(trail[|trail| - 2]);
      if step.Advance? then Some(PathStep(trail[|trail| - 2].name, trail[|trail| - 1].name, step.edge.labelText))
      else None
  }

  /**
   * How a run that entered the nodes of `r.trail`, taking the rounds `round`,
   * must end. It reaches an END node only by stepping into it; it stops with
   * "completed" at once only when it starts on one; it stops at a dead end, an
   * unmatched branch or a missing target exactly where that round says so;
   * and it detects a loop only on coming back to a node it has left. Only a
   * successful run reports the last step it took.
   */
  ghost predicate EndsAsStepsSay(nodes: seq<HubNode>, round: HubNode -> Step, r: SimResult) {
    && |r.trail| > 0 && Follows(nodes, round, r.trail) && DistinctBefore(r.trail) && !r.reason.NoNodes?
    && var last := r.trail[|r.trail| - 1];
    && (r.reason.ReachedEnd? ==> |r.trail| >= 2 && last.kind == End && r.reason.nodeName == last.name)
    && (r.reason.StartIsEnd? ==> |r.trail| == 1 && last.kind == End)
    && (r.reason.NoOutgoing? || r.reason.NoBranch? || r.reason.MissingTarget? ==>
          && last.kind != End && round(last) == Stop(r.reason)
          && forall j :: 0 <= j < |r.trail| - 1 ==> r.trail[j].id != last.id)
    && (r.reason.LoopDetected? ==>
          last.kind != End && exists j :: 0 <= j < |r.trail| - 1 && r.trail[j].id == last.id)
    && r.chosenPath == (if IsDefect(r.reason) then None else PathInto(round, r.trail))
  }

  /**
   * The description above leaves no freedom: two outcomes that satisfy it from
   * the same start node entered the same nodes, stopped for the same reason
   * and report the same last step.
   */
  lemma EndsAsStepsSayIsUnique(nodes: seq<HubNode>, round: HubNode -> Step, r1: SimResult, r2: SimResult)
    requires EndsAsStepsSay(nodes, round, r1) && EndsAsStepsSay(nodes, round, r2) && r1.trail[0] == r2.trail[0]
    ensures r1.trail == r2.trail && r1.reason == r2.reason && r1.chosenPath == r2.chosenPath
  {
    SameTrail(nodes, round, r1, r2);
    SameReason(nodes, round, r1, r2);
  }

  lemma SameTrail(nodes: seq<HubNode>, round: HubNode -> Step, r1: SimResult, r2: SimResult)
    requires EndsAsStepsSay(nodes, round, r1) && EndsAsStepsSay(nodes, round, r2) && r1.trail[0] == r2.trail[0]
    ensures r1.trail == r2.trail
  {
    var t1, t2 := r1.trail, r2.trail;
    if |t1| <= |t2| {
      SameStart(nodes, round, t1, t2, |t1|);
      GoesNoFurther(nodes, round, r1, t2);
    } else {
      SameStart(nodes, round, t2, t1, |t2|);
      GoesNoFurther(nodes, round, r2, t1);
    }
    assert t1 == t1[..|t1|] && t2 == t2[..|t2|];
  }

  /** On the same trail, the description fixes the reason and the last step. */
  lemma SameReason(nodes: seq<HubNode>, round: HubNode -> Step, r1: SimResult, r2: SimResult)
    requires EndsAsStepsSay(nodes, round, r1) && EndsAsStepsSay(nodes, round, r2) && r1.trail == r2.trail
    ensures r1.reason == r2.reason && r1.chosenPath == r2.chosenPath
  {
    var t := r1.trail;
    var last := t[|t| - 1];
    if last.kind != End && exists j :: 0 <= j < |t| - 1 && t[j].id == last.id {
      assert r1.reason.LoopDetected? && r2.reason.LoopDetected?;
    }
  }

  /** Two trails that follow the rounds from the same node agree for as long as both go. */
  lemma SameStart(nodes: seq<HubNode>, round: HubNode -> Step, t1: seq<HubNode>, t2: seq<HubNode>, n: nat)
    requires Follows(nodes, round, t1) && Follows(nodes, round, t2)
    requires 0 < n <= |t1| && n <= |t2| && t1[0] == t2[0]
    ensures t1[..n] == t2[..n]
  {
    var f := (x: HubNode) => if round(x).Advance? then round(x).next else x;
    SameOrbit(f, t1, t2, n);
  }

  /** An outcome stops where it does: no trail from the same start with no node left twice goes on past it. */
  lemma GoesNoFurther(nodes: seq<HubNode>, round: HubNode -> Step, r: SimResult, t: seq<HubNode>)
    requires EndsAsStepsSay(nodes, round, r) && Follows(nodes, round, t) && DistinctBefore(t)
    requires |r.trail| <= |t| && t[..|r.trail|] == r.trail
    ensures |t| == |r.trail|
  {
    if |r.trail| < |t| {
      assert false;
    }
  }

  /**
   * What the loop keeps at the top of each round: `current` is the last node
   * entered, the trail follows the rounds, `visited` holds the ids of the nodes
   * left, `lastPath` is the step into `current`, and status and assignee are
   * those the executed actions of the trail leave in force.
   */
  ghost predicate LoopState(d: WorkflowDefinition, round: HubNode -> Step, initial: string,
                            current: HubNode, visited: set<string>,
                            executed: seq<WorkflowAction>, finalStatus: string, assignedTo: string,
                            lastPath: Option<PathStep>, trail: seq<HubNode>) {
    && RoundsWithin(d.nodes, round)
    && |trail| > 0 && trail[|trail| - 1] == current
    && Follows(d.nodes, round, trail) && DistinctBefore(trail)
    && visited == IdsBefore(trail) && visited <= NodeIds(d)
    && lastPath == PathInto(round, trail)
    && executed == ActionsOf(trail)
    && finalStatus == LastStatus(executed, initial) && assignedTo == LastAssignee(executed)
  }

  /**
   * The loop of the simulator at `current`, the last node of `trail`, having
   * left the nodes before it (whose ids are `visited`). Each round either stops
   * or moves to a node not yet left, so the walk takes at most as many rounds
   * as the definition has node ids.
   */
  function Walk(d: WorkflowDefinition, round: HubNode -> Step, initial: string,
                current: HubNode, visited: set<string>,
                executed: seq<WorkflowAction>, finalStatus: string, assignedTo: string,
                lastPath: Option<PathStep>, trail: seq<HubNode>): (r: SimResult)
    requires LoopState(d, round, initial, current, visited, executed, finalStatus, assignedTo, lastPath, trail)
    requires |trail| > 1 ==> current.kind != End
    ensures r.ok <==> !IsDefect(r.reason)
    ensures !r.reason.NoNodes?
    ensures r.executed == ActionsOf(r.trail)
    ensures r.finalStatus == LastStatus(r.executed, initial) && r.assignedTo == LastAssignee(r.executed)
    ensures |trail| <= |r.trail| <= |trail| + |NodeIds(d) - visited|
    ensures r.trail[..|trail|] == trail
    ensures EndsAsStepsSay(d.nodes, round, r)
    decreases |NodeIds(d) - visited|, 1
  {
    if current.kind == End || current.id in visited || round(current).Stop? then
      Halt(d, round, initial, current, visited, executed, finalStatus, assignedTo, lastPath, trail)
    else
      var step := round(current);
      Enter(d, round, initial, current, visited, executed, finalStatus, assignedTo, lastPath, trail, step.edge, step.next)
  }

  /**
   * A round that stops at `current`: the run started on an END node, came back
   * to a node it had left, or found no edge to take or no node at its target.
   * Nothing more is entered, and only a successful run keeps the last step.
   */
  function Halt(d: WorkflowDefinition, round: HubNode -> Step, initial: string,
                current: HubNode, visited: set<string>,
                executed: seq<WorkflowAction>, finalStatus: string, assignedTo: string,
                lastPath: Option<PathStep>, trail: seq<HubNode>): (r: SimResult)
    requires LoopState(d, round, initial, current, visited, executed, finalStatus, assignedTo, lastPath, trail)
    requires |trail| > 1 ==> current.kind != End
    requires current.kind == End || current.id in visited || round(current).Stop?
    ensures r.ok <==> !IsDefect(r.reason)
    ensures !r.reason.NoNodes? && !r.reason.ReachedEnd?
    ensures r.trail == trail && r.executed == executed && r.finalStatus == finalStatus && r.assignedTo == assignedTo
    ensures EndsAsStepsSay(d.nodes, round, r)
  {
    if current.kind == End then
      var r := SimResult(true, StartIsEnd, executed, finalStatus, assignedTo, lastPath, trail);
      EndsAtStart(d.nodes, round, r);
      r
    else if current.id in visited then
      var r := SimResult(false, LoopDetected, executed, finalStatus, assignedTo, None, trail);
      EndsOnLoop(d.nodes, round, r);
      r
    else
      var reason := round(current).reason;
      var path := if IsDefect(reason) then None else lastPath;
      var r := SimResult(!IsDefect(reason), reason, executed, finalStatus, assignedTo, path, trail);
      EndsOnStop(d.nodes, round, r);
      r
  }

  /**
   * The second half of a round: apply the actions of `next`, reached from
   * `current` over `chosen`, then stop if it is an END node or carry on from it.
   * `lastPath`, the step into `current`, is what the loop state holds.
   */
  function Enter(d: WorkflowDefinition, round: HubNode -> Step, initial: string,
                 current: HubNode, visited: set<string>,
                 executed: seq<WorkflowAction>, finalStatus: string, assignedTo: string,
                 lastPath: Option<PathStep>, trail: seq<HubNode>, chosen: HubEdge, next: HubNode): (r: SimResult)
    requires LoopState(d, round, initial, current, visited, executed, finalStatus, assignedTo, lastPath, trail)
    requires current.kind != End && current.id !in visited
    requires round(current) == Advance(chosen, next)
    ensures r.ok <==> !IsDefect(r.reason)
    ensures !r.reason.NoNodes? && !r.reason.StartIsEnd?
    ensures r.executed == ActionsOf(r.trail)
    ensures r.finalStatus == LastStatus(r.executed, initial) && r.assignedTo == LastAssignee(r.executed)
    ensures |trail| < |r.trail| <= |trail| + |NodeIds(d) - visited|
    ensures r.trail[..|trail|] == trail
    ensures EndsAsStepsSay(d.nodes, round, r)
    decreases |NodeIds(d) - visited|, 0
  {
    var after := ApplyActions(next.actions, finalStatus, assignedTo);
    var executed' := executed + next.actions;
    var trail' := trail + [next];
    var path := PathStep(current.name, next.name, chosen.labelText);
    AdvanceInvariant(trail, next, initial);
    VisitShrinks(d, visited, current);
    StepInvariant(d.nodes, round, trail, current, chosen, next);
    if next.kind == End then
      var r := SimResult(true, ReachedEnd(next.name), executed', after.0, after.1, Some(path), trail');
      EndsOnEntering(d.nodes, round, r);
      r
    else
      var r := Walk(d, round, initial, next, visited + {current.id}, executed', after.0, after.1, Some(path), trail');
      PrefixOfPrefix(r.trail, trail, trail');
      r
  }

  lemma EndsAtStart(nodes: seq<HubNode>, round: HubNode -> Step, r: SimResult)
    requires |r.trail| == 1 && Follows(nodes, round, r.trail)
    requires r.trail[0].kind == End && r.reason == StartIsEnd && r.chosenPath == PathInto(round, r.trail)
    ensures EndsAsStepsSay(nodes, round, r)
  {
  }

  lemma EndsOnLoop(nodes: seq<HubNode>, round: HubNode -> Step, r: SimResult)
    requires |r.trail| > 0 && Follows(nodes, round, r.trail) && DistinctBefore(r.trail)
    requires r.trail[|r.trail| - 1].kind != End && r.trail[|r.trail| - 1].id in IdsBefore(r.trail)
    requires r.reason == LoopDetected && r.chosenPath == None
    ensures EndsAsStepsSay(nodes, round, r)
  {
  }

  lemma EndsOnStop(nodes: seq<HubNode>, round: HubNode -> Step, r: SimResult)
    requires |r.trail| > 0 && Follows(nodes, round, r.trail) && DistinctBefore(r.trail)
    requires r.trail[|r.trail| - 1].kind != End && r.trail[|r.trail| - 1].id !in IdsBefore(r.trail)
    requires round(r.trail[|r.trail| - 1]) == Stop(r.reason)
    requires r.reason.NoOutgoing? || r.reason.NoBranch? || r.reason.MissingTarget?
    requires r.chosenPath == (if IsDefect(r.reason) then None else PathInto(round, r.trail))
    ensures EndsAsStepsSay(nodes, round, r)
  {
    var last := r.trail[|r.trail| - 1];
    forall j | 0 <= j < |r.trail| - 1 ensures r.trail[j].id != last.id {
      assert r.trail[j].id in IdsBefore(r.trail);
    }
  }

  lemma EndsOnEntering(nodes: seq<HubNode>, round: HubNode -> Step, r: SimResult)
    requires |r.trail| >= 2 && Follows(nodes, round, r.trail) && DistinctBefore(r.trail)
    requires r.trail[|r.trail| - 1].kind == End && r.reason == ReachedEnd(r.trail[|r.trail| - 1].name)
    requires r.chosenPath == PathInto(round, r.trail)
    ensures EndsAsStepsSay(nodes, round, r)
  {
  }

  /** One round's step keeps the trail following the rounds, with no node left twice. */
  lemma StepInvariant(nodes: seq<HubNode>, round: HubNode -> Step, trail: seq<HubNode>, current: HubNode,
                      chosen: HubEdge, next: HubNode)
    requires |trail| > 0 && trail[|trail| - 1] == current && current.kind != End
    requires round(current) == Advance(chosen, next) && next in nodes
    requires Follows(nodes, round, trail) && DistinctBefore(trail) && current.id !in IdsBefore(trail)
    ensures Follows(nodes, round, trail + [next]) && DistinctBefore(trail + [next])
    ensures IdsBefore(trail + [next]) == IdsBefore(trail) + {current.id}
    ensures PathInto(round, trail + [next]) == Some(PathStep(current.name, next.name, chosen.labelText))
  {
    FollowsExtend(nodes, round, trail, next);
    DistinctExtend(trail, next);
    IdsBeforeExtend(trail, next);
    var t := trail + [next];
    assert t[|t| - 2] == current && t[|t| - 1] == next;
  }

  lemma FollowsExtend(nodes: seq<HubNode>, round: HubNode -> Step, trail: seq<HubNode>, next: HubNode)
    requires |trail| > 0 && Follows(nodes, round, trail) && trail[|trail| - 1].kind != End && next in nodes
    requires round(trail[|trail| - 1]).Advance? && round(trail[|trail| - 1]).next == next
    ensures Follows(nodes, round, trail + [next])
  {
    var t := trail + [next];
    forall i | 0 <= i < |t| ensures t[i] in nodes {
      if i < |trail| {
        assert t[i] == trail[i];
      }
    }
    forall i | 0 <= i < |t| - 1
      ensures t[i].kind != End && round(t[i]).Advance? && round(t[i]).next == t[i + 1]
    {
      assert t[i] == trail[i];
      if i < |trail| - 1 {
        assert t[i + 1] == trail[i + 1];
      }
    }
  }

  lemma DistinctExtend(trail: seq<HubNode>, next: HubNode)
    requires |trail| > 0 && DistinctBefore(trail) && trail[|trail| - 1].id !in IdsBefore(trail)
    ensures DistinctBefore(trail + [next])
  {
    var t := trail + [next];
    var n := |trail|;
    forall i, j | 0 <= i < j < |t| - 1 ensures t[i].id != t[j].id {
      assert t[i] == trail[i] && t[j] == trail[j];
      if j == n - 1 {
        assert trail[i].id in IdsBefore(trail);
      }
    }
  }

  lemma IdsBeforeExtend(trail: seq<HubNode>, next: HubNode)
    requires |trail| > 0
    ensures IdsBefore(trail + [next]) == IdsBefore(trail) + {trail[|trail| - 1].id}
  {
    var t := trail + [next];
    var n := |trail|;
    forall x | x in IdsBefore(trail) ensures x in IdsBefore(t) {
      var j :| 0 <= j < n - 1 && trail[j].id == x;
      assert t[j] == trail[j];
    }
    assert t[n - 1] == trail[n - 1];
    forall x | x in IdsBefore(t) ensures x in IdsBefore(trail) + {trail[n - 1].id} {
      var j :| 0 <= j < n && t[j].id == x;
      assert t[j] == trail[j];
    }
  }

  /** Entering a node extends the trail and keeps status and assignee those of the last actions. */
  lemma AdvanceInvariant(trail: seq<HubNode>, next: HubNode, initial: string)
    ensures ActionsOf(trail + [next]) == ActionsOf(trail) + next.actions
    ensures ApplyActions(next.actions, LastStatus(ActionsOf(trail), initial), LastAssignee(ActionsOf(trail)))
         == (LastStatus(ActionsOf(trail) + next.actions, initial), LastAssignee(ActionsOf(trail) + next.actions))
  {
    var t' := trail + [next];
    assert t'[..|t'| - 1] == trail;
    ApplyActionsIsLast(ActionsOf(trail), next.actions, initial);
  }

  lemma VisitShrinks(d: WorkflowDefinition, visited: set<string>, current: HubNode)
    requires current in d.nodes && current.id !in visited
    ensures |NodeIds(d) - (visited + {current.id})| == |NodeIds(d) - visited| - 1
  {
    var k :| 0 <= k < |d.nodes| && d.nodes[k] == current;
    assert current.id in NodeIds(d) - visited;
    assert NodeIds(d) - (visited + {current.id}) == (NodeIds(d) - visited) - {current.id};
  }

  lemma PrefixOfPrefix<T>(s: seq<T>, a: seq<T>, b: seq<T>)
    requires |a| <= |b| <= |s| && s[..|b|] == b && b[..|a|] == a
    ensures s[..|a|] == a
  {
    assert s[..|a|] == s[..|b|][..|a|];
  }

  /** Where a run begins: the first TRIGGER node, or else the first node. */
  function StartNode(d: WorkflowDefinition): (r: Option<HubNode>)
    ensures r.None? <==> |d.nodes| == 0
    ensures r.Some? ==> r.value in d.nodes
    ensures r.Some? && HasKind(d, Trigger) ==>
      r.value.kind == Trigger
      && exists k :: 0 <= k < |d.nodes| && d.nodes[k] == r.value && forall j :: 0 <= j < k ==> d.nodes[j].kind != Trigger
    ensures r.Some? && !HasKind(d, Trigger) ==> r.value == d.nodes[0]
  {
    var trigger := Find(d.nodes, (n: HubNode) => n.kind == Trigger);
    if trigger.Some? then trigger
    else if |d.nodes| > 0 then Some(d.nodes[0])
    else None
  }

  /**
   * Runs a definition against an input record: it fails only for an empty
   * definition, a loop or a missing target; its final status and assignee are
   * those of the last SET_STATUS and ASSIGN_USER among the executed actions,
   * which are the actions of the entered nodes in order; and it enters at most
   * one node more than the definition has node ids.
   */
  function Simulate(d: WorkflowDefinition, inputs: EvalInputs): (r: SimResult)
    ensures r.ok <==> !IsDefect(r.reason)
    ensures r.reason == NoNodes <==> |d.nodes| == 0
    ensures |d.nodes| > 0 ==> r.executed == ActionsOf(r.trail)
    ensures |d.nodes| > 0 ==> r.finalStatus == LastStatus(r.executed, inputs.status)
    ensures |d.nodes| > 0 ==> r.assignedTo == LastAssignee(r.executed)
    ensures |d.nodes| > 0 ==> 1 <= |r.trail| <= |NodeIds(d)| + 1 && Some(r.trail[0]) == StartNode(d)
    ensures |d.nodes| > 0 ==> EndsAsStepsSay(d.nodes, Round(d, inputs), r)
    ensures r.reason == StartIsEnd <==> |d.nodes| > 0 && r.trail == [StartNode(d).value] && StartNode(d).value.kind == End
  {
    match StartNode(d)
    case None => SimResult(false, NoNodes, [], "", "", None, [])
    case Some(start) =>
      RoundOfDefinition(d, inputs);
      Run(d, Round(d, inputs), inputs.status, start)
  }

  /** The loop from `start`, once its own actions are applied to the initial status. */
  function Run(d: WorkflowDefinition, round: HubNode -> Step, initial: string, start: HubNode): (r: SimResult)
    requires RoundsWithin(d.nodes, round) && start in d.nodes
    ensures r.ok <==> !IsDefect(r.reason)
    ensures !r.reason.NoNodes?
    ensures r.executed == ActionsOf(r.trail)
    ensures r.finalStatus == LastStatus(r.executed, initial) && r.assignedTo == LastAssignee(r.executed)
    ensures 1 <= |r.trail| <= |NodeIds(d)| + 1 && r.trail[0] == start
    ensures EndsAsStepsSay(d.nodes, round, r)
  {
    var (status, assignee) := ApplyActions(start.actions, initial, "");
    StartState(d, round, initial, start);
    var r := Walk(d, round, initial, start, {}, start.actions, status, assignee, None, [start]);
    assert r.trail[..1] == [start];
    r
  }

  /** The loop's state before the first round: only the start node has been entered. */
  lemma StartState(d: WorkflowDefinition, round: HubNode -> Step, initial: string, start: HubNode)
    requires RoundsWithin(d.nodes, round) && start in d.nodes
    ensures var (status, assignee) := ApplyActions(start.actions, initial, "");
      LoopState(d, round, initial, start, {}, start.actions, status, assignee, None, [start])
  {
    ApplyActionsIsLast([], start.actions, initial);
    assert [] + start.actions == start.actions;
    assert ActionsOf([start]) == start.actions by {
      assert [start][..0] == [];
    }
    assert IdsBefore([start]) == {};
  }

  /** One round of the loop that moves on to a non-END node. */
  lemma WalkAdvances(d: WorkflowDefinition, round: HubNode -> Step, initial: string,
                     current: HubNode, visited: set<string>,
                     executed: seq<WorkflowAction>, finalStatus: string, assignedTo: string,
                     lastPath: Option<PathStep>, trail: seq<HubNode>, e: HubEdge, next: HubNode)
    requires LoopState(d, round, initial, current, visited, executed, finalStatus, assignedTo, lastPath, trail)
    requires current.kind != End && current.id !in visited && next.kind != End
    requires round(current) == Advance(e, next)
    ensures LoopState(d, round, initial, next, visited + {current.id}, executed + next.actions,
                      LastStatus(executed + next.actions, initial), LastAssignee(executed + next.actions),
                      Some(PathStep(current.name, next.name, e.labelText)), trail + [next])
    ensures Walk(d, round, initial, current, visited, executed, finalStatus, assignedTo, lastPath, trail)
      == Walk(d, round, initial, next, visited + {current.id}, executed + next.actions,
              LastStatus(executed + next.actions, initial), LastAssignee(executed + next.actions),
              Some(PathStep(current.name, next.name, e.labelText)), trail + [next])
  {
    AdvanceInvariant(trail, next, initial);
    StepInvariant(d.nodes, round, trail, current, e, next);
  }

  /** One round of the loop that enters an END node. */
  lemma WalkEnds(d: WorkflowDefinition, round: HubNode -> Step, initial: string,
                 current: HubNode, visited: set<string>,
                 executed: seq<WorkflowAction>, finalStatus: string, assignedTo: string,
                 lastPath: Option<PathStep>, trail: seq<HubNode>, e: HubEdge, next: HubNode)
    requires LoopState(d, round, initial, current, visited, executed, finalStatus, assignedTo, lastPath, trail)
    requires current.kind != End && current.id !in visited && next.kind == End
    requires round(current) == Advance(e, next)
    ensures var r := Walk(d, round, initial, current, visited, executed, finalStatus, assignedTo, lastPath, trail);
      && r.ok && r.reason == ReachedEnd(next.name) && r.executed == executed + next.actions
      && r.finalStatus == LastStatus(executed + next.actions, initial)
      && r.chosenPath == Some(PathStep(current.name, next.name, e.labelText))
  {
    AdvanceInvariant(trail, next, initial);
  }

  /** From the trigger of the default definition the run follows the "Next" edge to the action node. */
  lemma DefaultFirstStep(trig: string, act1: string, end: string, actionId: string,
                         edge1: string, edge2: string, inputs: EvalInputs)
    requires trig != act1 && act1 != end && trig != end
    ensures var d := MakeDefaultDefinition(trig, act1, end, actionId, edge1, edge2);
      NextStep(d, inputs, d.nodes[0]) == Advance(d.edges[0], d.nodes[1])
  {
    var d := MakeDefaultDefinition(trig, act1, end, actionId, edge1, edge2);
    LeavingOneOfTwo(d, trig, 0);
    SingleLeaving(d, trig, d.edges[0]);
    FindSecond(d.nodes, act1);
  }

  /** From the action node of the default definition the run follows "Complete" to the END node. */
  lemma DefaultSecondStep(trig: string, act1: string, end: string, actionId: string,
                          edge1: string, edge2: string, inputs: EvalInputs)
    requires trig != act1 && act1 != end && trig != end
    ensures var d := MakeDefaultDefinition(trig, act1, end, actionId, edge1, edge2);
      NextStep(d, inputs, d.nodes[1]) == Advance(d.edges[1], d.nodes[2])
  {
    var d := MakeDefaultDefinition(trig, act1, end, actionId, edge1, edge2);
    LeavingOneOfTwo(d, act1, 1);
    SingleLeaving(d, act1, d.edges[1]);
    FindThird(d.nodes, end);
  }

  /** A node whose only leaving edge is an ELSE edge always takes that edge, whatever the inputs. */
  lemma SingleLeaving(d: WorkflowDefinition, id: string, e: HubEdge)
    requires Leaving(d, id) == [e] && IsElse(e)
    ensures forall inputs :: ChooseEdge(Outgoing(d, id), inputs) == Some(e)
  {
    assert SortBy([e], PriorityLe) == [e];
    forall inputs ensures ChooseEdge(Outgoing(d, id), inputs) == Some(e) {
      assert Find([e], MatchesIf(inputs)) == None;
    }
  }

  /** In a two-edge definition in which only edge `k` leaves `id`, that edge is all that leaves. */
  lemma LeavingOneOfTwo(d: WorkflowDefinition, id: string, k: nat)
    requires |d.edges| == 2 && k < 2 && d.edges[k].source == id && d.edges[1 - k].source != id
    ensures Leaving(d, id) == [d.edges[k]]
  {
    var p := (e: HubEdge) => e.source == id;
    assert d.edges[1..] == [d.edges[1]];
    assert d.edges[1..][1..] == [];
    assert Filter(d.edges[1..], p) == (if k == 1 then [d.edges[1]] else []);
  }

  lemma FindSecond(nodes: seq<HubNode>, id: string)
    requires |nodes| == 3 && nodes[0].id != id && nodes[1].id == id
    ensures Find(nodes, (n: HubNode) => n.id == id) == Some(nodes[1])
  {
    assert nodes[1..][0] == nodes[1];
  }

  lemma FindThird(nodes: seq<HubNode>, id: string)
    requires |nodes| == 3 && nodes[0].id != id && nodes[1].id != id && nodes[2].id == id
    ensures Find(nodes, (n: HubNode) => n.id == id) == Some(nodes[2])
  {
    assert nodes[1..][1..][0] == nodes[2];
  }

  /**
   * A new workflow's default definition, run on any input, enters the action
   * node, sets "Pending Benefits" and completes at its END node.
   */
  lemma DefaultDefinitionCompletes(trig: string, act1: string, end: string, actionId: string,
                                   edge1: string, edge2: string, inputs: EvalInputs)
    requires trig != act1 && act1 != end && trig != end
    ensures var r := Simulate(MakeDefaultDefinition(trig, act1, end, actionId, edge1, edge2), inputs);
      && r.ok && r.reason == ReachedEnd(DefaultEndName)
      && r.executed == [SetStatus(actionId, PendingBenefits)]
      && r.finalStatus == PendingBenefits
      && r.chosenPath == Some(PathStep(DefaultActionName, DefaultEndName, CompleteLabel))
  {
    var d := MakeDefaultDefinition(trig, act1, end, actionId, edge1, edge2);
    DefaultShape(trig, act1, end, actionId, edge1, edge2);
    DefaultRounds(trig, act1, end, actionId, edge1, edge2, inputs);
    RoundOfDefinition(d, inputs);
    RunOfTwoRounds(d, Round(d, inputs), inputs.status, d.nodes[0], d.nodes[1], d.nodes[2], d.edges[0], d.edges[1]);
  }

  /** The two rounds of the default definition. */
  lemma DefaultRounds(trig: string, act1: string, end: string, actionId: string,
                      edge1: string, edge2: string, inputs: EvalInputs)
    requires trig != act1 && act1 != end && trig != end
    ensures var d := MakeDefaultDefinition(trig, act1, end, actionId, edge1, edge2);
      && NextStep(d, inputs, d.nodes[0]) == Advance(d.edges[0], d.nodes[1])
      && NextStep(d, inputs, d.nodes[1]) == Advance(d.edges[1], d.nodes[2])
  {
    DefaultFirstStep(trig, act1, end, actionId, edge1, edge2, inputs);
    DefaultSecondStep(trig, act1, end, actionId, edge1, edge2, inputs);
  }

  /** The default definition starts at its trigger and carries one SET_STATUS, on the action node. */
  lemma DefaultShape(trig: string, act1: string, end: string, actionId: string, edge1: string, edge2: string)
    requires trig != act1 && act1 != end && trig != end
    ensures var d := MakeDefaultDefinition(trig, act1, end, actionId, edge1, edge2);
      && StartNode(d) == Some(d.nodes[0]) && d.nodes[0].id != d.nodes[1].id
      && d.nodes[0].kind != End && d.nodes[1].kind != End && d.nodes[2].kind == End
      && d.nodes[0].actions + d.nodes[1].actions + d.nodes[2].actions == [SetStatus(actionId, PendingBenefits)]
  {
    var d := MakeDefaultDefinition(trig, act1, end, actionId, edge1, edge2);
    assert StartNode(d) == Some(d.nodes[0]);
  }

  /**
   * A run that leaves its start node and a second node and then enters an END
   * node completes there, having executed the three nodes' actions.
   */
  lemma RunOfTwoRounds(d: WorkflowDefinition, round: HubNode -> Step, initial: string,
                       n0: HubNode, n1: HubNode, n2: HubNode, e0: HubEdge, e1: HubEdge)
    requires RoundsWithin(d.nodes, round) && n0 in d.nodes && n0.id != n1.id
    requires n0.kind != End && n1.kind != End && n2.kind == End
    requires round(n0) == Advance(e0, n1) && round(n1) == Advance(e1, n2)
    ensures var r := Run(d, round, initial, n0);
      && r.ok && r.reason == ReachedEnd(n2.name)
      && r.executed == n0.actions + n1.actions + n2.actions
      && r.finalStatus == LastStatus(r.executed, initial)
      && r.chosenPath == Some(PathStep(n1.name, n2.name, e1.labelText))
  {
    var (s0, a0) := ApplyActions(n0.actions, initial, "");
    StartState(d, round, initial, n0);
    WalkAdvances(d, round, initial, n0, {}, n0.actions, s0, a0, None, [n0], e0, n1);
    var executed := n0.actions + n1.actions;
    WalkEnds(d, round, initial, n1, {n0.id}, executed, LastStatus(executed, initial), LastAssignee(executed),
             Some(PathStep(n0.name, n1.name, e0.labelText)), [n0] + [n1], e1, n2);
  }
}

=== FILE: workflow_graph.dfy ===
/**
 * The workflow graph: nodes carrying actions, edges carrying priorities and
 * optional condition groups, the structural check a draft must pass before it
 * is published, and the editing operations on a draft.
 */
module WorkflowGraph {
  import opened Options
  import opened Conditions
  import opened Lists
  import Strings

  datatype NodeKind = Trigger | ActionStep | Decision | End

  datatype AssignMode = Role | User

  datatype EmailTarget = ToClinic | ToAgent | ToQa

  datatype WorkflowAction =
    | SetStatus(id: string, statusToSet: string)
    | AutofillFields(id: string, fields: seq<(string, string)>)
    | AssignUser(id: string, mode: AssignMode, value: string)
    | SendEmail(id: string, templateId: string, to: EmailTarget)

  datatype HubNode = HubNode(id: string, kind: NodeKind, name: string, actions: seq<WorkflowAction>)

  /** Lower `priority` is tried first; no condition group (or an empty one) marks an ELSE edge. */
  datatype HubEdge = HubEdge(
    id: string,
    source: string,
    target: string,
    priority: int,
    labelText: string,
    conditionGroup: Option<ConditionGroup>)

  datatype WorkflowDefinition = WorkflowDefinition(nodes: seq<HubNode>, edges: seq<HubEdge>)

  /** An edge the executor falls back to when no IF edge matches. */
  predicate IsElse(e: HubEdge) {
    !HasConditions(e.conditionGroup)
  }

  function ModeName(m: AssignMode): string {
    match m
    case Role => "ROLE"
    case User => "USER"
  }

  function TargetName(t: EmailTarget): string {
    match t
    case ToClinic => "clinic"
    case ToAgent => "agent"
    case ToQa => "qa"
  }

  function ActionTypeName(a: WorkflowAction): string {
    match a
    case SetStatus(_, _) => "SET_STATUS"
    case AutofillFields(_, _) => "AUTOFILL_FIELDS"
    case AssignUser(_, _, _) => "ASSIGN_USER"
    case SendEmail(_, _, _) => "SEND_EMAIL"
  }

  /** The `assignedTo` text an ASSIGN_USER action writes: `mode:value`. */
  function Assignee(mode: AssignMode, value: string): string {
    ModeName(mode) + ":" + value
  }

  /** The one-line description of an action kept in the audit log. */
  function SummarizeAction(a: WorkflowAction): string {
    match a
    case SetStatus(_, s) => "Set Status \U{2192} " + s
    case AutofillFields(_, fs) => "Autofill " + Strings.NatToString(|fs|) + " field(s)"
    case AssignUser(_, m, v) => "Assign \U{2192} " + Assignee(m, v)
    case SendEmail(_, t, to) => "Email \U{2192} " + TargetName(to) + " (template: " + t + ")"
  }

  predicate HasKind(d: WorkflowDefinition, k: NodeKind) {
    exists i :: 0 <= i < |d.nodes| && d.nodes[i].kind == k
  }

  predicate HasNode(d: WorkflowDefinition, id: string) {
    exists i :: 0 <= i < |d.nodes| && d.nodes[i].id == id
  }

  predicate EdgeResolved(d: WorkflowDefinition, e: HubEdge) {
    HasNode(d, e.source) && HasNode(d, e.target)
  }

  /** Every edge leaves and enters a node of the definition. */
  predicate EdgesResolved(d: WorkflowDefinition) {
    forall i :: 0 <= i < |d.edges| ==> EdgeResolved(d, d.edges[i])
  }

  datatype ValidationError = MissingTrigger | MissingEnd | DanglingEdge

  function ValidationMessage(e: ValidationError): string {
    match e
    case MissingTrigger => "Workflow must have a TRIGGER node."
    case MissingEnd => "Workflow must have an END node."
    case DanglingEdge => "A branch references a missing node."
  }

  /** Whether some edge in `edges` leaves or enters a node `d` lacks (the loop over `d.edges`). */
  function AnyDangling(d: WorkflowDefinition, edges: seq<HubEdge>): (r: bool)
    ensures r <==> exists i :: 0 <= i < |edges| && !EdgeResolved(d, edges[i])
  {
    if |edges| == 0 then false
    else !EdgeResolved(d, edges[0]) || AnyDangling(d, edges[1..])
  }

  /**
   * The publish check: no error exactly when there is a TRIGGER, an END and no
   * dangling edge; otherwise the first failing check, in that order.
   */
  function ValidateForPublish(d: WorkflowDefinition): (r: Option<ValidationError>)
    ensures r.None? <==> HasKind(d, Trigger) && HasKind(d, End) && EdgesResolved(d)
    ensures r == Some(MissingTrigger) <==> !HasKind(d, Trigger)
    ensures r == Some(MissingEnd) <==> HasKind(d, Trigger) && !HasKind(d, End)
    ensures r == Some(DanglingEdge) <==> HasKind(d, Trigger) && HasKind(d, End) && !EdgesResolved(d)
  {
    if !HasKind(d, Trigger) then Some(MissingTrigger)
    else if !HasKind(d, End) then Some(MissingEnd)
    else if AnyDangling(d, d.edges) then Some(DanglingEdge)
    else None
  }

  /**
   * The checks `publishNewVersion` repeats inline, with its own messages: the
   * TRIGGER and END checks share one message.
   */
  function PublishBlock(d: WorkflowDefinition): Option<string> {
    if !HasKind(d, Trigger) || !HasKind(d, End) then
      Some("Publish blocked: Workflow must have a TRIGGER node and an END node.")
    else if AnyDangling(d, d.edges) then
      Some("Publish blocked: A branch references a missing node.")
    else None
  }

  /** The inline publish checks block exactly the drafts the builder's validator rejects. */
  lemma PublishBlockAgrees(d: WorkflowDefinition)
    ensures PublishBlock(d).None? <==> ValidateForPublish(d).None?
  {
  }

  /** Deleting a node: the node goes, and so does every edge entering or leaving it. */
  function RemoveNode(d: WorkflowDefinition, nodeId: string): (r: WorkflowDefinition)
    ensures forall i :: 0 <= i < |r.nodes| ==> r.nodes[i].id != nodeId && r.nodes[i] in d.nodes
    ensures forall i :: 0 <= i < |d.nodes| && d.nodes[i].id != nodeId ==> d.nodes[i] in r.nodes
    ensures forall i :: 0 <= i < |r.edges| ==>
      r.edges[i].source != nodeId && r.edges[i].target != nodeId && r.edges[i] in d.edges
    ensures forall i :: 0 <= i < |d.edges| && d.edges[i].source != nodeId && d.edges[i].target != nodeId ==>
      d.edges[i] in r.edges
    ensures exists idx :: (PicksAt(r.nodes, d.nodes, idx)
      && forall k :: 0 <= k < |d.nodes| ==> (k in idx <==> d.nodes[k].id != nodeId))
    ensures exists idx :: (PicksAt(r.edges, d.edges, idx)
      && forall k :: 0 <= k < |d.edges| ==> (k in idx <==> d.edges[k].source != nodeId && d.edges[k].target != nodeId))
  {
    var keepNode := (n: HubNode) => n.id != nodeId;
    var keepEdge := (e: HubEdge) => e.source != nodeId && e.target != nodeId;
    FilterKeepsOrder(d.nodes, keepNode);
    FilterKeepsOrder(d.edges, keepEdge);
    WorkflowDefinition(Filter(d.nodes, keepNode), Filter(d.edges, keepEdge))
  }

  /** Deleting an edge: exactly the edges with that id go; nodes stay. */
  function RemoveEdge(d: WorkflowDefinition, edgeId: string): (r: WorkflowDefinition)
    ensures r.nodes == d.nodes
    ensures forall i :: 0 <= i < |r.edges| ==> r.edges[i].id != edgeId && r.edges[i] in d.edges
    ensures forall i :: 0 <= i < |d.edges| && d.edges[i].id != edgeId ==> d.edges[i] in r.edges
    ensures exists idx :: (PicksAt(r.edges, d.edges, idx)
      && forall k :: 0 <= k < |d.edges| ==> (k in idx <==> d.edges[k].id != edgeId))
  {
    var keep := (e: HubEdge) => e.id != edgeId;
    FilterKeepsOrder(d.edges, keep);
    d.(edges := Filter(d.edges, keep))
  }

  /** A node that survives a deletion is still there; the deleted one is not. */
  lemma RemoveNodeHasNode(d: WorkflowDefinition, nodeId: string, x: string)
    ensures HasNode(RemoveNode(d, nodeId), x) <==> HasNode(d, x) && x != nodeId
  {
    var r := RemoveNode(d, nodeId);
    if HasNode(d, x) && x != nodeId {
      var i :| 0 <= i < |d.nodes| && d.nodes[i].id == x;
      assert d.nodes[i] in r.nodes;
    }
  }

  /** Deleting a node never leaves an edge dangling that was resolved before. */
  lemma RemoveNodeKeepsEdgesResolved(d: WorkflowDefinition, nodeId: string)
    requires EdgesResolved(d)
    ensures EdgesResolved(RemoveNode(d, nodeId))
  {
    var r := RemoveNode(d, nodeId);
    forall i | 0 <= i < |r.edges| ensures EdgeResolved(r, r.edges[i]) {
      var e := r.edges[i];
      assert EdgeResolved(d, e);
      RemoveNodeHasNode(d, nodeId, e.source);
      RemoveNodeHasNode(d, nodeId, e.target);
    }
  }

  /** Deleting an edge never leaves another edge dangling. */
  lemma RemoveEdgeKeepsEdgesResolved(d: WorkflowDefinition, edgeId: string)
    requires EdgesResolved(d)
    ensures EdgesResolved(RemoveEdge(d, edgeId))
  {
    var r := RemoveEdge(d, edgeId);
    forall i | 0 <= i < |r.edges| ensures EdgeResolved(r, r.edges[i]) {
      assert EdgeResolved(d, r.edges[i]);
    }
  }

  /** The edge as "Set as IF" leaves it: `freshGroupId` names the empty group it may receive. */
  function AsIf(e: HubEdge, freshGroupId: string): HubEdge {
    e.(labelText := if Strings.StartsWith(e.labelText, "ELSE") then "IF" else if e.labelText == "" then "IF" else e.labelText,
       priority := if e.priority > 1 then e.priority else 1,
       conditionGroup := if HasConditions(e.conditionGroup) then e.conditionGroup
                         else Some(ConditionGroup(freshGroupId, And, [])))
  }

  /**
   * "Set as IF" on the edges with id `edgeId`: each gets a nonempty label not
   * starting with "ELSE", a priority of at least 1 and a condition group (its
   * own when it had conditions); every other edge, and every node, is unchanged.
   */
  function SetEdgeAsIf(d: WorkflowDefinition, edgeId: string, freshGroupId: string): (r: WorkflowDefinition)
    ensures r.nodes == d.nodes && |r.edges| == |d.edges|
    ensures forall i :: 0 <= i < |d.edges| && d.edges[i].id != edgeId ==> r.edges[i] == d.edges[i]
    ensures forall i :: 0 <= i < |d.edges| && d.edges[i].id == edgeId ==>
      && r.edges[i].(labelText := d.edges[i].labelText, priority := d.edges[i].priority,
                     conditionGroup := d.edges[i].conditionGroup) == d.edges[i]
      && r.edges[i].labelText != "" && !Strings.StartsWith(r.edges[i].labelText, "ELSE")
      && r.edges[i].priority >= 1 && r.edges[i].priority >= d.edges[i].priority
      && r.edges[i].conditionGroup.Some?
      && (HasConditions(d.edges[i].conditionGroup) ==> r.edges[i].conditionGroup == d.edges[i].conditionGroup)
    ensures forall i :: 0 <= i < |d.edges| && d.edges[i].id == edgeId ==>
      && r.edges[i].labelText
         == (if d.edges[i].labelText == "" || Strings.StartsWith(d.edges[i].labelText, "ELSE") then "IF"
             else d.edges[i].labelText)
      && r.edges[i].priority == (if d.edges[i].priority > 1 then d.edges[i].priority else 1)
      && (!HasConditions(d.edges[i].conditionGroup) ==>
            r.edges[i].conditionGroup == Some(ConditionGroup(freshGroupId, And, [])))
  {
    d.(edges := seq(|d.edges|, i requires 0 <= i < |d.edges| =>
      if d.edges[i].id == edgeId then AsIf(d.edges[i], freshGroupId) else d.edges[i]))
  }

  /**
   * "Set as IF" on an edge without conditions gives it an empty group, which the
   * executor still treats as ELSE until a condition is added.
   */
  lemma SetEdgeAsIfOnElseStaysElse(d: WorkflowDefinition, edgeId: string, freshGroupId: string, i: nat)
    requires i < |d.edges| && IsElse(d.edges[i])
    ensures IsElse(SetEdgeAsIf(d, edgeId, freshGroupId).edges[i])
  {
  }

  /**
   * "Set as ELSE" on the edges with id `edgeId`: each becomes an ELSE edge labelled
   * "ELSE" with priority 999; every other edge, and every node, is unchanged.
   */
  function SetEdgeAsElse(d: WorkflowDefinition, edgeId: string): (r: WorkflowDefinition)
    ensures r.nodes == d.nodes && |r.edges| == |d.edges|
    ensures forall i :: 0 <= i < |d.edges| && d.edges[i].id != edgeId ==> r.edges[i] == d.edges[i]
    ensures forall i :: 0 <= i < |d.edges| && d.edges[i].id == edgeId ==>
      && IsElse(r.edges[i]) && r.edges[i].labelText == "ELSE" && r.edges[i].priority == 999
      && r.edges[i].source == d.edges[i].source && r.edges[i].target == d.edges[i].target
      && r.edges[i].id == d.edges[i].id
  {
    d.(edges := seq(|d.edges|, i requires 0 <= i < |d.edges| =>
      if d.edges[i].id == edgeId then d.edges[i].(labelText := "ELSE", priority := 999, conditionGroup := None)
      else d.edges[i]))
  }

  /** Relabelling an edge as IF or ELSE keeps every edge's endpoints, so no edge starts dangling. */
  lemma RelabelKeepsEdgesResolved(d: WorkflowDefinition, edgeId: string, freshGroupId: string)
    requires EdgesResolved(d)
    ensures EdgesResolved(SetEdgeAsIf(d, edgeId, freshGroupId))
    ensures EdgesResolved(SetEdgeAsElse(d, edgeId))
  {
    var a := SetEdgeAsIf(d, edgeId, freshGroupId);
    var b := SetEdgeAsElse(d, edgeId);
    forall i | 0 <= i < |d.edges| ensures EdgeResolved(a, a.edges[i]) && EdgeResolved(b, b.edges[i]) {
      assert EdgeResolved(d, d.edges[i]);
    }
  }

  /** The definition a new workflow starts with: TRIGGER -> "Set Status" action -> END. */
  const PendingBenefits := "Pending Benefits"
  const DefaultTriggerName := "Trigger: Enrollment"
  const DefaultActionName := "Action: Set Status"
  const DefaultEndName := "End"
  const NextLabel := "Next"
  const CompleteLabel := "Complete"

  function MakeDefaultDefinition(trig: string, act1: string, end: string, actionId: string,
                                 edge1: string, edge2: string): WorkflowDefinition
  {
    WorkflowDefinition(
      [ HubNode(trig, Trigger, DefaultTriggerName, []),
        HubNode(act1, ActionStep, DefaultActionName, [SetStatus(actionId, PendingBenefits)]),
        HubNode(end, End, DefaultEndName, []) ],
      [ HubEdge(edge1, trig, act1, 1, NextLabel, None),
        HubEdge(edge2, act1, end, 1, CompleteLabel, None) ])
  }

  /** The default definition passes the publish check whatever ids it is given. */
  lemma DefaultDefinitionValid(trig: string, act1: string, end: string, actionId: string,
                               edge1: string, edge2: string)
    ensures ValidateForPublish(MakeDefaultDefinition(trig, act1, end, actionId, edge1, edge2)).None?
  {
    var d := MakeDefaultDefinition(trig, act1, end, actionId, edge1, edge2);
    assert d.nodes[0].kind == Trigger && d.nodes[2].kind == End;
    assert d.nodes[0].id == trig && d.nodes[1].id == act1 && d.nodes[2].id == end;
    assert EdgeResolved(d, d.edges[0]) && EdgeResolved(d, d.edges[1]);
  }
}

=== FILE: workflow_store.dfy ===
/**
 * The workflow list the engine view keeps: creating a workflow, toggling and
 * exclusive activation, publishing the draft as a new numbered version,
 * picking the latest published version, gated test runs that append to the
 * audit log, and the audit CSV export.
 *
 * Timestamps of workflows and versions are integers (the milliseconds of a
 * clock reading passed in); the audit entry's time is the ISO text passed in.
 */
module WorkflowStore {
  import opened Options
  import opened Conditions
  import opened WorkflowGraph
  import opened WorkflowExecutor
  import opened Lists
  import Strings
  import Csv

  datatype AccountType = EV | PA | IV | WCPI

  datatype TriggerType = RuleEngine | StatusChange | FieldUpdate | ManualOverride

  function AccountTypeCode(a: AccountType): string {
    match a
    case EV => "EV"
    case PA => "PA"
    case IV => "IV"
    case WCPI => "WCPI"
  }

  function TriggerTypeCode(t: TriggerType): string {
    match t
    case RuleEngine => "RULE_ENGINE"
    case StatusChange => "STATUS_CHANGE"
    case FieldUpdate => "FIELD_UPDATE"
    case ManualOverride => "MANUAL_OVERRIDE"
  }

  datatype EnrollmentConfig = EnrollmentConfig(
    enabled: bool,
    triggerType: TriggerType,
    reEnroll: bool,
    enrollmentGroup: ConditionGroup)

  datatype WorkflowVersion = WorkflowVersion(
    version: int,
    createdAt: int,
    updatedAt: int,
    definition: WorkflowDefinition)

  datatype WorkflowMeta = WorkflowMeta(
    id: string,
    accountType: AccountType,
    name: string,
    description: string,
    isActive: bool,
    createdAt: int,
    updatedAt: int,
    draft: WorkflowDefinition,
    versions: seq<WorkflowVersion>,
    enrollment: EnrollmentConfig)

  /** An action as the audit log records it: its type code and its one-line summary. */
  datatype ExecutedAction = ExecutedAction(actionType: string, summary: string)

  /** One audit entry; "" stands for an absent `winningRuleCode`. */
  datatype WorkflowAuditLog = WorkflowAuditLog(
    id: string,
    createdAt: string,
    accountType: AccountType,
    workflowId: string,
    workflowName: string,
    workflowVersion: int,
    entityId: string,
    triggerType: TriggerType,
    winningRuleCode: string,
    chosenPath: Option<PathStep>,
    executedActions: seq<ExecutedAction>,
    finalStatus: string,
    assignedTo: string,
    notes: string)

  /** The enrollment gate a new workflow starts with: status EQUALS "Pending Benefits". */
  function DefaultEnrollmentGroup(groupId: string, conditionId: string): ConditionGroup {
    ConditionGroup(groupId, And, [Condition(conditionId, Status, Equals, Some(PendingBenefits))])
  }

  /** The ids a new workflow needs, all drawn by the caller. */
  datatype FreshIds = FreshIds(
    workflow: string, trig: string, act1: string, end: string, action: string,
    edge1: string, edge2: string, group: string, condition: string)

  /**
   * A new workflow: active, its default definition both as draft and as
   * version 1, enrollment enabled on the RULE_ENGINE trigger with the default gate.
   */
  function MakeWorkflowMeta(accountType: AccountType, name: string, description: string,
                            ids: FreshIds, created: int): (w: WorkflowMeta)
    ensures w.isActive && w.accountType == accountType && w.id == ids.workflow
    ensures |w.versions| == 1 && w.versions[0].version == 1 && w.versions[0].definition == w.draft
    ensures ValidateForPublish(w.draft).None?
    ensures w.enrollment.enabled && HasConditions(Some(w.enrollment.enrollmentGroup))
  {
    var base := MakeDefaultDefinition(ids.trig, ids.act1, ids.end, ids.action, ids.edge1, ids.edge2);
    DefaultDefinitionValid(ids.trig, ids.act1, ids.end, ids.action, ids.edge1, ids.edge2);
    WorkflowMeta(ids.workflow, accountType, name, description, true, created, created, base,
                 [WorkflowVersion(1, created, created, base)],
                 EnrollmentConfig(true, RuleEngine, false, DefaultEnrollmentGroup(ids.group, ids.condition)))
  }

  /** Whether a run of `w` on `inputs` gets past the enrollment gate. */
  predicate Enrolled(w: WorkflowMeta, inputs: EvalInputs) {
    !w.enrollment.enabled || GroupMatches(Some(w.enrollment.enrollmentGroup), inputs)
  }

  /** A new workflow enrolls exactly the records whose status normalizes like "Pending Benefits". */
  lemma NewWorkflowEnrollment(accountType: AccountType, name: string, description: string,
                              ids: FreshIds, created: int, inputs: EvalInputs)
    ensures Enrolled(MakeWorkflowMeta(accountType, name, description, ids, created), inputs)
        <==> Strings.Normalize(inputs.status) == Strings.Normalize(PendingBenefits)
  {
    var g := DefaultEnrollmentGroup(ids.group, ids.condition);
    assert GroupMatches(Some(g), inputs) <==> ConditionMatches(g.items[0], inputs);
  }

  /** The one workflow with id `workflowId`, toggled; every other workflow as it was. */
  function ToggleWorkflowActive(ws: seq<WorkflowMeta>, workflowId: string, t: int): (r: seq<WorkflowMeta>)
    ensures |r| == |ws|
    ensures forall i :: 0 <= i < |ws| && ws[i].id != workflowId ==> r[i] == ws[i]
    ensures forall i :: 0 <= i < |ws| && ws[i].id == workflowId ==>
      r[i] == ws[i].(isActive := !ws[i].isActive, updatedAt := t)
  {
    seq(|ws|, i requires 0 <= i < |ws| =>
      if ws[i].id == workflowId then ws[i].(isActive := !ws[i].isActive, updatedAt := t) else ws[i])
  }

  /** Toggling the same workflow twice restores every active flag. */
  lemma ToggleTwice(ws: seq<WorkflowMeta>, workflowId: string, t1: int, t2: int)
    ensures var r := ToggleWorkflowActive(ToggleWorkflowActive(ws, workflowId, t1), workflowId, t2);
      |r| == |ws| && forall i :: 0 <= i < |ws| ==> r[i].isActive == ws[i].isActive
  {
  }

  /** `k` is where `ws.find(w => w.id === id)` stops. */
  predicate IsFirstWithId(ws: seq<WorkflowMeta>, k: int, id: string) {
    0 <= k < |ws| && ws[k].id == id && forall j :: 0 <= j < k ==> ws[j].id != id
  }

  lemma FindFirstWithId(ws: seq<WorkflowMeta>, id: string)
    ensures Find(ws, (w: WorkflowMeta) => w.id == id).None? <==> forall i :: 0 <= i < |ws| ==> ws[i].id != id
    ensures forall k :: IsFirstWithId(ws, k, id) ==> Find(ws, (w: WorkflowMeta) => w.id == id) == Some(ws[k])
  {
    var f := Find(ws, (w: WorkflowMeta) => w.id == id);
    forall k | IsFirstWithId(ws, k, id) ensures f == Some(ws[k]) {
      var m :| 0 <= m < |ws| && ws[m] == f.value && forall i :: 0 <= i < m ==> ws[i].id != id;
      assert m == k;
    }
  }

  /**
   * Makes `workflowId` the only active workflow of its account type: every
   * workflow of the type of the first workflow with that id gets
   * `isActive := (id == workflowId)`; workflows of other types are untouched;
   * an unknown id changes nothing.
   */
  function SetOnlyOneActive(ws: seq<WorkflowMeta>, workflowId: string, t: int): (r: seq<WorkflowMeta>)
    ensures |r| == |ws|
    ensures (forall i :: 0 <= i < |ws| ==> ws[i].id != workflowId) ==> r == ws
    ensures forall k, i :: IsFirstWithId(ws, k, workflowId) && 0 <= i < |ws| ==>
      (ws[i].accountType == ws[k].accountType ==> r[i] == ws[i].(isActive := ws[i].id == workflowId, updatedAt := t))
      && (ws[i].accountType != ws[k].accountType ==> r[i] == ws[i])
  {
    FindFirstWithId(ws, workflowId);
    match Find(ws, (w: WorkflowMeta) => w.id == workflowId)
    case None => ws
    case Some(target) =>
      seq(|ws|, i requires 0 <= i < |ws| =>
        if ws[i].accountType == target.accountType then ws[i].(isActive := ws[i].id == workflowId, updatedAt := t)
        else ws[i])
  }

  /** Ids are unique in a workflow list. */
  predicate UniqueIds(ws: seq<WorkflowMeta>) {
    forall i, j :: 0 <= i < j < |ws| ==> ws[i].id != ws[j].id
  }

  /**
   * After `SetOnlyOneActive` on a known id in a list with unique ids, exactly one
   * workflow of that account type is active: the chosen one.
   */
  lemma OnlyOneActive(ws: seq<WorkflowMeta>, k: nat, t: int)
    requires k < |ws| && UniqueIds(ws)
    ensures var r := SetOnlyOneActive(ws, ws[k].id, t);
      r[k].isActive && forall i :: 0 <= i < |r| && r[i].accountType == ws[k].accountType && r[i].isActive ==> i == k
  {
    var r := SetOnlyOneActive(ws, ws[k].id, t);
    assert IsFirstWithId(ws, k, ws[k].id);
    forall i | 0 <= i < |r| && r[i].accountType == ws[k].accountType && r[i].isActive ensures i == k {
      assert r[i].id == ws[k].id;
    }
  }

  /** `Math.max(...versions.map(v => v.version), 0)`. */
  function MaxVersion(vs: seq<WorkflowVersion>): (m: int)
    ensures m >= 0
    ensures forall i :: 0 <= i < |vs| ==> vs[i].version <= m
    ensures m == 0 || exists i :: 0 <= i < |vs| && vs[i].version == m
  {
    if |vs| == 0 then 0
    else
      var rest := MaxVersion(vs[1..]);
      assert forall i :: 1 <= i < |vs| ==> vs[i] == vs[1..][i - 1];
      if vs[0].version > rest then vs[0].version else rest
  }

  /** The order of `versions.sort((a, b) => b.version - a.version)`: higher versions first. */
  predicate VersionDescLe(a: WorkflowVersion, b: WorkflowVersion) {
    b.version <= a.version
  }

  /**
   * `selectedPublished`: the head of the versions sorted by descending version
   * number. The sort is stable, so among versions sharing the highest number
   * it is the first one in the list.
   */
  function LatestVersion(vs: seq<WorkflowVersion>): (r: Option<WorkflowVersion>)
    ensures r.None? <==> |vs| == 0
    ensures r.Some? ==> r.value in vs && forall i :: 0 <= i < |vs| ==> vs[i].version <= r.value.version
    ensures r.Some? ==>
      exists k :: 0 <= k < |vs| && vs[k] == r.value && forall i :: 0 <= i < k ==> vs[i].version < r.value.version
  {
    if |vs| == 0 then None
    else
      var sorted := SortBy(vs, VersionDescLe);
      SortBySorted(vs, VersionDescLe);
      assert sorted[0] in multiset(sorted);
      forall i | 0 <= i < |vs| ensures vs[i].version <= sorted[0].version {
        assert vs[i] in multiset(sorted);
        var j :| 0 <= j < |sorted| && sorted[j] == vs[i];
        assert j == 0 || VersionDescLe(sorted[0], sorted[j]);
      }
      SortedHeadIsFirstOfMax(vs);
      Some(sorted[0])
  }

  /** The head of the descending sort is preceded in `vs` only by lower versions. */
  lemma {:induction false} SortedHeadIsFirstOfMax(vs: seq<WorkflowVersion>)
    requires |vs| > 0
    ensures var h := SortBy(vs, VersionDescLe)[0];
      exists k :: 0 <= k < |vs| && vs[k] == h && forall i :: 0 <= i < k ==> vs[i].version < h.version
  {
    var t := SortBy(vs[1..], VersionDescLe);
    assert SortBy(vs, VersionDescLe) == Insert(vs[0], t, VersionDescLe);
    if |t| == 0 || VersionDescLe(vs[0], t[0]) {
      assert vs[0] == SortBy(vs, VersionDescLe)[0];
    } else {
      SortedHeadIsFirstOfMax(vs[1..]);
      var k :| 0 <= k < |vs[1..]| && vs[1..][k] == t[0] && forall i :: 0 <= i < k ==> vs[1..][i].version < t[0].version;
      assert t[0] == SortBy(vs, VersionDescLe)[0];
      assert vs[k + 1] == t[0];
      forall i | 0 <= i < k + 1 ensures vs[i].version < t[0].version {
        if i > 0 {
          assert vs[i] == vs[1..][i - 1];
        }
      }
    }
  }

  /** A version numbered above every other, put in front, is the latest. */
  lemma {:induction false} NewestInFrontIsLatest(v: WorkflowVersion, vs: seq<WorkflowVersion>)
    requires forall i :: 0 <= i < |vs| ==> vs[i].version < v.version
    ensures LatestVersion([v] + vs) == Some(v)
  {
    var s := [v] + vs;
    assert s[1..] == vs;
    var sorted := SortBy(vs, VersionDescLe);
    if |vs| > 0 {
      assert sorted[0] in multiset(vs);
      assert VersionDescLe(v, sorted[0]);
    }
  }

  /** The version `publishNewVersion` creates for the workflow `sel` at time `t`. */
  function NewVersion(sel: WorkflowMeta, t: int): WorkflowVersion {
    WorkflowVersion(MaxVersion(sel.versions) + 1, t, t, sel.draft)
  }

  /**
   * `publishNewVersion` on the workflow with id `selectedId`: nothing changes
   * when there is no such workflow or the first one's draft fails the publish
   * checks; otherwise every workflow with that id gets the new version in front.
   */
  function PublishNewVersion(ws: seq<WorkflowMeta>, selectedId: string, t: int): (r: seq<WorkflowMeta>)
    ensures |r| == |ws|
    ensures forall i :: 0 <= i < |ws| && ws[i].id != selectedId ==> r[i] == ws[i]
    ensures (forall i :: 0 <= i < |ws| ==> ws[i].id != selectedId) ==> r == ws
    ensures forall k :: IsFirstWithId(ws, k, selectedId) && ValidateForPublish(ws[k].draft).Some? ==> r == ws
    ensures forall k, i ::
      (IsFirstWithId(ws, k, selectedId) && ValidateForPublish(ws[k].draft).None?
       && 0 <= i < |ws| && ws[i].id == selectedId) ==>
      r[i] == ws[i].(updatedAt := t, versions := [NewVersion(ws[k], t)] + ws[i].versions)
  {
    FindFirstWithId(ws, selectedId);
    match Find(ws, (w: WorkflowMeta) => w.id == selectedId)
    case None => ws
    case Some(sel) =>
      PublishBlockAgrees(sel.draft);
      if PublishBlock(sel.draft).Some? then ws
      else
        var v := NewVersion(sel, t);
        seq(|ws|, i requires 0 <= i < |ws| =>
          if ws[i].id != selectedId then ws[i] else ws[i].(updatedAt := t, versions := [v] + ws[i].versions))
  }

  /**
   * A successful publish of the first workflow with a given id prepends exactly
   * one version, numbered above every existing one, holding the draft; it is
   * then the latest published version.
   */
  lemma PublishPrependsOneVersion(ws: seq<WorkflowMeta>, k: nat, t: int)
    requires k < |ws|
    requires IsFirstWithId(ws, k, ws[k].id)
    requires ValidateForPublish(ws[k].draft).None?
    ensures var r := PublishNewVersion(ws, ws[k].id, t);
      && |r[k].versions| == |ws[k].versions| + 1
      && r[k].versions[1..] == ws[k].versions
      && r[k].versions[0].definition == ws[k].draft
      && (forall i :: 0 <= i < |ws[k].versions| ==> ws[k].versions[i].version < r[k].versions[0].version)
      && LatestVersion(r[k].versions) == Some(r[k].versions[0])
  {
    var r := PublishNewVersion(ws, ws[k].id, t);
    var v := NewVersion(ws[k], t);
    assert r[k].versions == [v] + ws[k].versions;
    NewestInFrontIsLatest(v, ws[k].versions);
  }

  /** `a.type` as the audit log writes it. */
  function ActionTypeCode(a: WorkflowAction): string {
    match a
    case SetStatus(_, _) => "SET_STATUS"
    case AutofillFields(_, _) => "AUTOFILL_FIELDS"
    case AssignUser(_, _, _) => "ASSIGN_USER"
    case SendEmail(_, _, _) => "SEND_EMAIL"
  }

  /** Two actions are of the same kind. */
  predicate SameKind(a: WorkflowAction, b: WorkflowAction) {
    || (a.SetStatus? && b.SetStatus?)
    || (a.AutofillFields? && b.AutofillFields?)
    || (a.AssignUser? && b.AssignUser?)
    || (a.SendEmail? && b.SendEmail?)
  }

  /** The type column of a logged action identifies its kind: two codes agree exactly for actions of one kind. */
  lemma ActionTypeCodeIdentifiesKind(a: WorkflowAction, b: WorkflowAction)
    ensures ActionTypeCode(a) == ActionTypeCode(b) <==> SameKind(a, b)
  {
  }

  function Summaries(actions: seq<WorkflowAction>): (r: seq<ExecutedAction>)
    ensures |r| == |actions|
    ensures forall i :: 0 <= i < |actions| ==>
      r[i] == ExecutedAction(ActionTypeCode(actions[i]), SummarizeAction(actions[i]))
  {
    seq(|actions|, i requires 0 <= i < |actions| =>
      ExecutedAction(ActionTypeCode(actions[i]), SummarizeAction(actions[i])))
  }

  /** What the Test tab shows after a run. */
  datatype TestResult = TestResult(ok: bool, message: string)

  /** `x || fallback` on strings. */
  function OrElse(x: string, fallback: string): string {
    if x == "" then fallback else x
  }

  /** A run that gets through every gate and whose simulation succeeds: the only runs that are logged. */
  predicate RunLogged(workflow: Option<WorkflowMeta>, published: Option<WorkflowVersion>, inputs: EvalInputs) {
    && workflow.Some? && published.Some?
    && workflow.value.isActive
    && Enrolled(workflow.value, inputs)
    && Simulate(published.value.definition, inputs).ok
  }

  const SelectFirstText := "Select a workflow first."
  const InactiveText := "Selected workflow is inactive. Activate it or choose an active workflow."
  const NotEnrolledText := "Not enrolled: enrollment trigger conditions did not match."

  /** The message of a logged run: how the run ended and the status it leaves. */
  function CompletedText(sim: SimResult, inputs: EvalInputs): string {
    ReasonText(sim.reason) + " Final Status: \"" + OrElse(sim.finalStatus, inputs.status) + "\"."
  }

  /**
   * `runTestFor`: with no workflow or no published version, an inactive
   * workflow, a record the enrollment gate rejects, or a failed simulation,
   * only a message is shown; otherwise the run is shown and one audit entry
   * describing it is put in front of the log.
   */
  function RunTestFor(workflow: Option<WorkflowMeta>, published: Option<WorkflowVersion>,
                      triggerType: TriggerType, inputs: EvalInputs, logId: string, now: string,
                      logs: seq<WorkflowAuditLog>): (r: (TestResult, seq<WorkflowAuditLog>))
    ensures !RunLogged(workflow, published, inputs) ==> r.1 == logs
    ensures RunLogged(workflow, published, inputs) ==> |r.1| == |logs| + 1 && r.1[1..] == logs
    ensures RunLogged(workflow, published, inputs) ==>
      var sim := Simulate(published.value.definition, inputs);
      var entry := r.1[0];
      && entry.workflowId == workflow.value.id
      && entry.workflowVersion == published.value.version
      && entry.triggerType == triggerType
      && entry.executedActions == Summaries(sim.executed)
      && entry.finalStatus == OrElse(LastStatus(sim.executed, inputs.status), inputs.status)
      && entry.assignedTo == LastAssignee(sim.executed)
      && entry.chosenPath == sim.chosenPath
      && entry.entityId == OrElse(inputs.entityId, Dash)
      && entry.workflowName == workflow.value.name
      && entry.accountType == workflow.value.accountType
      && entry.winningRuleCode == inputs.winningRuleCode
    ensures r.0.ok <==> RunLogged(workflow, published, inputs)
                        || (workflow.Some? && published.Some? && workflow.value.isActive
                            && !Enrolled(workflow.value, inputs))
    ensures workflow.None? || published.None? ==> r.0.message == SelectFirstText
    ensures workflow.Some? && published.Some? && !workflow.value.isActive ==> r.0.message == InactiveText
    ensures workflow.Some? && published.Some? && workflow.value.isActive && !Enrolled(workflow.value, inputs) ==>
      r.0.message == NotEnrolledText
    ensures workflow.Some? && published.Some? && workflow.value.isActive && Enrolled(workflow.value, inputs) ==>
      var sim := Simulate(published.value.definition, inputs);
      && (!sim.ok ==> r.0.message == ReasonText(sim.reason))
      && (sim.ok ==> r.0.message == ReasonText(sim.reason) + " Final Status: \"" + r.1[0].finalStatus + "\".")
  {
    if workflow.None? || published.None? then
      (TestResult(false, SelectFirstText), logs)
    else
      var w := workflow.value;
      var p := published.value;
      if !w.isActive then
        (TestResult(false, InactiveText), logs)
      else if !Enrolled(w, inputs) then
        (TestResult(true, NotEnrolledText), logs)
      else
        var sim := Simulate(p.definition, inputs);
        if !sim.ok then (TestResult(false, ReasonText(sim.reason)), logs)
        else
          (TestResult(true, CompletedText(sim, inputs)), [RunEntry(w, p, triggerType, inputs, logId, now)] + logs)
  }

  /**
   * A new workflow, run from the Test tab on a record whose status normalizes
   * like "Pending Benefits", gets past its gate and logs exactly one entry:
   * version 1, the default definition's single SET_STATUS, "Pending Benefits"
   * as the final status, and the step from the action node into "End" as the path.
   */
  lemma NewWorkflowRunLogsOnce(accountType: AccountType, name: string, description: string,
                               ids: FreshIds, created: int, triggerType: TriggerType, inputs: EvalInputs,
                               logId: string, now: string, logs: seq<WorkflowAuditLog>)
    requires ids.trig != ids.act1 && ids.act1 != ids.end && ids.trig != ids.end
    requires Strings.Normalize(inputs.status) == Strings.Normalize(PendingBenefits)
    ensures var w := MakeWorkflowMeta(accountType, name, description, ids, created);
      var r := RunTestFor(Some(w), Some(w.versions[0]), triggerType, inputs, logId, now, logs);
      && r.0.ok && |r.1| == |logs| + 1 && r.1[1..] == logs
      && r.1[0].workflowId == ids.workflow && r.1[0].workflowVersion == 1
      && r.1[0].executedActions == Summaries([SetStatus(ids.action, PendingBenefits)])
      && r.1[0].finalStatus == PendingBenefits
      && r.1[0].chosenPath == Some(PathStep(DefaultActionName, DefaultEndName, CompleteLabel))
  {
    var w := MakeWorkflowMeta(accountType, name, description, ids, created);
    NewWorkflowRuns(accountType, name, description, ids, created, inputs);
    LoggedRun(w, w.versions[0], triggerType, inputs, logId, now, logs,
              [SetStatus(ids.action, PendingBenefits)], PendingBenefits,
              Some(PathStep(DefaultActionName, DefaultEndName, CompleteLabel)));
  }

  /** A new workflow is active, enrolls the record, and its version 1 completes with "Pending Benefits". */
  lemma NewWorkflowRuns(accountType: AccountType, name: string, description: string,
                        ids: FreshIds, created: int, inputs: EvalInputs)
    requires ids.trig != ids.act1 && ids.act1 != ids.end && ids.trig != ids.end
    requires Strings.Normalize(inputs.status) == Strings.Normalize(PendingBenefits)
    ensures var w := MakeWorkflowMeta(accountType, name, description, ids, created);
      var sim := Simulate(w.versions[0].definition, inputs);
      && w.isActive && Enrolled(w, inputs) && w.id == ids.workflow && w.versions[0].version == 1
      && |w.versions[0].definition.nodes| > 0
      && sim.ok && sim.executed == [SetStatus(ids.action, PendingBenefits)]
      && sim.chosenPath == Some(PathStep(DefaultActionName, DefaultEndName, CompleteLabel))
  {
    var w := MakeWorkflowMeta(accountType, name, description, ids, created);
    NewWorkflowEnrollment(accountType, name, description, ids, created, inputs);
    DefaultDefinitionCompletes(ids.trig, ids.act1, ids.end, ids.action, ids.edge1, ids.edge2, inputs);
    assert w.versions[0].definition == MakeDefaultDefinition(ids.trig, ids.act1, ids.end, ids.action, ids.edge1, ids.edge2);
  }

  /** A run that passes the gates and succeeds logs one entry built from what the simulation returned. */
  lemma LoggedRun(w: WorkflowMeta, p: WorkflowVersion, triggerType: TriggerType, inputs: EvalInputs,
                  logId: string, now: string, logs: seq<WorkflowAuditLog>,
                  executed: seq<WorkflowAction>, status: string, path: Option<PathStep>)
    requires w.isActive && Enrolled(w, inputs) && |p.definition.nodes| > 0
    requires var sim := Simulate(p.definition, inputs);
      sim.ok && sim.executed == executed && sim.chosenPath == path
    requires LastStatus(executed, inputs.status) == status && status != ""
    ensures var r := RunTestFor(Some(w), Some(p), triggerType, inputs, logId, now, logs);
      && r.0.ok && |r.1| == |logs| + 1 && r.1[1..] == logs
      && r.1[0].workflowId == w.id && r.1[0].workflowVersion == p.version
      && r.1[0].executedActions == Summaries(executed)
      && r.1[0].finalStatus == status
      && r.1[0].chosenPath == path
  {
    assert RunLogged(Some(w), Some(p), inputs);
  }

  /** The audit entry a logged run writes: who ran what, the path taken, the actions and the resulting status. */
  function RunEntry(w: WorkflowMeta, p: WorkflowVersion, triggerType: TriggerType, inputs: EvalInputs,
                    logId: string, now: string): (entry: WorkflowAuditLog)
    ensures
      var sim := Simulate(p.definition, inputs);
      && entry.workflowId == w.id
      && entry.workflowVersion == p.version
      && entry.triggerType == triggerType
      && entry.executedActions == Summaries(sim.executed)
      && entry.finalStatus == OrElse(sim.finalStatus, inputs.status)
      && (|p.definition.nodes| > 0 ==> entry.finalStatus == OrElse(LastStatus(sim.executed, inputs.status), inputs.status))
      && entry.assignedTo == sim.assignedTo
      && (|p.definition.nodes| > 0 ==> entry.assignedTo == LastAssignee(sim.executed))
      && entry.chosenPath == sim.chosenPath
      && entry.entityId == OrElse(inputs.entityId, Dash)
      && entry.entityId != ""
      && entry.id == logId && entry.createdAt == now
      && entry.accountType == w.accountType && entry.workflowName == w.name
      && entry.winningRuleCode == inputs.winningRuleCode
      && entry.notes == SimulatedNote
  {
    var sim := Simulate(p.definition, inputs);
    WorkflowAuditLog(
      logId, now, w.accountType, w.id, w.name, p.version,
      OrElse(inputs.entityId, Dash), triggerType, inputs.winningRuleCode,
      sim.chosenPath, Summaries(sim.executed), OrElse(sim.finalStatus, inputs.status), sim.assignedTo,
      SimulatedNote)
  }

  /** The entity id logged when the record has none. */
  const Dash := "\U{2014}"

  const SimulatedNote := "Simulated via Test tab (UI demo). Production should log from backend runtime."

  /** The fifteen columns of the audit export. */
  const AuditHeaders: seq<string> := [
    "time", "accountType", "workflowId", "workflowName", "workflowVersion", "entityId",
    "triggerType", "winningRuleCode", "finalStatus", "assignedTo", "pathFrom", "pathTo",
    "pathLabel", "actions", "notes"]

  function SummaryTexts(actions: seq<ExecutedAction>): (r: seq<string>)
    ensures |r| == |actions| && forall i :: 0 <= i < |actions| ==> r[i] == actions[i].summary
  {
    seq(|actions|, i requires 0 <= i < |actions| => actions[i].summary)
  }

  /** One log entry as an export row, in header order. */
  function AuditRow(l: WorkflowAuditLog): (row: seq<string>)
    ensures |row| == |AuditHeaders|
    ensures row[0] == l.createdAt && row[2] == l.workflowId && row[3] == l.workflowName
    ensures row[5] == l.entityId && row[7] == l.winningRuleCode
    ensures row[8] == l.finalStatus && row[9] == l.assignedTo && row[14] == l.notes
    ensures l.chosenPath.None? ==> row[10] == "" && row[11] == "" && row[12] == ""
    ensures l.chosenPath.Some? ==>
      row[10] == l.chosenPath.value.from && row[11] == l.chosenPath.value.to && row[12] == l.chosenPath.value.edgeLabel
    ensures row[1] == AccountTypeCode(l.accountType) && row[4] == Strings.IntToString(l.workflowVersion)
    ensures row[6] == TriggerTypeCode(l.triggerType)
    ensures row[13] == Strings.Join(SummaryTexts(l.executedActions), " | ")
  {
    var path := l.chosenPath;
    [ l.createdAt, AccountTypeCode(l.accountType), l.workflowId, l.workflowName,
      Strings.IntToString(l.workflowVersion), l.entityId, TriggerTypeCode(l.triggerType),
      l.winningRuleCode, l.finalStatus, l.assignedTo,
      if path.Some? then path.value.from else "",
      if path.Some? then path.value.to else "",
      if path.Some? then path.value.edgeLabel else "",
      Strings.Join(SummaryTexts(l.executedActions), " | "),
      l.notes ]
  }

  /** The header row followed by one row per entry. */
  function AuditTable(logs: seq<WorkflowAuditLog>): (t: seq<seq<string>>)
    ensures |t| == |logs| + 1 && t[0] == AuditHeaders
    ensures forall i :: 0 <= i < |logs| ==> t[i + 1] == AuditRow(logs[i])
  {
    [AuditHeaders] + seq(|logs|, i requires 0 <= i < |logs| => AuditRow(logs[i]))
  }

  /**
   * The audit export: the text reads back, under the export's CSV dialect, as
   * the header row and exactly one fifteen-field row per entry, whatever quotes,
   * commas or line feeds the fields contain.
   */
  function ExportAuditCsv(logs: seq<WorkflowAuditLog>): (csv: string)
    ensures Csv.Parse(csv) == Some(AuditTable(logs))
    ensures |Csv.Parse(csv).value| == |logs| + 1
    ensures forall k :: 0 <= k < |logs| + 1 ==> |Csv.Parse(csv).value[k]| == 15
  {
    var table := AuditTable(logs);
    AuditTableShape(logs);
    Csv.ParseEncode(table);
    Csv.Encode(table)
  }

  lemma AuditTableShape(logs: seq<WorkflowAuditLog>)
    ensures forall k :: 0 <= k < |AuditTable(logs)| ==> |AuditTable(logs)[k]| == 15
  {
    var table := AuditTable(logs);
    forall k | 0 <= k < |table| ensures |table[k]| == 15 {
      if k > 0 {
        assert table[k] == AuditRow(logs[k - 1]);
      }
    }
  }
}
